=== FILE: README.md ===
# Study agent ingestion core, in Dafny

This project models the deterministic core of the study agent's ingestion
pipeline and its retrieval tools. Uploaded course files are recorded in a
manifest (the file registry). Each entry has a processing status and a
list of derived artifacts. The pipeline stages all work off the manifest:

- text extraction;
- exam-coverage extraction;
- table-of-contents (TOC) extraction;
- chapter-scoped chunking into an append-only JSON-lines chunk ledger.

The agent-facing tools run the same stages one file at a time, with a
cache. The textbook search and the readiness check sit on top of their
results.

The files, and the results of the PDF reader, the tokenizer, the LLM
extractors, the id hash and the vector search, are parameters. The disk is
a map from file names to `Stored<T> = Missing | Corrupt | Valid(T)`. The
tokenizer is a pair of function values (`encode`, `decode`). Every
operation is a pure function over these values. Its contract says what the
stage promises, and lemmas relate the stages to each other: round trips,
idempotence, what a second run does, and stability and permutation of the
sorts.

Modules, one per source file or component:

| module | models |
|---|---|
| `Wrappers` | `Option`, `Result`, `Stored` and the shared load rule |
| `Text` | `str.strip`, `str.lower` (ASCII), `str.split(sep)`, `str.split()`, `join` |
| `Seqs`, `StableSort` | counting, Python slice bounds, and `list.sort(key=...)` as a stable insertion sort |
| `Manifest`, `ManifestIO` | `app/models/manifest.py` and `app/tools/manifest_io.py` |
| `TextExtraction`, `CoverageExtraction`, `TocExtraction` | the batch stages |
| `Coverage` | the validators of `ExamCoverage` |
| `Toc` | `app/tools/toc_extract.py`: the TOC page detector, the chapter repair and `extract_toc` |
| `TokenWindows` | `chunk_text` and `_split_by_tokens` |
| `Splitter` | the recursive character splitter and `_merge_splits` |
| `PageDrivers` | the page loops of `chunk_pages_semantic` and `chunk_page_ranges_semantic`, over any function that chunks one page |
| `PageChunking` | the same two loops with the splitter as the page function |
| `ChunkStore` | the JSON-lines chunk ledger |
| `SmartChunking` | `chunk_textbook_smart` |
| `DocClassify` | `classify_doc` |
| `StageTools` | the per-file agent tools in `app/agents/tools.py` |
| `Retrieval` | the retry guard, filters and formatting of `search_textbook`, and `check_readiness` |

## Model

| member | source | states |
|---|---|---|
| Wrappers.Load | app/tools/manifest_io.py:12-21 | a stored artifact loads as `None` exactly when it is absent or does not parse, and otherwise as its parsed content |
| Text.Strip | app/tools/chunk_store.py:40 | stripping removes whitespace from the two ends only: the result is a slice of the text with whitespace-only text before and after it, and has no whitespace at either end; it is empty exactly when the text is whitespace-only |
| Text.Lower | app/agents/tools.py:1186 | lower-casing keeps the length, leaves no ASCII capital, moves each capital to its lower-case partner and keeps every other character |
| Text.LowerIdempotent | app/agents/tools.py:1186 | lowering twice is lowering once, and a text is unchanged by lowering exactly when it has no capital |
| Text.SplitOn | app/tools/semantic_chunking.py:87 | `text.split(sep)` gives at least one part; no part is longer than the text, and every part is shorter once a cut was made |
| Text.SplitOnCutsAtEveryOccurrence | app/tools/semantic_chunking.py:87 | the cuts fall at the leftmost remaining occurrences: no part contains `sep`, and no occurrence of `sep` starts inside a part and runs into the `sep` that follows it |
| Text.SplitOnAbsent | app/tools/semantic_chunking.py:87 | a text without `sep` splits into the one-element list holding it |
| Text.JoinSplitOn | app/tools/semantic_chunking.py:87 | joining the parts of `text.split(sep)` with `sep` gives the text back |
| Text.Words | app/agents/tools.py:1186 | every element of `split()` is a non-empty run without whitespace |
| Text.WordsWithGaps | app/agents/tools.py:1186 | the words of `split()`, interleaved with whitespace-only gaps, rebuild the text, with at least one whitespace character between consecutive words |
| Text.WordsOfInterleave | app/agents/tools.py:1186 | any such split of a text into words and whitespace gaps is the one `split()` returns, so the words are the maximal whitespace-free runs |
| Text.WordsOfJoinedWords | app/agents/tools.py:1186 | splitting a single-space join of words gives the words back |
| Seqs.CountPartition3 | app/tools/manifest_io.py:70-96 | when each position holds one of three outcomes, the three counts add up to the length |
| StableSort.SortBy | app/tools/toc_extract.py:266 | the key sort returns a sorted list of the same length |
| StableSort.SortByPermutes | app/tools/smart_chunking.py:71 | the key sort is a permutation of its input |
| StableSort.SortByIsStable | app/tools/toc_extract.py:266 | elements with equal keys keep their input order, as Python's sort guarantees |
| StableSort.SortBySorted | app/tools/toc_extract.py:266 | an input already in key order is returned unchanged |
| Manifest.DefaultFile | app/models/manifest.py:6-17 | a new registry entry has doc type `unknown`, status `new`, no artifacts and no error |
| Manifest.DefaultManifest | app/models/manifest.py:20-24 | a fresh registry is version 1 with no files |
| Manifest.AppendIfAbsent | app/tools/text_extraction.py:70-72 | recording an artifact adds it exactly once, keeps the earlier entries in place and keeps a duplicate-free list duplicate-free |
| Manifest.RemoveFirst | app/tools/toc_extraction.py:73-74 | removing an artifact that is absent changes nothing; otherwise one element fewer, only the artifact removed, and a duplicate-free list loses it entirely |
| Manifest.RemoveFirstDropsFirst | app/tools/toc_extraction.py:73-74 | removing cuts out exactly the first occurrence, keeping what precedes and follows it in order |
| Manifest.FindById | app/tools/toc_extraction.py:144-152 | the lookup finds the first entry with the id, or reports that none has it |
| ManifestIO.LoadManifest | app/tools/manifest_io.py:12-21 | the registry loads exactly when the file exists and parses |
| ManifestIO.SaveManifest | app/tools/manifest_io.py:24-33 | the write through the temporary file touches only the registry and the temporary name, and removes the temporary file |
| ManifestIO.SaveThenLoad | app/tools/manifest_io.py:12-33 | loading after saving gives back the saved registry |
| ManifestIO.LastByPath | app/tools/manifest_io.py:59 | the path lookup finds nothing exactly when no entry has the path; otherwise an entry with the path after which no entry has it |
| ManifestIO.LastByPathIsLastMatch | app/tools/manifest_io.py:59 | an entry with no later entry of the same path is the one the lookup finds |
| ManifestIO.OutcomeCountsPartitionScan | app/tools/manifest_io.py:70-96 | every scanned path increments exactly one of the new, stale and unchanged counters |
| ManifestIO.Reconcile | app/tools/manifest_io.py:64-108 | one entry per scanned path, in scan order; an unseen path gets a fresh `new` entry; a changed hash refreshes hash, size and time and marks the entry `stale`, keeping its artifacts and doc type; an unchanged hash keeps the previous entry and its status; the counters count these three classes |
| ManifestIO.UnscannedEntriesDropped | app/tools/manifest_io.py:99-102 | entries for files no longer on disk disappear from the registry |
| ManifestIO.EmptyScanStats | app/tools/manifest_io.py:108 | an empty upload directory reports zero everywhere |
| ManifestIO.ReconcileCarriesScan | app/tools/manifest_io.py:64-108 | every reconciled entry carries the path and hash scanned at its position |
| ManifestIO.RescanIsUnchanged | app/tools/manifest_io.py:64-108 | reconciling the same scan a second time keeps every entry as it is |
| ManifestIO.RescanCountsUnchanged | app/tools/manifest_io.py:70-108 | reconciling the same scan a second time counts every file as unchanged and none as new or stale |
| ManifestIO.UpdateManifest | app/tools/manifest_io.py:36-109 | the saved entries and the reported counters are the reconciliation of the scan against the registry on disk (no entries when it is unreadable); only the registry and the temporary name change; the scan time is recorded; a missing registry starts at version 1 |
| TextExtraction.LoadExtractedText | app/tools/text_extraction.py:95-105 | an extracted text loads exactly when its file exists and parses |
| TextExtraction.FailureMessage | app/tools/text_extraction.py:77-81 | the recorded error is never empty: a missing or empty reader message becomes the fallback text |
| TextExtraction.ExtractEntry | app/tools/text_extraction.py:47-81 | a pending entry becomes `processed` with its text artifact recorded, or `error` with a message; any other entry is left as it is |
| TextExtraction.WriteTexts | app/tools/text_extraction.py:64-72 | each successful extraction is written under its file id; no readable file is lost |
| TextExtraction.WrittenTextLoadsBack | app/tools/text_extraction.py:64-105 | a text the loop wrote loads back exactly as the reader produced it |
| TextExtraction.WriteTextsKeepsUnwritten | app/tools/text_extraction.py:64-72 | texts of files not in the registry are kept |
| TextExtraction.ExtractAllPending | app/tools/text_extraction.py:12-86 | fails exactly when there is no readable registry; otherwise every entry is processed in order, the registry is saved, every extracted text is written, and the counters match the outcomes |
| TextExtraction.SecondRunSkipsAll | app/tools/text_extraction.py:48-50 | a second run skips every entry the first touched and changes nothing |
| Coverage.NormalizeExamId | app/models/coverage.py:22-26 | exam ids are lower-cased, with spaces and hyphens turned into underscores and nothing else moved |
| Coverage.NormalizeExamIdIdempotent | app/models/coverage.py:22-26 | normalising twice is normalising once |
| Coverage.NormalIdIsFixed | app/models/coverage.py:22-26 | an already normal id is unchanged |
| Coverage.SortChapters | app/models/coverage.py:28-32 | the chapter list becomes strictly increasing with exactly the same chapters |
| Coverage.StrictlyIncreasingUnique | app/models/coverage.py:28-32 | a strictly increasing list is determined by its elements, so the validator's result is unique |
| Coverage.SortChaptersIdempotent | app/models/coverage.py:28-32 | validating twice is validating once, and lists with the same chapters validate alike |
| Coverage.MakeCoverage | app/models/coverage.py:12-32 | a constructed record carries the normalised id, a strictly increasing list of exactly the given chapters, and every other field as given |
| Coverage.RevalidateIsIdentity | app/models/coverage.py:12-32 | reloading a saved record gives back the same record |
| CoverageExtraction.CoverEntry | app/tools/coverage_extraction.py:43-89 | only exam overviews with text and without a coverage artifact are extracted; success records the artifact, failure records the error |
| CoverageExtraction.WriteCoverage | app/tools/coverage_extraction.py:75-84 | each covered entry's file holds that entry's extracted record (the last one written under its id); files no covered entry writes are kept, and no other file appears |
| CoverageExtraction.ExtractAllExamOverviews | app/tools/coverage_extraction.py:11-94 | fails exactly when there is no readable registry; otherwise the registry is saved with each entry processed, every extracted coverage record is written, and the counters match the outcomes |
| CoverageExtraction.ExtractedEntryIsSkippedLater | app/tools/coverage_extraction.py:44-56 | an extracted overview is skipped by later runs; a failed one stays eligible |
| Toc.FindTocPages | app/tools/toc_extract.py:102-132 | the detected pages are exactly the TOC-looking ones, ascending and in range |
| Toc.PartPatternNeverMatchesLowered | app/tools/toc_extract.py:112-118 | the part-numeral pattern is applied to lowered text and can never match |
| Toc.TableOfContentsImpliesContents | app/tools/toc_extract.py:108-113 | the `table of contents` keyword is subsumed by `contents` |
| Toc.TocPageCharacterised | app/tools/toc_extract.py:108-130 | a page is taken exactly when it mentions `contents` or `chapter <n>`, or has a numbered line and dot leaders |
| Toc.SortByChapter | app/tools/toc_extract.py:266 | chapters come out sorted by number, as a permutation of the input |
| Toc.FixPageEnd | app/tools/toc_extract.py:270-278 | a chapter with start before end is kept; otherwise its end is set to just before the next start, or to start plus 50 for the last chapter |
| Toc.ValidateAndFix | app/tools/toc_extract.py:254-282 | the repaired list is sorted by number, as long as the input, and repairs each chapter against its sorted successor |
| Toc.ValidateAndFixGuarantee | app/tools/toc_extract.py:270-278 | a repaired last chapter ends after it starts, and a repaired inner chapter ends right before its successor starts |
| Toc.ValidateAndFixCanInvertRange | app/tools/toc_extract.py:254-282 | the repair can produce an end before the start when the successor starts earlier |
| Toc.ValidateAndFixKeepsChapters | app/tools/toc_extract.py:254-282 | the repair keeps every chapter's number, title and start page, and each repaired chapter has the heading of an input chapter |
| Toc.Candidates | app/tools/toc_extract.py:38 | the search looks at the first `min(max_toc_pages, pages)` pages |
| Toc.OneBasedHas | app/tools/toc_extract.py:81-99 | page `p` is reported exactly when index `p - 1` was detected |
| Toc.TocPagesReported | app/tools/toc_extract.py:81-99 | when the detected indices are exactly the TOC-looking candidates, the reported 1-based pages are exactly the TOC-looking pages |
| Toc.ExtractToc | app/tools/toc_extract.py:14-99 | metadata is always returned; with no TOC page there are no chapters and no error; otherwise the TOC pages are reported 1-based, and the chapters are the extractor's reply validated and repaired, or none with the extractor's error |
| Toc.ExtractTocKeepsReplyChapters | app/tools/toc_extract.py:57-99 | when the extractor succeeds, the returned chapters are as many as the reply's, every reply chapter's number, title and start page are among them, and each returned chapter keeps the heading of a reply chapter |
| Toc.ExtractTocIgnoresLaterPages | app/tools/toc_extract.py:38 | pages after the search window never change the result |
| TocExtraction.TocEntry | app/tools/toc_extraction.py:47-112 | non-textbooks, unprocessed entries and saved metadata with chapters (unless forced) are skipped; missing text fails; otherwise the entry is always extracted: the metadata `extract_toc` returns is saved under the file id, its chapters are counted and its artifact recorded |
| TocExtraction.ForcedRunRecordsArtifactOnce | app/tools/toc_extraction.py:73-103 | a forced re-extraction leaves the artifact recorded exactly once |
| TocExtraction.ExtractorErrorCountsAsExtracted | app/tools/toc_extraction.py:93-103 | an extractor error still saves empty metadata and counts as extracted |
| TocExtraction.SuccessfulEntrySkippedLater | app/tools/toc_extraction.py:56-70 | metadata with chapters makes every later unforced run skip the entry |
| TocExtraction.TocLoop | app/tools/toc_extraction.py:46-112 | one entry out per entry in; the three counters add up to the number of entries |
| TocExtraction.StepsAtEntry | app/tools/toc_extraction.py:46-112 | the loop takes, at each entry, the step the loop body gives with the directory earlier entries left |
| TocExtraction.TocLoopCounts | app/tools/toc_extraction.py:46-112 | each counter is the number of steps with that outcome |
| TocExtraction.TocLoopChapters | app/tools/toc_extraction.py:46-112 | the chapter total is the sum of the steps' chapter counts, which only extracted steps have |
| TocExtraction.TocLoopEntry | app/tools/toc_extraction.py:46-112 | each saved entry is the loop body applied with the directory earlier iterations left |
| TocExtraction.TocLoopPreserves | app/tools/toc_extraction.py:46-112 | the loop changes only processed textbooks' artifact lists, never status, error or id, and keeps those lists free of duplicates |
| TocExtraction.ExtractAllTextbookTocs | app/tools/toc_extraction.py:11-117 | fails exactly when there is no readable registry; otherwise the registry loaded is saved with its header (version, last scan) kept and the loop's entries, the loop's metadata is written, and the loop's counters (chapter total included) are returned |
| TocExtraction.MinStart | app/tools/toc_extraction.py:196-199 | the summary's first page is the least chapter start |
| TocExtraction.MaxEnd | app/tools/toc_extraction.py:196-199 | the summary's last page is the greatest chapter end |
| TocExtraction.Summarise | app/tools/toc_extraction.py:191-201 | the summary reports the file name, TOC pages, notes and chapter count; its page range exists exactly when there are chapters and is the least start and greatest end, both attained |
| TocExtraction.ExtractSingleTextbookToc | app/tools/toc_extraction.py:118-204 | fails without a registry; answers nothing, changing nothing, exactly for an unknown id, a non-textbook, an unprocessed entry or missing text; otherwise saves `extract_toc`'s metadata, saves the registry loaded with its header (version, last scan) kept and only that entry's artifact recorded once, and reports its TOC pages |
| TocExtraction.ExtractSingleSummary | app/tools/toc_extraction.py:191-201 | the reported summary counts the saved metadata's chapters, and its page range is the least start and greatest end among them |
| TokenWindows.PySlice | app/tools/chunking.py:23 | in-range bounds give the plain slice, and the result is never longer than the input |
| TokenWindows.PySliceBounds | app/tools/chunking.py:23 | Python's bounds: an end past the length is the length, a negative bound counts back from the end, one before the start is the start, and the slice is the contiguous piece from the normalised start |
| TokenWindows.PySliceSplit | app/tools/chunking.py:23 | `xs[:k] + xs[k:] == xs` for every integer `k` |
| TokenWindows.ChunkText | app/tools/chunking.py:10-28 | empty input gives no chunks; the result exists exactly when the loop stops |
| TokenWindows.LegacyDivergesWithOverlap | app/tools/chunking.py:21-27 | with a positive overlap the loop never stops on non-empty input |
| TokenWindows.ChunkTextDoesNotReturn | app/tools/chunking.py:10-28 | so `chunk_text` with a positive overlap never returns on non-empty text |
| TokenWindows.LegacyWindowShape | app/tools/chunking.py:21-27 | when the loop stops, the windows advance by `max_tokens - overlap` and hold at most `max_tokens` tokens |
| TokenWindows.LegacyPartitionsWithoutOverlap | app/tools/chunking.py:10-28 | with no overlap the windows cut the tokens into consecutive pieces that concatenate back to them |
| TokenWindows.Windows | app/tools/semantic_chunking.py:171-198 | the window loop visits nothing past the end and starts at the given start |
| TokenWindows.WindowsShape | app/tools/semantic_chunking.py:171-198 | every window is a non-empty range of at most `max_tokens` tokens, advancing by a fixed stride |
| TokenWindows.WindowsCover | app/tools/semantic_chunking.py:171-198 | consecutive windows share exactly `overlap` tokens, and only the last window reaches the end |
| TokenWindows.SplitByTokens | app/tools/semantic_chunking.py:171-198 | no returned chunk is whitespace-only; no tokens give no chunks |
| TokenWindows.SplitByTokensLoop | app/tools/semantic_chunking.py:171-198 | the imperative loop computes exactly the window texts that are not whitespace-only |
| TokenWindows.WindowLoopStalls | app/tools/semantic_chunking.py:185-196 | with an overlap at least the window size the loop never advances or exits |
| Splitter.OverlapSuffix | app/tools/semantic_chunking.py:145-155 | the carried overlap is the longest run of trailing segments within the budget, scanning from the end |
| Splitter.MergeStep | app/tools/semantic_chunking.py:115-163 | a merge step only adds closed pieces after the existing ones |
| Splitter.MergeStepKeepsInvariant | app/tools/semantic_chunking.py:115-163 | every step keeps the merge invariant: segments are non-blank and the open chunk stays within `max_tokens + overlap_tokens` |
| Splitter.SplitText | app/tools/semantic_chunking.py:61-98 | whitespace-only text gives nothing; text within the limit is one chunk; no chunk is whitespace-only |
| Splitter.SplitTextCascade | app/tools/semantic_chunking.py:61-98 | non-blank text over the limit gives the merge of its parts on the first separator that splits it and merges into something, or token windows when none does |
| Splitter.TrySeparatorsFirstWorking | app/tools/semantic_chunking.py:84-98 | from any position the cascade uses the first working separator, or falls back to token windows when none works |
| Splitter.TrySeparators | app/tools/semantic_chunking.py:84-98 | the separator cascade never yields a whitespace-only chunk |
| Splitter.MergeSplits | app/tools/semantic_chunking.py:100-169 | merged chunks are never whitespace-only |
| Splitter.MergePieces | app/tools/semantic_chunking.py:100-169 | every merged piece is well formed |
| Splitter.MergeFrom | app/tools/semantic_chunking.py:111-167 | the merge loop keeps its invariant to the end |
| Splitter.CountOfJoin | app/tools/semantic_chunking.py:134-141 | under an additive tokenizer a joined chunk costs its segments plus one separator per gap |
| Splitter.MergedChunkBound | app/tools/semantic_chunking.py:100-169 | a merged chunk holds at most `max_tokens + overlap_tokens` segment tokens plus its separators |
| Splitter.MergeSplitsChunkBound | app/tools/semantic_chunking.py:100-169 | every merged chunk is either a join within `max_tokens + overlap_tokens` segment tokens plus its separators, or a chunk of the recursive split of one oversized part |
| Splitter.SplitTextWithoutSeparators | app/tools/semantic_chunking.py:84-98 | long text with no separator goes straight to token windows |
| Splitter.MergeCanExceedMax | app/tools/semantic_chunking.py:134-159 | with limit 5 and overlap 3 a chunk of 7 tokens is produced, above `max_tokens` |
| Splitter.MergeStepCloses | app/tools/semantic_chunking.py:139-159 | a segment that does not fit closes the open chunk and opens the next with the carried overlap |
| PageChunking.ChunksOf | app/tools/semantic_chunking.py:244-258 | whitespace-only texts are skipped; every other text becomes a chunk citing its page |
| PageChunking.PageChunks | app/tools/semantic_chunking.py:236-258 | a whitespace-only page gives nothing; every chunk cites its own page |
| PageChunking.PageChunksOfSplit | app/tools/semantic_chunking.py:244-258 | a non-blank page gives exactly one chunk per splitter output, in order |
| PageChunking.PageChunksFromPage | app/tools/semantic_chunking.py:236-258 | every chunk of a page is cut from that page with the tokenizer's count |
| PageChunking.ChunkPages | app/tools/semantic_chunking.py:202-260 | `chunk_pages_semantic`: every chunk cites exactly one page of the book |
| PageChunking.ChunkPageRanges | app/tools/semantic_chunking.py:263-333 | `chunk_page_ranges_semantic`: every chunk cites exactly one page, inside a range lying within the book |
| PageDrivers.SpanPages | app/tools/semantic_chunking.py:308-331 | every chunk of a page span comes from a page inside the span |
| PageDrivers.SpanOrdered | app/tools/semantic_chunking.py:308-331 | chunks come out in page order |
| PageDrivers.SpanByPage | app/tools/semantic_chunking.py:308-331 | page by page, a span holds exactly the chunks of that page alone |
| PageDrivers.RangesPages | app/tools/semantic_chunking.py:299-331 | every chunk comes from a page inside a range that was not skipped |
| PageDrivers.RangesAppend | app/tools/semantic_chunking.py:299-331 | ranges are processed independently and in order |
| PageDrivers.RangeChunks | app/tools/semantic_chunking.py:301-305 | a range reaching outside the book is skipped whole |
| PageChunking.ChunkPagesOrdered | app/tools/semantic_chunking.py:202-260 | `chunk_pages_semantic` keeps page order |
| PageChunking.ChunkPagesFromPages | app/tools/semantic_chunking.py:202-260 | each chunk cites one non-blank page and is a splitter output for it with its token count |
| PageChunking.ChunkPagesByPage | app/tools/semantic_chunking.py:202-260 | page by page, the result is what chunking that page alone gives |
| PageChunking.ChunkPageRangesInRanges | app/tools/semantic_chunking.py:263-333 | every chunk of the ranged loop is a splitter output of the non-blank page it cites, with the tokenizer's count |
| PageChunking.ChunkPageRangesAppend | app/tools/semantic_chunking.py:263-333 | range lists concatenate into result concatenation |
| PageChunking.WholeBookRange | app/tools/semantic_chunking.py:202-333 | the range covering the whole book gives the same chunks as chunking every page |
| ChunkStore.Lines | app/tools/chunk_store.py:9-21 | one line per chunk, in order |
| ChunkStore.Save | app/tools/chunk_store.py:9-21 | the ledger is replaced by exactly one encoded line per chunk, in order |
| ChunkStore.Append | app/tools/chunk_store.py:52-64 | appending keeps the existing lines as a prefix; a missing ledger is created |
| ChunkStore.ParseLine | app/tools/chunk_store.py:39-47 | whitespace-only lines are skipped |
| ChunkStore.Load | app/tools/chunk_store.py:24-49 | a missing ledger loads as nothing; otherwise at most one chunk per line, each the decoding of some line |
| ChunkStore.LoadedChunksComeFromLines | app/tools/chunk_store.py:24-49 | every loaded chunk decodes from some line; a ledger of blank lines loads as nothing |
| ChunkStore.ParseLinesAppend | app/tools/chunk_store.py:24-49 | reading is line by line |
| ChunkStore.SaveThenLoad | app/tools/chunk_store.py:9-49 | loading after saving gives the same chunks in the same order, for an encoder that writes each chunk as one line with no line break inside |
| ChunkStore.AppendThenLoad | app/tools/chunk_store.py:24-64 | after an append the ledger loads as the old chunks followed by the new ones |
| ChunkStore.FirstWithId | app/tools/chunk_store.py:67-82 | the lookup returns the first chunk with the id, or nothing exactly when none has it |
| ChunkStore.GetChunkById | app/tools/chunk_store.py:67-82 | the lookup over the loaded ledger finds nothing exactly when no loaded chunk has the id, and otherwise a loaded chunk with it |
| ChunkStore.IndexKeys | app/tools/chunk_store.py:85-109 | the index's keys are exactly the ledger's chunk ids |
| ChunkStore.BuildChunkIndex | app/tools/chunk_store.py:85-109 | every chunk id of the ledger is a key of the index |
| ChunkStore.LastOccurrenceWins | app/tools/chunk_store.py:85-109 | for a repeated id the index describes the last chunk |
| ChunkStore.IndexAgreesWithLookup | app/tools/chunk_store.py:67-109 | with distinct ids the index and the lookup agree on every id |
| ChunkStore.IndexAndLookupDisagreeOnRepeats | app/tools/chunk_store.py:67-109 | with a repeated id the lookup and the index describe different chunks |
| ChunkStore.WithFileId | app/tools/chunk_store.py:112-124 | exactly the file's chunks, in ledger order |
| ChunkStore.WithFileIdMembers | app/tools/chunk_store.py:112-124 | a chunk is selected exactly when it is in the ledger and belongs to the file |
| ChunkStore.WithFileIdAppend | app/tools/chunk_store.py:112-124 | selection works block by block: the file's chunks of two blocks are those of the first followed by those of the second |
| ChunkStore.GetChunksByFileId | app/tools/chunk_store.py:112-124 | every returned chunk belongs to the file and is in the loaded ledger, and every loaded chunk of the file is returned |
| ChunkStore.AppendAgainDuplicates | app/tools/chunk_store.py:52-124 | appending a file's chunks again leaves two copies |
| SmartChunking.ChaptersOf | app/tools/smart_chunking.py:39-52 | the required chapters are the union over the readable coverage files |
| SmartChunking.RequiredChapters | app/tools/smart_chunking.py:27-54 | a missing directory requires nothing; unreadable files are skipped |
| SmartChunking.UnreadableFileIgnored | app/tools/smart_chunking.py:39-52 | an unreadable coverage file changes nothing |
| SmartChunking.Selected | app/tools/smart_chunking.py:65-68 | the ranges of exactly the required chapters, in TOC order |
| SmartChunking.PageRanges | app/tools/smart_chunking.py:57-72 | no TOC or no chapters give no ranges; otherwise the ranges of the required chapters sorted by first page |
| SmartChunking.PageRangesPermuteSelection | app/tools/smart_chunking.py:66-71 | the ranges are a stable permutation of the selected chapters' ranges |
| SmartChunking.OverlappingRangesNotMerged | app/tools/smart_chunking.py:57-72 | overlapping chapters give separate ranges |
| SmartChunking.ChapterOf | app/tools/smart_chunking.py:166-178 | a chunk is attributed to the first chapter whose pages hold it, or none |
| SmartChunking.LastPageAttributed | app/tools/smart_chunking.py:171-176 | a chapter's last listed page belongs to it |
| SmartChunking.Records | app/tools/smart_chunking.py:165-198 | each ledger record carries the file, its page, the attributed chapter and the hashed id |
| SmartChunking.RecordIdsDistinct | app/tools/smart_chunking.py:178-183 | with an injective id hash, a run's chunk ids are distinct |
| SmartChunking.SmartConfig | app/tools/smart_chunking.py:81-83 | the splitter settings (900 and 100) are valid |
| SmartChunking.LoadToc | app/tools/smart_chunking.py:13-24 | TOC metadata loads exactly when its file exists and parses |
| SmartChunking.FallbackChunksEveryPage | app/tools/smart_chunking.py:113-135 | whenever the scoped path does not apply, every page is chunked |
| SmartChunking.ScopedChunksThePageRanges | app/tools/smart_chunking.py:129-199 | on the scoped path of a book with pages, exactly the page ranges mapped from the required chapters are chunked and converted into chunk records |
| SmartChunking.ChunkTextbookSmart | app/tools/smart_chunking.py:75-211 | without extracted text there are no chunks; the call fails exactly when the scoped path runs on a book with no pages; otherwise every chunk belongs to the file and is numbered by its position |
| SmartChunking.NoTocNoChapters | app/tools/smart_chunking.py:214-277 | without a TOC no chunk carries a chapter |
| SmartChunking.ScopedEmptyBookFails | app/tools/smart_chunking.py:138-149 | the scoped path on an empty book divides by zero |
| SmartChunking.ScopedChunksLieInRequiredChapters | app/tools/smart_chunking.py:75-211 | on the scoped path every chunk comes from a non-blank page inside a required chapter and is attributed to a chapter |
| SmartChunking.InRequiredChapter | app/tools/smart_chunking.py:57-72 | a page inside one of the mapped ranges lies in a required chapter and is attributed to some chapter |
| DocClassify.ClassifyName | app/tools/doc_classify.py:8-15 | the keyword groups are tried in order: syllabus words win, then textbook, then notes |
| DocClassify.FileName | app/tools/doc_classify.py:8 | the name is a non-dot component of the path |
| DocClassify.DirectoryIgnored | app/tools/doc_classify.py:5-15 | directories and the text sample never affect the label |
| DocClassify.LastComponentIsName | app/tools/doc_classify.py:8 | the file name of `dir/w` is `w` |
| DocClassify.CaseIgnored | app/tools/doc_classify.py:8 | names that lower-case alike classify alike |
| DocClassify.SyllabusWins | app/tools/doc_classify.py:9-10 | a syllabus keyword in the file name always gives `syllabus` |
| DocClassify.DirectoryKeywordIgnored | app/tools/doc_classify.py:8 | a keyword in a directory name has no effect |
| StageTools.SaveEntry | app/agents/tools.py:229-232 | the saved registry is the loaded one with that entry replaced |
| StageTools.SaveEntryKeepsClean | app/agents/tools.py:229-232 | recording an artifact keeps every artifact list duplicate-free |
| StageTools.StillFound | app/agents/tools.py:168-246 | after replacing an entry, the id lookup still finds it |
| StageTools.ExtractTextTool | app/agents/tools.py:168-246 | errors and cache hits change nothing; the cache answers exactly for a non-pending entry with readable text, and cached text that does not parse is an error; otherwise the reader decides: its text is stored and its page count reported, the entry marked processed, or its failure reported |
| StageTools.ExtractTextTwiceIsCached | app/agents/tools.py:168-246 | a second call answers from the cache with the same page count |
| StageTools.ExtractTocTool | app/agents/tools.py:319-411 | missing or unreadable extracted text is an error; only textbooks pass; saved metadata answers exactly for a non-pending textbook with readable text, and saved metadata that does not parse is an error; otherwise `extract_toc` over the first 30 pages decides: its metadata is stored and its chapter count reported, or its error returned |
| StageTools.SavedTocIsReused | app/agents/tools.py:359-372 | saved metadata is reused even when it lists no chapters |
| StageTools.ChunkTextbookTool | app/agents/tools.py:414-515 | as written: a successful call appends exactly the smart chunker's chunks for the textbook and reports their number; past the gates and the failing cache check, the chunker's success or error decides the reply |
| StageTools.ChunkTextbookToolIntended | app/agents/tools.py:456-471 | the cache check as intended: counts the file's own chunks and leaves the ledger alone |
| StageTools.RunChunksBelongToFile | app/agents/tools.py:478-495 | every chunk a run appends belongs to the file |
| StageTools.ChunkAgainFails | app/agents/tools.py:456-471 | as written, chunking a processed textbook again fails |
| StageTools.ChunkAgainIsCached | app/agents/tools.py:456-471 | with the intended check, the second call returns the first call's chunk count and the ledger does not grow |
| StageTools.ChunkPendingAgainDuplicates | app/agents/tools.py:456-495 | re-chunking a pending entry appends its chunks a second time |
| StageTools.ExtractCoverageTool | app/agents/tools.py:629-709 | only exam overviews and unclassified files; every call extracts again; past the gates the extractor decides: its record is stored and its chapter count reported, or its error returned |
| StageTools.ToolCoverageUnseenByBatch | app/agents/tools.py:680-690 | the tool's artifact path differs from the batch loop's, so the batch extracts the same coverage again |
| StageTools.UpdateManifestEnriched | app/agents/tools.py:712-725 | the artifact is appended to the exam's entry exactly when the entry exists and lacks it; otherwise nothing is saved |
| StageTools.UpdateManifestEnrichedIdempotent | app/agents/tools.py:712-725 | recording twice equals recording once |
| Retrieval.NormalizeQueryIdempotent | app/agents/tools.py:1186 | a normalised query normalises to itself |
| Retrieval.NormalizeQuery | app/agents/tools.py:1186 | the normal form has no capital, splits into exactly the lowered question's words, and is those words joined by single spaces |
| Retrieval.Observe | app/agents/tools.py:1187-1191 | after a search the guard remembers the normal form of the question, which is its own normal form, and counts at least one attempt from any non-negative count |
| Retrieval.CaseAndSpacingIgnored | app/agents/tools.py:1186 | case and surrounding whitespace do not distinguish questions |
| Retrieval.RepeatsAreCounted | app/agents/tools.py:1187-1191 | `n` searches for the same question count `n` attempts |
| Retrieval.ThirdRepeatRejected | app/agents/tools.py:1148-1200 | with the default limit of 2 the third repeat is rejected |
| Retrieval.StaysRejected | app/agents/tools.py:1187-1200 | once rejected, further repeats stay rejected |
| Retrieval.OtherQuestionResets | app/agents/tools.py:1187-1191 | a different question resets the count and passes |
| Retrieval.BuildFilters | app/agents/tools.py:1218-1235 | fails exactly on an unreadable coverage file; minimum score 0.5; the file filter exactly when a textbook is given; an explicit chapter overrides the exam's chapters |
| Retrieval.CorruptCoverageFailsDespiteChapter | app/agents/tools.py:1219-1235 | an unreadable coverage file fails the search even with an explicit chapter |
| Retrieval.Preview | app/agents/tools.py:1257 | texts up to 500 characters are kept; longer ones become 500 characters and `...` |
| Retrieval.PreviewKeepsStart | app/agents/tools.py:1257 | a preview keeps the text's start |
| Retrieval.PreviewIdempotent | app/agents/tools.py:1257 | previewing a preview changes nothing |
| Retrieval.FormatResults | app/agents/tools.py:1249-1263 | exactly the hits with text are formatted, in order |
| Retrieval.FormatResultsAppend | app/agents/tools.py:1249-1263 | formatting works hit by hit |
| Retrieval.AllTextKeepsEveryHit | app/agents/tools.py:1249-1263 | when every hit has text, each is formatted in place |
| Retrieval.SearchTextbook | app/agents/tools.py:1152-1276 | the guard is always updated; the retry-limit error exactly when the guard rejects; the index error exactly when not rejected and no index; past both, an unreadable coverage file fails the search and otherwise the oracle's hits for the built filters are formatted |
| Retrieval.ExamNeedsMembership | app/agents/tools.py:1330-1347 | an exam needs enrichment exactly when it has coverage but no enriched file, and coverage exactly when it has neither |
| Retrieval.AvailableExams | app/agents/tools.py:1316-1327 | an exam is reported available exactly when the enriched directory lists a file for it |
| Retrieval.CheckReadiness | app/agents/tools.py:1283-1362 | an unreadable enriched file gives not ready with nothing listed; otherwise ready exactly when nothing is missing |
| Retrieval.ReadinessMissing | app/agents/tools.py:1307-1347 | missing lists the index when absent and, for a plan, each exam without an enriched file |
| Retrieval.OtherIntentsNeedOnlyIndex | app/agents/tools.py:1330-1354 | for any intent but a plan, readiness is the index's existence |
| Retrieval.PlanReadyIff | app/agents/tools.py:1330-1354 | a plan is ready exactly when the index exists and every exam is enriched |
| Retrieval.PlanReadyIffAvailable | app/agents/tools.py:1316-1354 | a plan is ready exactly when the index exists and every requested exam is among those reported available |

## Left out

- Disk I/O, JSON parsing, PDF reading, tokenization, the LLM extractors, the id hash, embeddings and the FAISS search are parameters or oracles. Their failures are `Corrupt` files or error results.
- Exception messages and log lines are reduced to error kinds. The printed progress is left out.
- `app/agents/tools.py` line 24 imports `classify_document` from `app/tools/doc_classify.py`, which defines only `classify_doc`. The import is at module level, so importing `app/agents/tools.py` raises `ImportError` and no tool in it can be called as written. `StageTools` and `Retrieval` model the tools as if that import resolved. `classify_doc` is modelled as `DocClassify`; the LLM-backed `classify_document` tool is not modelled.
- The build-index, enrichment and planner tools are outside this core: `build_index`, `enrich_coverage_tool`, the study-load analysis and the plan generators. The same goes for `list_files`, `sync_files` and the date helper.
- `Text.Lower` lower-cases ASCII letters only. Python's `str.lower` also folds other scripts.
- DocClassify.FileName: paths are split at `/` only, as `Path(p).name` does on POSIX. On Windows `Path` also splits at `\`, so a name like `dir\Syllabus.pdf` classifies by its last component there and by the whole string in the model.
- Toc.FindTocPages: digits are the ASCII `0`-`9` only. The patterns' `\d` also matches every other Unicode decimal digit, so a page whose chapter or line numbers use such digits can be detected by the source and not by the model.
- `Stored` merges "not JSON" and "JSON that does not fit the record" into `Corrupt`. Several source reads accept any JSON object: the TOC skip check tests only the truthiness of `chapters` (app/tools/toc_extraction.py:56-70), the tool cache checks read `pages` and `chapters` with defaults (app/agents/tools.py:199-210, 361-372), and the tools load the extracted text as a plain dict (app/agents/tools.py:343-344, 652-653). For such a file the model re-extracts or reports missing text, where the source uses the partial object.
- `TokenWindows.ChunkText` runs on a `fuel` bound. Non-termination is reported as `None` rather than as a loop that never returns.
- Splitter.SplitText: the token bound is proved for the chunks the merge joins itself (`Splitter.MergeSplitsChunkBound`), under an additive tokenizer. Chunks from the recursive split of an oversized part, and token-window chunks, are not bounded: a decoded window need not encode back to the same tokens.
- CoverageExtraction.WriteCoverage: the record written is the one the extractor returns. The extractor builds it with `ExamCoverage(**data)` (app/tools/coverage_extract.py:60), so the validators of `Coverage.MakeCoverage` run inside the oracle and are not restated per file.
- `Splitter.SplitText` and `TokenWindows.SplitByTokens` require `0 <= overlap < max_tokens`. With a larger overlap the source loop never advances, as `TokenWindows.WindowLoopStalls` shows. Such configurations are not modelled further.
- `ManifestIO.Reconcile` assumes the scanner reports each path once. The filesystem walk guarantees that.
- Fresh file ids and the scan time are parameters of `ManifestIO.UpdateManifest`.
- `Retrieval.CheckReadiness` loads the registry and never uses it. The model does not load it.
- `Retrieval.CheckReadiness` treats a missing exam id list as an empty one.
- `Retrieval.SearchTextbook`: the hits are the oracle's answer for the filters; the vector search and its scoring are not modelled.
- `TextExtraction.ExtractAllPending`, `CoverageExtraction.ExtractAllExamOverviews` and `TocExtraction.ExtractAllTextbookTocs` use the stage directories as maps keyed by file id. Their `state/...` path spelling differs from the agent tools' `storage/state/...`. `StageTools.ToolCoverageUnseenByBatch` covers the consequence.

## Findings

| source | as written | input that shows it | evidently intended | confidence | as-written member | corrected member |
|---|---|---|---|---|---|---|
| app/agents/tools.py:458-471 | the cache check calls `.get("file_id")` on the `Chunk` objects `load_chunks_jsonl` returns, which raises | call `chunk_textbook` twice on a processed textbook whose first run appended chunks | count the file's chunks in the ledger and return them as cached | not executed | StageTools.ChunkTextbookTool (StageTools.ChunkAgainFails) | StageTools.ChunkTextbookToolIntended (StageTools.ChunkAgainIsCached) |

=== FILE: chunk_store.dfy ===
/** The append-only chunk ledger `chunks.jsonl` (app/tools/chunk_store.py)
    and the `Chunk` record written to it. The file is a sequence of lines
    (`None` when it does not exist); the JSON encoder and decoder are
    inputs. */
module ChunkStore {
  import opened Wrappers
  import opened Text

  /** One retrieval chunk, with the fields the chunker fills in
      (app/tools/smart_chunking.py). */
  datatype Chunk = Chunk(chunkId: string, fileId: string, filename: string, text: string,
                         pageStart: int, pageEnd: int, tokenCount: nat, sectionType: string,
                         chapterNumber: Option<int>, chapterTitle: Option<string>,
                         chunkIndex: nat)

  /** `model_dump_json` and `Chunk(**json.loads(line))`; decoding fails on
      a line that is not a chunk. */
  datatype Codec = Codec(dump: Chunk -> string, parse: string -> Option<Chunk>)

  /** An encoder that writes one non-empty line without surrounding
      whitespace, and that the decoder reads back. The ledger is a sequence
      of lines only because `model_dump_json` escapes line breaks inside
      strings, so an encoded chunk holds no `\n` or `\r` for the reader's
      line iteration (which, in text mode, also breaks at `\r`) to cut at. */
  ghost predicate Faithful(codec: Codec)
  {
    forall ch: Chunk ::
      && codec.dump(ch) != [] && Strip(codec.dump(ch)) == codec.dump(ch)
      && (forall i :: 0 <= i < |codec.dump(ch)| ==> codec.dump(ch)[i] != '\n' && codec.dump(ch)[i] != '\r')
      && codec.parse(codec.dump(ch)) == Some(ch)
  }

  /** The ledger file: its lines, or `None` when it does not exist. */
  type Ledger = Option<seq<string>>

  /** The lines written for `chunks`, one per chunk, in order. */
  function Lines(codec: Codec, chunks: seq<Chunk>): (ls: seq<string>)
    ensures |ls| == |chunks|
    ensures forall k :: 0 <= k < |chunks| ==> ls[k] == codec.dump(chunks[k])
    decreases |chunks|
  {
    if chunks == [] then [] else [codec.dump(chunks[0])] + Lines(codec, chunks[1..])
  }

  /** `save_chunks_jsonl`: the file is replaced by exactly these lines. */
  function Save(codec: Codec, chunks: seq<Chunk>): (l: Ledger)
    ensures l.Some? && |l.value| == |chunks|
    ensures forall k :: 0 <= k < |chunks| ==> l.value[k] == codec.dump(chunks[k])
  {
    Some(Lines(codec, chunks))
  }

  /** `append_chunks_jsonl`: the lines are added after the existing ones; a
      missing file is created. */
  function Append(codec: Codec, ledger: Ledger, chunks: seq<Chunk>): (l: Ledger)
    ensures l.Some?
    ensures ledger.Some? ==> |ledger.value| <= |l.value| && l.value[..|ledger.value|] == ledger.value
    ensures ledger.None? ==> l == Save(codec, chunks)
  {
    match ledger
    case None => Some(Lines(codec, chunks))
    case Some(ls) => Some(ls + Lines(codec, chunks))
  }

  /** One line of the read loop: stripped, skipped when empty, decoded
      otherwise (a line that does not decode is skipped too). */
  function ParseLine(codec: Codec, line: string): (r: Option<Chunk>)
    ensures IsBlank(line) ==> r.None?
  {
    var s := Strip(line);
    if s == [] then None else codec.parse(s)
  }

  /** How the read loop decodes one line. */
  type LineDecoder = string -> Option<Chunk>

  function Decoder(codec: Codec): LineDecoder
  {
    line => ParseLine(codec, line)
  }

  /** The chunk a decoded line contributes: itself, or nothing. */
  function Kept(o: Option<Chunk>): (r: seq<Chunk>)
    ensures |r| <= 1
  {
    if o.Some? then [o.value] else []
  }

  /** The read loop over the file's lines. */
  function ParseLines(decode: LineDecoder, lines: seq<string>): (r: seq<Chunk>)
    ensures |r| <= |lines|
    decreases |lines|
  {
    if lines == [] then [] else Kept(decode(lines[0])) + ParseLines(decode, lines[1..])
  }

  /** `load_chunks_jsonl`: nothing for a missing file; otherwise at most
      one chunk per line, each the decoding of some line. */
  function Load(codec: Codec, ledger: Ledger): (r: seq<Chunk>)
    ensures ledger.None? ==> r == []
    ensures ledger.Some? ==> |r| <= |ledger.value|
    ensures ledger.Some? ==> forall k :: 0 <= k < |r| ==> DecodedFrom(Decoder(codec), ledger.value, r[k])
  {
    match ledger
    case None => []
    case Some(ls) =>
      ParsedChunksComeFromLines(Decoder(codec), ls);
      ParseLines(Decoder(codec), ls)
  }

  /** `ch` is what some line of `lines` decodes to. */
  predicate DecodedFrom(decode: LineDecoder, lines: seq<string>, ch: Chunk)
  {
    exists i :: 0 <= i < |lines| && decode(lines[i]) == Some(ch)
  }

  /** Every chunk read back is the decoding of some line of the file;
      when no line decodes, nothing is read. */
  lemma {:induction false} ParsedChunksComeFromLines(decode: LineDecoder, lines: seq<string>)
    ensures forall k :: 0 <= k < |ParseLines(decode, lines)| ==>
      DecodedFrom(decode, lines, ParseLines(decode, lines)[k])
    ensures (forall i :: 0 <= i < |lines| ==> decode(lines[i]).None?) ==> ParseLines(decode, lines) == []
    decreases |lines|
  {
    if lines != [] {
      ParsedChunksComeFromLines(decode, lines[1..]);
      var r := ParseLines(decode, lines);
      var rest := ParseLines(decode, lines[1..]);
      var d := |Kept(decode(lines[0]))|;
      assert r == Kept(decode(lines[0])) + rest;
      forall k | 0 <= k < |r|
        ensures DecodedFrom(decode, lines, r[k])
      {
        if k < d {
          assert decode(lines[0]) == Some(r[0]);
        } else {
          assert r[k] == rest[k - d];
          assert DecodedFrom(decode, lines[1..], rest[k - d]);
          var i :| 0 <= i < |lines[1..]| && decode(lines[1..][i]) == Some(rest[k - d]);
          assert lines[1..][i] == lines[i + 1];
        }
      }
      if forall i :: 0 <= i < |lines| ==> decode(lines[i]).None? {
        assert decode(lines[0]).None?;
        assert forall i :: 0 <= i < |lines[1..]| ==> lines[1..][i] == lines[i + 1];
      }
    }
  }

  /** `load_chunks_jsonl` keeps only lines that decode, and whitespace-only
      lines never do. */
  lemma LoadedChunksComeFromLines(codec: Codec, lines: seq<string>)
    ensures forall k :: 0 <= k < |Load(codec, Some(lines))| ==>
      exists i :: 0 <= i < |lines| && !IsBlank(lines[i]) && ParseLine(codec, lines[i]) == Some(Load(codec, Some(lines))[k])
    ensures (forall i :: 0 <= i < |lines| ==> IsBlank(lines[i])) ==> Load(codec, Some(lines)) == []
  {
    var decode := Decoder(codec);
    ParsedChunksComeFromLines(decode, lines);
    var r := Load(codec, Some(lines));
    forall k | 0 <= k < |r|
      ensures exists i :: 0 <= i < |lines| && !IsBlank(lines[i]) && ParseLine(codec, lines[i]) == Some(r[k])
    {
      assert DecodedFrom(decode, lines, r[k]);
      var i :| 0 <= i < |lines| && decode(lines[i]) == Some(r[k]);
      assert ParseLine(codec, lines[i]) == Some(r[k]);
    }
    if forall i :: 0 <= i < |lines| ==> IsBlank(lines[i]) {
      assert forall i :: 0 <= i < |lines| ==> decode(lines[i]).None?;
    }
  }

  /** Reading is line by line: the chunks of two blocks of lines are those
      of the first block followed by those of the second. */
  lemma {:induction false} ParseLinesAppend(decode: LineDecoder, a: seq<string>, b: seq<string>)
    ensures ParseLines(decode, a + b) == ParseLines(decode, a) + ParseLines(decode, b)
    decreases |a|
  {
    if a == [] {
      assert a + b == b;
    } else {
      ParseLinesAppend(decode, a[1..], b);
      assert (a + b)[1..] == a[1..] + b;
      var head := Kept(decode(a[0]));
      assert ParseLines(decode, a + b) == head + ParseLines(decode, a[1..] + b);
      assert ParseLines(decode, a) == head + ParseLines(decode, a[1..]);
    }
  }

  /** The written lines of a faithful encoder read back as the chunks. */
  lemma {:induction false} ParseLinesOfLines(codec: Codec, chunks: seq<Chunk>)
    requires Faithful(codec)
    ensures ParseLines(Decoder(codec), Lines(codec, chunks)) == chunks
    decreases |chunks|
  {
    if chunks != [] {
      ParseLinesOfLines(codec, chunks[1..]);
      var ls := Lines(codec, chunks);
      assert ls[0] == codec.dump(chunks[0]);
      assert Decoder(codec)(ls[0]) == Some(chunks[0]);
      assert ls[1..] == Lines(codec, chunks[1..]);
    }
  }

  /** Saving then loading gives the same chunks in the same order. */
  lemma SaveThenLoad(codec: Codec, chunks: seq<Chunk>)
    requires Faithful(codec)
    ensures Load(codec, Save(codec, chunks)) == chunks
  {
    ParseLinesOfLines(codec, chunks);
  }

  /** Appending never changes what was there: loading afterwards gives the
      chunks loaded before followed by the appended ones. */
  lemma AppendThenLoad(codec: Codec, ledger: Ledger, chunks: seq<Chunk>)
    requires Faithful(codec)
    ensures Load(codec, Append(codec, ledger, chunks)) == Load(codec, ledger) + chunks
  {
    ParseLinesOfLines(codec, chunks);
    if ledger.Some? {
      ParseLinesAppend(Decoder(codec), ledger.value, Lines(codec, chunks));
    }
  }

  /** `get_chunk_by_id`: the first chunk in ledger order with the id, or
      `None` exactly when no chunk has it. */
  function FirstWithId(chunks: seq<Chunk>, id: string): (r: Option<Chunk>)
    ensures r.None? <==> forall k :: 0 <= k < |chunks| ==> chunks[k].chunkId != id
    ensures r.Some? ==> exists i :: 0 <= i < |chunks| && chunks[i] == r.value && r.value.chunkId == id
                                    && forall j :: 0 <= j < i ==> chunks[j].chunkId != id
    decreases |chunks|
  {
    if chunks == [] then None
    else if chunks[0].chunkId == id then Some(chunks[0])
    else
      var r := FirstWithId(chunks[1..], id);
      assert forall k :: 1 <= k < |chunks| ==> chunks[k] == chunks[1..][k - 1];
      r
  }

  /** `get_chunk_by_id` over the loaded ledger. */
  function GetChunkById(codec: Codec, ledger: Ledger, id: string): (r: Option<Chunk>)
    ensures r.None? <==> forall k :: 0 <= k < |Load(codec, ledger)| ==> Load(codec, ledger)[k].chunkId != id
    ensures r.Some? ==> r.value.chunkId == id && r.value in Load(codec, ledger)
  {
    FirstWithId(Load(codec, ledger), id)
  }

  /** The per-chunk record `build_chunk_index` stores. */
  datatype IndexEntry = IndexEntry(fileId: string, filename: string, chunkIndex: nat,
                                   pageStart: int, pageEnd: int, sectionType: string,
                                   chapterNumber: Option<int>)

  function EntryOf(ch: Chunk): IndexEntry
  {
    IndexEntry(ch.fileId, ch.filename, ch.chunkIndex, ch.pageStart, ch.pageEnd,
               ch.sectionType, ch.chapterNumber)
  }

  /** `build_chunk_index`: one entry per chunk id; when an id repeats, the
      later chunk overwrites the earlier one. */
  function BuildChunkIndex(chunks: seq<Chunk>): (m: map<string, IndexEntry>)
    ensures forall k :: 0 <= k < |chunks| ==> chunks[k].chunkId in m
    decreases |chunks|
  {
    if chunks == [] then map[]
    else
      var n := |chunks| - 1;
      assert forall k :: 0 <= k < n ==> chunks[k] == chunks[..n][k];
      BuildChunkIndex(chunks[..n])[chunks[n].chunkId := EntryOf(chunks[n])]
  }

  /** The index's keys are exactly the chunk ids of the ledger. */
  lemma {:induction false} IndexKeys(chunks: seq<Chunk>)
    ensures forall k :: 0 <= k < |chunks| ==> chunks[k].chunkId in BuildChunkIndex(chunks)
    ensures forall id :: id in BuildChunkIndex(chunks) ==>
      exists k :: 0 <= k < |chunks| && chunks[k].chunkId == id
    decreases |chunks|
  {
    if chunks != [] {
      var n := |chunks| - 1;
      IndexKeys(chunks[..n]);
      assert forall k :: 0 <= k < n ==> chunks[k] == chunks[..n][k];
    }
  }

  /** The last occurrence of an id wins: the entry describes the chunk
      after which no other chunk carries that id. */
  lemma {:induction false} LastOccurrenceWins(chunks: seq<Chunk>, i: int)
    requires 0 <= i < |chunks|
    requires forall j :: i < j < |chunks| ==> chunks[j].chunkId != chunks[i].chunkId
    ensures chunks[i].chunkId in BuildChunkIndex(chunks)
    ensures BuildChunkIndex(chunks)[chunks[i].chunkId] == EntryOf(chunks[i])
    decreases |chunks|
  {
    var n := |chunks| - 1;
    var init := chunks[..n];
    var id := chunks[i].chunkId;
    assert BuildChunkIndex(chunks) == BuildChunkIndex(init)[chunks[n].chunkId := EntryOf(chunks[n])];
    if i < n {
      assert init[i] == chunks[i];
      assert chunks[n].chunkId != id;
      forall j | i < j < |init| ensures init[j].chunkId != id {
        assert init[j] == chunks[j];
      }
      LastOccurrenceWins(init, i);
    }
  }

  /** Ids are unique in the ledger. */
  predicate DistinctChunkIds(chunks: seq<Chunk>)
  {
    forall i, j :: 0 <= i < j < |chunks| ==> chunks[i].chunkId != chunks[j].chunkId
  }

  /** With unique ids the index and `get_chunk_by_id` agree on every id. */
  lemma IndexAgreesWithLookup(chunks: seq<Chunk>, id: string)
    requires DistinctChunkIds(chunks)
    ensures id in BuildChunkIndex(chunks) <==> FirstWithId(chunks, id).Some?
    ensures id in BuildChunkIndex(chunks) ==>
      BuildChunkIndex(chunks)[id] == EntryOf(FirstWithId(chunks, id).value)
  {
    IndexKeys(chunks);
    if FirstWithId(chunks, id).Some? {
      var i :| 0 <= i < |chunks| && chunks[i] == FirstWithId(chunks, id).value && chunks[i].chunkId == id;
      LastOccurrenceWins(chunks, i);
    }
  }

  /** With a repeated id the two disagree: the lookup returns the first
      chunk, the index describes the last. */
  lemma IndexAndLookupDisagreeOnRepeats(a: Chunk, b: Chunk)
    requires a.chunkId == b.chunkId && a.fileId != b.fileId
    ensures FirstWithId([a, b], a.chunkId) == Some(a)
    ensures BuildChunkIndex([a, b])[a.chunkId] == EntryOf(b)
    ensures EntryOf(a) != EntryOf(b)
  {
    LastOccurrenceWins([a, b], 1);
  }

  /** `get_chunks_by_file_id`: the chunks of one file, in ledger order. */
  function WithFileId(chunks: seq<Chunk>, fileId: string): (r: seq<Chunk>)
    ensures |r| <= |chunks|
    ensures forall k :: 0 <= k < |r| ==> r[k].fileId == fileId
    decreases |chunks|
  {
    if chunks == [] then []
    else (if chunks[0].fileId == fileId then [chunks[0]] else []) + WithFileId(chunks[1..], fileId)
  }

  /** The filter keeps a chunk exactly when it is in the ledger and
      belongs to the file. */
  lemma {:induction false} WithFileIdMembers(chunks: seq<Chunk>, fileId: string)
    ensures forall ch :: ch in WithFileId(chunks, fileId) <==> ch in chunks && ch.fileId == fileId
    decreases |chunks|
  {
    if chunks != [] {
      WithFileIdMembers(chunks[1..], fileId);
      assert chunks == [chunks[0]] + chunks[1..];
    }
  }

  /** `get_chunks_by_file_id` over the loaded ledger. */
  function GetChunksByFileId(codec: Codec, ledger: Ledger, fileId: string): (r: seq<Chunk>)
    ensures forall k :: 0 <= k < |r| ==> r[k].fileId == fileId && r[k] in Load(codec, ledger)
    ensures forall ch :: ch in Load(codec, ledger) && ch.fileId == fileId ==> ch in r
  {
    WithFileIdMembers(Load(codec, ledger), fileId);
    WithFileId(Load(codec, ledger), fileId)
  }

  /** Filtering is line by line: the file's chunks of two blocks are those
      of the first block followed by those of the second. */
  lemma {:induction false} WithFileIdAppend(a: seq<Chunk>, b: seq<Chunk>, fileId: string)
    ensures WithFileId(a + b, fileId) == WithFileId(a, fileId) + WithFileId(b, fileId)
    decreases |a|
  {
    if a == [] {
      assert a + b == b;
    } else {
      WithFileIdAppend(a[1..], b, fileId);
      assert (a + b)[1..] == a[1..] + b;
      assert (a + b)[0] == a[0];
    }
  }

  lemma {:induction false} WithFileIdAll(chunks: seq<Chunk>, fileId: string)
    requires forall k :: 0 <= k < |chunks| ==> chunks[k].fileId == fileId
    ensures WithFileId(chunks, fileId) == chunks
    decreases |chunks|
  {
    if chunks != [] {
      WithFileIdAll(chunks[1..], fileId);
    }
  }

  /** The ledger never deduplicates: appending a file's chunks again puts
      a second copy after the first, so the file's chunks read back are
      the old ones followed by the new ones. */
  lemma AppendAgainDuplicates(codec: Codec, ledger: Ledger, chunks: seq<Chunk>, fileId: string)
    requires Faithful(codec)
    requires forall k :: 0 <= k < |chunks| ==> chunks[k].fileId == fileId
    ensures GetChunksByFileId(codec, Append(codec, ledger, chunks), fileId)
      == GetChunksByFileId(codec, ledger, fileId) + chunks
  {
    AppendThenLoad(codec, ledger, chunks);
    WithFileIdAppend(Load(codec, ledger), chunks, fileId);
    WithFileIdAll(chunks, fileId);
  }
}

=== FILE: coverage.dfy ===
/** The exam-coverage record and its two field validators
    (app/models/coverage.py). */
module Coverage {
  import opened Wrappers
  import opened Text

  datatype ChapterTopic = ChapterTopic(chapter: int, chapterTitle: string, bullets: seq<string>)

  /** `ExamCoverage`; `exam_date` is optional and the generation timestamp
      is carried as an opaque string. */
  datatype ExamCoverage = ExamCoverage(examId: string, examName: string,
                                       examDate: Option<string>, chapters: seq<int>,
                                       topics: seq<ChapterTopic>, sourceFileId: string,
                                       generatedAt: string)

  /** One character of `v.lower().replace(' ', '_').replace('-', '_')`. */
  function NormalizeIdChar(ch: char): (r: char)
    ensures r != ' ' && r != '-' && !IsUpperAscii(r)
    ensures (ch == ' ' || ch == '-') ==> r == '_'
    ensures ch != ' ' && ch != '-' ==> r == LowerChar(ch)
  {
    var c := LowerChar(ch);
    if c == ' ' || c == '-' then '_' else c
  }

  /** An identifier the validator leaves as it is. */
  predicate IsNormalExamId(v: string)
  {
    forall i :: 0 <= i < |v| ==> v[i] != ' ' && v[i] != '-' && !IsUpperAscii(v[i])
  }

  /** `normalize_exam_id`: lowercase, with spaces and hyphens turned into
      underscores; every other character is kept in place. */
  function NormalizeExamId(v: string): (r: string)
    ensures |r| == |v|
    ensures IsNormalExamId(r)
    ensures forall i :: 0 <= i < |v| ==> (v[i] == ' ' || v[i] == '-' <==> r[i] == '_' && v[i] != '_')
    ensures forall i :: 0 <= i < |v| && v[i] != ' ' && v[i] != '-' ==> r[i] == LowerChar(v[i])
  {
    seq(|v|, i requires 0 <= i < |v| => NormalizeIdChar(v[i]))
  }

  /** Normalising twice is normalising once, and a normal identifier is a
      fixed point. */
  lemma NormalizeExamIdIdempotent(v: string)
    ensures NormalizeExamId(NormalizeExamId(v)) == NormalizeExamId(v)
  {
    NormalIdIsFixed(NormalizeExamId(v));
  }

  lemma NormalIdIsFixed(v: string)
    requires IsNormalExamId(v)
    ensures NormalizeExamId(v) == v
  {
  }

  predicate StrictlyIncreasing(xs: seq<int>)
  {
    forall i, j :: 0 <= i < j < |xs| ==> xs[i] < xs[j]
  }

  /** Inserts `x` into a strictly increasing list, keeping it strictly
      increasing and dropping `x` if it is already there. */
  function Insert(x: int, r: seq<int>): (q: seq<int>)
    requires StrictlyIncreasing(r)
    ensures StrictlyIncreasing(q)
    ensures forall c :: c in q <==> c in r || c == x
    decreases |r|
  {
    if r == [] then [x]
    else if x < r[0] then [x] + r
    else if x == r[0] then r
    else
      var rest := Insert(x, r[1..]);
      assert forall c :: c in rest ==> r[0] < c;
      var q := [r[0]] + rest;
      forall i, j | 0 <= i < j < |q|
        ensures q[i] < q[j]
      {
        assert q[j] == rest[j - 1] && q[j] in rest;
        if i > 0 {
          assert q[i] == rest[i - 1];
        }
      }
      q
  }

  /** `sort_chapters`: `sorted(set(v))` — duplicates removed, ascending. */
  function SortChapters(v: seq<int>): (r: seq<int>)
    ensures StrictlyIncreasing(r)
    ensures forall c :: c in r <==> c in v
    decreases |v|
  {
    if v == [] then []
    else
      var init := v[..|v| - 1];
      assert forall c :: c in v <==> c in init || c == v[|v| - 1] by {
        assert v == init + [v[|v| - 1]];
      }
      Insert(v[|v| - 1], SortChapters(init))
  }

  /** In a strictly increasing list the head is the least element, and
      every other element lies in the tail. */
  lemma HeadIsLeast(a: seq<int>, c: int)
    requires StrictlyIncreasing(a) && c in a
    ensures a[0] <= c
    ensures c != a[0] ==> c in a[1..]
  {
    var m :| 0 <= m < |a| && a[m] == c;
    if m > 0 {
      assert a[1..][m - 1] == c;
    }
  }

  /** The tail holds the elements other than the head. */
  lemma TailElements(a: seq<int>, c: int)
    requires a != [] && StrictlyIncreasing(a) && c in a[1..]
    ensures c in a && c != a[0] && StrictlyIncreasing(a[1..])
  {
    var k :| 0 <= k < |a| - 1 && a[1..][k] == c;
    assert a[k + 1] == c;
  }

  /** A strictly increasing list is determined by its elements. */
  lemma {:induction false} StrictlyIncreasingUnique(a: seq<int>, b: seq<int>)
    requires StrictlyIncreasing(a) && StrictlyIncreasing(b)
    requires forall c :: c in a <==> c in b
    ensures a == b
    decreases |a|
  {
    assert a != [] ==> a[0] in a;
    assert b != [] ==> b[0] in b;
    if a != [] && b != [] {
      HeadIsLeast(a, b[0]);
      HeadIsLeast(b, a[0]);
      assert a[0] == b[0];
      forall c
        ensures c in a[1..] <==> c in b[1..]
      {
        if c in a[1..] {
          TailElements(a, c);
          HeadIsLeast(b, c);
        }
        if c in b[1..] {
          TailElements(b, c);
          HeadIsLeast(a, c);
        }
      }
      assert StrictlyIncreasing(a[1..]) && StrictlyIncreasing(b[1..]);
      StrictlyIncreasingUnique(a[1..], b[1..]);
      assert a == [a[0]] + a[1..] && b == [b[0]] + b[1..];
    }
  }

  /** A strictly increasing list is its own sorted set. */
  lemma SortChaptersOfSorted(v: seq<int>)
    requires StrictlyIncreasing(v)
    ensures SortChapters(v) == v
  {
    StrictlyIncreasingUnique(SortChapters(v), v);
  }

  /** Applying the validator to its own output changes nothing, and lists
      with the same elements validate to the same list. */
  lemma SortChaptersIdempotent(v: seq<int>, w: seq<int>)
    ensures SortChapters(SortChapters(v)) == SortChapters(v)
    ensures (forall c :: c in v <==> c in w) ==> SortChapters(v) == SortChapters(w)
  {
    SortChaptersOfSorted(SortChapters(v));
    if forall c :: c in v <==> c in w {
      StrictlyIncreasingUnique(SortChapters(v), SortChapters(w));
    }
  }

  /** The pydantic constructor: the given fields with both validators applied. */
  function MakeCoverage(examId: string, examName: string, examDate: Option<string>,
                        chapters: seq<int>, topics: seq<ChapterTopic>, sourceFileId: string,
                        generatedAt: string): (c: ExamCoverage)
    ensures c.examId == NormalizeExamId(examId)
    ensures IsNormalExamId(c.examId) && |c.examId| == |examId|
    ensures StrictlyIncreasing(c.chapters)
    ensures forall n :: n in c.chapters <==> n in chapters
    ensures c.examName == examName && c.topics == topics && c.sourceFileId == sourceFileId
    ensures c.examDate == examDate && c.generatedAt == generatedAt
    // an id that is already normal is kept as given
    ensures IsNormalExamId(examId) ==> c.examId == examId
  {
    assert IsNormalExamId(examId) ==> NormalizeExamId(examId) == examId by {
      if IsNormalExamId(examId) {
        NormalIdIsFixed(examId);
      }
    }
    ExamCoverage(NormalizeExamId(examId), examName, examDate, SortChapters(chapters), topics,
                 sourceFileId, generatedAt)
  }

  /** Re-validating a record (as loading a saved coverage file does) gives
      back the same record. */
  lemma RevalidateIsIdentity(c: ExamCoverage)
    requires IsNormalExamId(c.examId) && StrictlyIncreasing(c.chapters)
    ensures MakeCoverage(c.examId, c.examName, c.examDate, c.chapters, c.topics,
                         c.sourceFileId, c.generatedAt) == c
  {
    NormalIdIsFixed(c.examId);
    SortChaptersOfSorted(c.chapters);
  }
}

=== FILE: coverage_extraction.dfy ===
/** Batch exam-coverage extraction with registry bookkeeping
    (app/tools/coverage_extraction.py). The language model is an input:
    `llm` says what extracting coverage from one entry's text yields. */
module CoverageExtraction {
  import opened Wrappers
  import opened Manifest
  import opened Seqs
  import ManifestIO
  import TextExtraction
  import opened Coverage

  /** What the coverage extractor returns: a record, or none and an
      optional message. */
  datatype CoverageResult = Covered(coverage: ExamCoverage) | NotCovered(message: Option<string>)

  /** The coverage directory, keyed by the source file's id. */
  type CoverageDir = map<string, ExamCoverage>

  type Llm = (ManifestFile, TextExtraction.ExtractedText) -> CoverageResult

  const ExamOverview: string := "exam_overview"

  /** The registry path recorded for a file's coverage. */
  function CoverageArtifact(fileId: string): string
  {
    "state/coverage/" + fileId + ".json"
  }

  /** Python's f-string rendering of an optional message. */
  function Render(message: Option<string>): (r: string)
    ensures message.Some? ==> r == message.value
    ensures message.None? ==> r == "None"
  {
    match message
    case Some(m) => m
    case None => "None"
  }

  /** The three guards before any work: an exam overview, already
      processed, and no coverage recorded yet. */
  predicate Eligible(f: ManifestFile)
  {
    f.docType == ExamOverview && f.status == Processed
    && CoverageArtifact(f.fileId) !in f.derived
  }

  datatype CoverageOutcome = Extracted | Skipped | Failed

  function ClassifyEntry(f: ManifestFile, texts: TextExtraction.TextDir, llm: Llm): CoverageOutcome
  {
    if !Eligible(f) then Skipped
    else match TextExtraction.LoadExtractedText(texts, f.fileId)
      case None => Failed
      case Some(t) => if llm(f, t).Covered? then Extracted else Failed
  }

  /** The loop body's effect on one registry entry. */
  function CoverEntry(f: ManifestFile, texts: TextExtraction.TextDir, llm: Llm): (g: ManifestFile)
    ensures !Eligible(f) ==> g == f
    ensures TextExtraction.LoadExtractedText(texts, f.fileId).None? ==> g == f
    ensures ClassifyEntry(f, texts, llm) == Extracted ==>
      g == f.(derived := f.derived + [CoverageArtifact(f.fileId)])
    ensures Eligible(f) && TextExtraction.LoadExtractedText(texts, f.fileId).Some? &&
            llm(f, TextExtraction.LoadExtractedText(texts, f.fileId).value).NotCovered? ==>
      g == f.(error := Some("Coverage extraction: " +
                            Render(llm(f, TextExtraction.LoadExtractedText(texts, f.fileId).value).message)))
    // status is never touched by this stage
    ensures g.status == f.status && g.fileId == f.fileId && g.docType == f.docType
  {
    if !Eligible(f) then f
    else match TextExtraction.LoadExtractedText(texts, f.fileId)
      case None => f
      case Some(t) =>
        match llm(f, t)
        case Covered(_) => f.(derived := AppendIfAbsent(f.derived, CoverageArtifact(f.fileId)))
        case NotCovered(msg) => f.(error := Some("Coverage extraction: " + Render(msg)))
  }

  /** The record the extractor returned for an entry it covered. */
  function CoverageOf(f: ManifestFile, texts: TextExtraction.TextDir, llm: Llm): ExamCoverage
    requires ClassifyEntry(f, texts, llm) == Extracted
  {
    llm(f, TextExtraction.LoadExtractedText(texts, f.fileId).value).coverage
  }

  /** Entry `i` is covered and no later entry with its id is. */
  predicate LastWriter(files: seq<ManifestFile>, texts: TextExtraction.TextDir, llm: Llm, i: int)
    requires 0 <= i < |files|
  {
    && ClassifyEntry(files[i], texts, llm) == Extracted
    && forall j :: i < j < |files| ==>
         !(ClassifyEntry(files[j], texts, llm) == Extracted && files[j].fileId == files[i].fileId)
  }

  /** No covered entry carries id `k`. */
  predicate Unwritten(files: seq<ManifestFile>, texts: TextExtraction.TextDir, llm: Llm, k: string)
  {
    forall i :: 0 <= i < |files| ==>
      !(ClassifyEntry(files[i], texts, llm) == Extracted && files[i].fileId == k)
  }

  /** The coverage files written by the loop, in registry order: each
      covered entry's file holds the extractor's record (the last one
      written under that id), and every other file is left as it was. */
  function WriteCoverage(files: seq<ManifestFile>, texts: TextExtraction.TextDir, llm: Llm,
                         dir: CoverageDir): (r: CoverageDir)
    ensures forall k :: k in dir ==> k in r
    ensures forall i :: 0 <= i < |files| && ClassifyEntry(files[i], texts, llm) == Extracted ==>
      files[i].fileId in r
    ensures forall k :: k in r && k !in dir ==>
      exists i :: 0 <= i < |files| && ClassifyEntry(files[i], texts, llm) == Extracted
                  && files[i].fileId == k
    ensures forall i :: 0 <= i < |files| && LastWriter(files, texts, llm, i) ==>
      r[files[i].fileId] == CoverageOf(files[i], texts, llm)
    ensures forall k :: k in dir && Unwritten(files, texts, llm, k) ==> r[k] == dir[k]
    decreases |files|
  {
    if files == [] then dir
    else
      var f := files[0];
      var dir1 :=
        if ClassifyEntry(f, texts, llm) == Extracted
        then dir[f.fileId := CoverageOf(f, texts, llm)]
        else dir;
      var r := WriteCoverage(files[1..], texts, llm, dir1);
      assert forall i :: 1 <= i < |files| ==> files[i] == files[1..][i - 1];
      WriteCoverageStep(files, texts, llm, dir, dir1, r);
      r
  }

  /** The step from the tail's guarantees to the whole list's. */
  lemma WriteCoverageStep(files: seq<ManifestFile>, texts: TextExtraction.TextDir, llm: Llm,
                          dir: CoverageDir, dir1: CoverageDir, r: CoverageDir)
    requires files != []
    requires dir1 == if ClassifyEntry(files[0], texts, llm) == Extracted
                     then dir[files[0].fileId := CoverageOf(files[0], texts, llm)] else dir
    requires forall i :: 1 <= i < |files| ==> files[i] == files[1..][i - 1]
    requires forall k :: k in dir1 ==> k in r
    requires forall i :: 0 <= i < |files[1..]| && LastWriter(files[1..], texts, llm, i) ==>
      files[1..][i].fileId in r && r[files[1..][i].fileId] == CoverageOf(files[1..][i], texts, llm)
    requires forall k :: k in dir1 && Unwritten(files[1..], texts, llm, k) ==> r[k] == dir1[k]
    ensures forall i :: 0 <= i < |files| && LastWriter(files, texts, llm, i) ==>
      files[i].fileId in r && r[files[i].fileId] == CoverageOf(files[i], texts, llm)
    ensures forall k :: k in dir && Unwritten(files, texts, llm, k) ==> r[k] == dir[k]
  {
    var tail := files[1..];
    forall i | 0 <= i < |files| && LastWriter(files, texts, llm, i)
      ensures files[i].fileId in r && r[files[i].fileId] == CoverageOf(files[i], texts, llm)
    {
      if i == 0 {
        assert Unwritten(tail, texts, llm, files[0].fileId) by {
          forall j | 0 <= j < |tail|
            ensures !(ClassifyEntry(tail[j], texts, llm) == Extracted && tail[j].fileId == files[0].fileId)
          {
            assert tail[j] == files[j + 1];
          }
        }
      } else {
        assert tail[i - 1] == files[i];
        assert LastWriter(tail, texts, llm, i - 1) by {
          forall j | i - 1 < j < |tail|
            ensures !(ClassifyEntry(tail[j], texts, llm) == Extracted && tail[j].fileId == tail[i - 1].fileId)
          {
            assert tail[j] == files[j + 1];
          }
        }
      }
    }
    forall k | k in dir && Unwritten(files, texts, llm, k)
      ensures r[k] == dir[k]
    {
      assert Unwritten(tail, texts, llm, k) by {
        forall j | 0 <= j < |tail|
          ensures !(ClassifyEntry(tail[j], texts, llm) == Extracted && tail[j].fileId == k)
        {
          assert tail[j] == files[j + 1];
        }
      }
      assert !(ClassifyEntry(files[0], texts, llm) == Extracted && files[0].fileId == k);
    }
  }

  function Outcomes(files: seq<ManifestFile>, texts: TextExtraction.TextDir, llm: Llm)
    : (os: seq<CoverageOutcome>)
    ensures |os| == |files|
    ensures forall i :: 0 <= i < |files| ==> os[i] == ClassifyEntry(files[i], texts, llm)
  {
    seq(|files|, i requires 0 <= i < |files| => ClassifyEntry(files[i], texts, llm))
  }

  datatype Stats = Stats(extracted: nat, skipped: nat, failed: nat)

  datatype Run = Run(disk: ManifestIO.Disk, coverage: CoverageDir, stats: Stats)

  /** `extract_all_exam_overviews`: fails when there is no readable
      registry; otherwise each eligible entry is processed, the registry is
      saved and the three counters are returned. */
  function ExtractAllExamOverviews(disk: ManifestIO.Disk, path: string, tmp: string,
                                   texts: TextExtraction.TextDir, dir: CoverageDir, llm: Llm)
    : (r: Result<Run, string>)
    ensures r.Err? <==> ManifestIO.LoadManifest(disk, path).None?
    ensures r.Ok? ==>
      var before := ManifestIO.LoadManifest(disk, path).value;
      var after := ManifestIO.LoadManifest(r.value.disk, path);
      && after.Some?
      && after.value.version == before.version && after.value.lastScan == before.lastScan
      && |after.value.files| == |before.files|
      && (forall i :: 0 <= i < |before.files| ==>
            after.value.files[i] == CoverEntry(before.files[i], texts, llm))
      && r.value.stats.extracted + r.value.stats.skipped + r.value.stats.failed == |before.files|
      && r.value.stats.extracted == Count(Outcomes(before.files, texts, llm), Extracted)
      && r.value.stats.skipped == Count(Outcomes(before.files, texts, llm), Skipped)
      && r.value.stats.failed == Count(Outcomes(before.files, texts, llm), Failed)
    // every extracted record is written
    ensures r.Ok? ==>
      r.value.coverage == WriteCoverage(ManifestIO.LoadManifest(disk, path).value.files, texts, llm, dir)
  {
    match ManifestIO.LoadManifest(disk, path)
    case None => Err("Manifest not found: " + path)
    case Some(m) =>
      var files := seq(|m.files|, i requires 0 <= i < |m.files| => CoverEntry(m.files[i], texts, llm));
      var os := Outcomes(m.files, texts, llm);
      CountPartition3(os, Extracted, Skipped, Failed);
      var saved := m.(files := files);
      ManifestIO.SaveThenLoad(disk, path, tmp, saved);
      Ok(Run(ManifestIO.SaveManifest(disk, path, tmp, saved), WriteCoverage(m.files, texts, llm, dir),
             Stats(Count(os, Extracted), Count(os, Skipped), Count(os, Failed))))
  }

  /** Once coverage has been extracted for an entry, later runs skip it
      whatever the extractor would say; an entry whose extraction failed
      stays eligible and is retried. */
  lemma ExtractedEntryIsSkippedLater(f: ManifestFile, texts: TextExtraction.TextDir, llm: Llm,
                                     texts2: TextExtraction.TextDir, llm2: Llm)
    ensures ClassifyEntry(f, texts, llm) == Extracted ==>
      ClassifyEntry(CoverEntry(f, texts, llm), texts2, llm2) == Skipped
      && CoverEntry(CoverEntry(f, texts, llm), texts2, llm2) == CoverEntry(f, texts, llm)
    ensures ClassifyEntry(f, texts, llm) == Failed ==> Eligible(CoverEntry(f, texts, llm))
  {
  }
}

=== FILE: doc_classify.dfy ===
/** The keyword classifier for uploaded files (app/tools/doc_classify.py):
    only the lower-cased last component of the path is looked at. Paths
    are POSIX paths. */
module DocClassify {
  import opened Text

  datatype DocLabel = Syllabus | Textbook | Notes | Other

  /** The label as the classifier returns it. */
  function Label(d: DocLabel): string
  {
    match d
    case Syllabus => "syllabus"
    case Textbook => "textbook"
    case Notes => "notes"
    case Other => "other"
  }

  const SyllabusWords: seq<string> := ["syllabus", "overview"]
  const TextbookWords: seq<string> := ["textbook", "edition", "chapter"]
  const NotesWords: seq<string> := ["notes", "summary"]

  /** Some word of `words` occurs in `name`. */
  predicate Mentions(name: string, words: seq<string>)
  {
    exists k :: 0 <= k < |words| && Contains(name, words[k])
  }

  lemma MentionsTwo(name: string, a: string, b: string)
    ensures Mentions(name, [a, b]) <==> Contains(name, a) || Contains(name, b)
  {
    assert [a, b][0] == a && [a, b][1] == b;
  }

  lemma MentionsThree(name: string, a: string, b: string, c: string)
    ensures Mentions(name, [a, b, c]) <==> Contains(name, a) || Contains(name, b) || Contains(name, c)
  {
    assert [a, b, c][0] == a && [a, b, c][1] == b && [a, b, c][2] == c;
  }

  /** The keyword tests, in order, on an already lower-cased name. */
  function ClassifyName(name: string): (d: DocLabel)
    ensures d == Syllabus <==> Mentions(name, SyllabusWords)
    ensures d == Textbook <==> !Mentions(name, SyllabusWords) && Mentions(name, TextbookWords)
    ensures d == Notes <==>
      !Mentions(name, SyllabusWords) && !Mentions(name, TextbookWords) && Mentions(name, NotesWords)
  {
    MentionsTwo(name, "syllabus", "overview");
    MentionsThree(name, "textbook", "edition", "chapter");
    MentionsTwo(name, "notes", "summary");
    if Contains(name, "syllabus") || Contains(name, "overview") then Syllabus
    else if Contains(name, "textbook") || Contains(name, "edition") || Contains(name, "chapter") then Textbook
    else if Contains(name, "notes") || Contains(name, "summary") then Notes
    else Other
  }

  // ---------------------------------------------------------------
  // `Path(path).name`
  // ---------------------------------------------------------------

  /** One path component: not empty, not `.`, without a slash. */
  predicate IsComponent(w: string)
  {
    w != "" && w != "." && '/' !in w
  }

  /** The path's parts between slashes, with the empty and `.` parts
      dropped as `pathlib` does. */
  function Components(parts: seq<string>): (cs: seq<string>)
    ensures forall k :: 0 <= k < |cs| ==> cs[k] in parts && cs[k] != "" && cs[k] != "."
    decreases |parts|
  {
    if parts == [] then []
    else
      var init := parts[..|parts| - 1];
      var last := parts[|parts| - 1];
      assert forall k :: 0 <= k < |init| ==> init[k] == parts[k];
      Components(init) + (if last == "" || last == "." then [] else [last])
  }

  /** The last component, or `""` when there is none. */
  function FileName(path: string): (n: string)
    ensures n != "" ==> n != "." && n in SplitOn(path, "/")
  {
    var cs := Components(SplitOn(path, "/"));
    if cs == [] then "" else cs[|cs| - 1]
  }

  /** `classify_doc`: the text sample is never consulted. */
  function ClassifyDoc(path: string, textSample: string): DocLabel
  {
    ClassifyName(Lower(FileName(path)))
  }

  lemma NoSlashNotContained(w: string)
    requires '/' !in w
    ensures !Contains(w, "/")
  {
    forall i | 0 <= i <= |w| - 1
      ensures !OccursAt(w, "/", i)
    {
      assert w[i..i + 1][0] == w[i];
    }
  }

  /** Splitting `dir/w` gives the parts of `dir` and then `w`. */
  lemma {:induction false} SplitOnLastSlash(dir: string, w: string)
    requires '/' !in w
    ensures SplitOn(dir + "/" + w, "/") == SplitOn(dir, "/") + [w]
    decreases |dir|
  {
    var s := dir + "/" + w;
    if dir == [] {
      NoSlashNotContained(w);
      SplitOnAbsent(w, "/");
      assert s[..1] == "/" && s[1..] == w;
    } else {
      assert s[0] == dir[0] && s[1..] == dir[1..] + "/" + w;
      SplitOnLastSlash(dir[1..], w);
      SplitOnFirst(s);
      SplitOnFirst(dir);
    }
  }

  /** One step of `SplitOn(s, "/")` on a non-empty string. */
  lemma SplitOnFirst(s: string)
    requires s != []
    ensures s[0] == '/' ==> SplitOn(s, "/") == [""] + SplitOn(s[1..], "/")
    ensures s[0] != '/' ==> SplitOn(s, "/") == [[s[0]] + SplitOn(s[1..], "/")[0]] + SplitOn(s[1..], "/")[1..]
  {
    assert s[..1][0] == s[0];
    if s[0] == '/' {
      assert s[..1] == "/";
    }
  }

  /** A bare component is its own file name. */
  lemma ComponentIsItsName(w: string)
    requires IsComponent(w)
    ensures FileName(w) == w
  {
    NoSlashNotContained(w);
    SplitOnAbsent(w, "/");
    assert [w][..0] == [];
  }

  /** Directories have no effect: a file classifies the same wherever it
      lies, and whatever text sample is passed. */
  lemma DirectoryIgnored(dir: string, w: string, sample: string, other: string)
    requires IsComponent(w)
    ensures ClassifyDoc(dir + "/" + w, sample) == ClassifyDoc(w, other)
  {
    LastComponentIsName(dir, w);
    ComponentIsItsName(w);
  }

  /** The file name of `dir/w` is `w`. */
  lemma LastComponentIsName(dir: string, w: string)
    requires IsComponent(w)
    ensures FileName(dir + "/" + w) == w
  {
    SplitOnLastSlash(dir, w);
    var parts := SplitOn(dir, "/") + [w];
    assert parts[..|parts| - 1] == SplitOn(dir, "/") && parts[|parts| - 1] == w;
    var cs := Components(parts);
    assert cs == Components(SplitOn(dir, "/")) + [w];
  }

  /** Case has no effect: names that lower-case alike classify alike. */
  lemma CaseIgnored(w1: string, w2: string, sample: string)
    requires IsComponent(w1) && IsComponent(w2) && Lower(w1) == Lower(w2)
    ensures ClassifyDoc(w1, sample) == ClassifyDoc(w2, sample)
  {
    ComponentIsItsName(w1);
    ComponentIsItsName(w2);
  }

  /** A syllabus keyword in the file name wins over every other keyword,
      wherever the file lies. */
  lemma SyllabusWins(dir: string, w: string, sample: string)
    requires IsComponent(w) && Mentions(Lower(w), SyllabusWords)
    ensures ClassifyDoc(dir + "/" + w, sample) == Syllabus
  {
    DirectoryIgnored(dir, w, sample, sample);
    ComponentIsItsName(w);
  }

  /** A keyword in a directory name has no effect. */
  lemma DirectoryKeywordIgnored(w: string, sample: string)
    requires IsComponent(w) && !Mentions(Lower(w), SyllabusWords)
    ensures ClassifyDoc("syllabus/" + w, sample) != Syllabus
  {
    assert "syllabus/" + w == "syllabus" + "/" + w;
    DirectoryIgnored("syllabus", w, sample, sample);
    ComponentIsItsName(w);
  }
}

=== FILE: manifest.dfy ===
/** The file registry's records: one `ManifestFile` per uploaded document
    and the `Manifest` that lists them (app/models/manifest.py). */
module Manifest {
  import opened Wrappers

  /** `Literal["new", "processed", "stale", "error"]`. */
  datatype Status = New | Processed | Stale | Error

  /** The two statuses that ask for (re)extraction. */
  predicate IsPending(s: Status)
  {
    s == New || s == Stale
  }

  /** A registry entry. `modifiedTime` is a Unix timestamp carried as an
      opaque value; nothing in the core computes with it. */
  datatype ManifestFile = ManifestFile(
    fileId: string,
    path: string,
    filename: string,
    sha256: string,
    sizeBytes: int,
    modifiedTime: real,
    docType: string,
    status: Status,
    derived: seq<string>,
    error: Option<string>)

  datatype Manifest = Manifest(version: int, lastScan: string, files: seq<ManifestFile>)

  const UnknownDocType: string := "unknown"

  /** `ManifestFile(...)` given only its required fields: every defaulted
      field takes its declared default. */
  function DefaultFile(fileId: string, path: string, filename: string, sha256: string,
                       sizeBytes: int, modifiedTime: real): (f: ManifestFile)
    ensures f.fileId == fileId && f.path == path && f.filename == filename
    ensures f.sha256 == sha256 && f.sizeBytes == sizeBytes && f.modifiedTime == modifiedTime
    ensures f.docType == "unknown"
    ensures f.status == New
    ensures f.derived == []
    ensures f.error == None
  {
    ManifestFile(fileId, path, filename, sha256, sizeBytes, modifiedTime,
                 UnknownDocType, New, [], None)
  }

  /** `Manifest(last_scan=...)`: version 1 and no files. */
  function DefaultManifest(lastScan: string): (m: Manifest)
    ensures m.version == 1 && m.files == [] && m.lastScan == lastScan
  {
    Manifest(1, lastScan, [])
  }

  predicate NoDuplicates<T(==)>(xs: seq<T>)
  {
    forall i, j :: 0 <= i < j < |xs| ==> xs[i] != xs[j]
  }

  /** `if a not in derived: derived.append(a)`, the step every stage uses to
      record an artifact. */
  function AppendIfAbsent(derived: seq<string>, a: string): (r: seq<string>)
    ensures a in r
    ensures (set x | x in r) == (set x | x in derived) + {a}
    ensures |derived| <= |r| && r[..|derived|] == derived
    ensures NoDuplicates(derived) ==> NoDuplicates(r)
  {
    if a in derived then derived else derived + [a]
  }

  /** `derived.remove(a)`: drops the first occurrence (callers check
      membership first). */
  function RemoveFirst(derived: seq<string>, a: string): (r: seq<string>)
    ensures a !in derived ==> r == derived
    ensures a in derived ==> |r| == |derived| - 1
    ensures NoDuplicates(derived) ==> NoDuplicates(r) && a !in r
    ensures forall x :: x in r ==> x in derived
    ensures forall x :: x in derived && x != a ==> x in r
  {
    if derived == [] then []
    else if derived[0] == a then derived[1..]
    else
      var tail := derived[1..];
      var rest := RemoveFirst(tail, a);
      assert NoDuplicates(derived) ==> derived[0] !in tail;
      [derived[0]] + rest
  }

  /** The position of the first occurrence of `a`. */
  function FirstIndex(s: seq<string>, a: string): (r: nat)
    requires a in s
    ensures r < |s| && s[r] == a && a !in s[..r]
    decreases |s|
  {
    if s[0] == a then 0
    else
      assert a in s[1..];
      var j := FirstIndex(s[1..], a);
      assert s[..j + 1] == [s[0]] + s[1..][..j];
      j + 1
  }

  /** Cutting position `j + 1` out of `[x] + t` is cutting position `j`
      out of `t`, behind `x`. */
  lemma ConsCut<T>(x: T, t: seq<T>, j: nat)
    requires j < |t|
    ensures ([x] + t)[..j + 1] + ([x] + t)[j + 2..] == [x] + (t[..j] + t[j + 1..])
  {
    assert ([x] + t)[..j + 1] == [x] + t[..j];
    assert ([x] + t)[j + 2..] == t[j + 1..];
  }

  /** `list.remove` cuts out exactly the first occurrence: what precedes
      it and what follows it are kept, in order. */
  lemma {:induction false} RemoveFirstDropsFirst(derived: seq<string>, a: string)
    requires a in derived
    ensures var i := FirstIndex(derived, a);
      RemoveFirst(derived, a) == derived[..i] + derived[i + 1..]
    decreases |derived|
  {
    if derived[0] != a {
      var tail := derived[1..];
      assert a in tail;
      RemoveFirstDropsFirst(tail, a);
      var j := FirstIndex(tail, a);
      assert FirstIndex(derived, a) == j + 1;
      assert derived == [derived[0]] + tail;
      ConsCut(derived[0], tail, j);
    }
  }

  /** `next((f for f in files if f.file_id == id), None)` as an index. */
  function FindById(files: seq<ManifestFile>, id: string): (r: Option<nat>)
    ensures r.Some? ==> r.value < |files| && files[r.value].fileId == id
    ensures r.Some? ==> forall k :: 0 <= k < r.value ==> files[k].fileId != id
    ensures r.None? ==> forall k :: 0 <= k < |files| ==> files[k].fileId != id
  {
    if files == [] then None
    else if files[0].fileId == id then Some(0)
    else
      match FindById(files[1..], id)
      case None => None
      case Some(k) => Some(k + 1)
  }
}

=== FILE: manifest_io.dfy ===
/** Loading, saving and reconciling the registry (app/tools/manifest_io.py).
    The filesystem walk and SHA-256 hashing are an input: the scan list. */
module ManifestIO {
  import opened Wrappers
  import opened Manifest

  /** One record of the uploads scan: relative path, final path component,
      content hash, size and modification time. */
  datatype ScanInfo = ScanInfo(path: string, filename: string, sha256: string,
                               sizeBytes: int, modifiedTime: real)

  datatype Stats = Stats(newCount: nat, staleCount: nat, unchangedCount: nat, total: nat)

  /** The directory holding the registry: a map from path to artifact. */
  type Disk = map<string, Stored<Manifest>>

  /** `load_manifest`: `None` when the file is absent or does not parse. */
  function LoadManifest(disk: Disk, path: string): (r: Option<Manifest>)
    ensures path !in disk ==> r == None
    ensures r.Some? <==> path in disk && disk[path].Valid?
    ensures r.Some? ==> disk[path] == Valid(r.value)
  {
    if path !in disk then None else Load(disk[path])
  }

  /** `save_manifest`: the document is written to `tmp`, which then replaces
      `path`. Only those two names are touched and, when they differ, `tmp`
      is gone afterwards. */
  function SaveManifest(disk: Disk, path: string, tmp: string, m: Manifest): (r: Disk)
    ensures path in r && (tmp != path ==> tmp !in r)
    ensures forall q :: q != path && q != tmp ==> (q in r <==> q in disk)
    ensures forall q :: q in r && q != path ==> r[q] == disk[q]
  {
    var written := disk[tmp := Valid(m)];
    var replaced := written[path := written[tmp]];
    if tmp == path then replaced else replaced - {tmp}
  }

  /** Saving and then loading gives back exactly the saved manifest. */
  lemma SaveThenLoad(disk: Disk, path: string, tmp: string, m: Manifest)
    ensures LoadManifest(SaveManifest(disk, path, tmp, m), path) == Some(m)
  {
  }

  /** The position of the last entry with `path`, or -1 when there is none. */
  function LastIndex(files: seq<ManifestFile>, path: string): (r: int)
    ensures -1 <= r < |files|
    ensures r >= 0 ==> files[r].path == path
    ensures forall j :: r < j < |files| ==> files[j].path != path
    decreases |files|
  {
    if files == [] then -1
    else if files[|files| - 1].path == path then |files| - 1
    else LastIndex(files[..|files| - 1], path)
  }

  /** `existing_files = {f.path: f for f in manifest.files}` looked up at
      `path`: on a repeated path the later entry wins. */
  function LastByPath(files: seq<ManifestFile>, path: string): (r: Option<ManifestFile>)
    ensures r.Some? ==> r.value in files && r.value.path == path
    ensures r.Some? ==> exists i :: 0 <= i < |files| && files[i] == r.value
                                   && forall j :: i < j < |files| ==> files[j].path != path
    ensures r.None? <==> forall k :: 0 <= k < |files| ==> files[k].path != path
  {
    var i := LastIndex(files, path);
    if i < 0 then None else Some(files[i])
  }

  /** What reconciliation did with one scanned path. */
  datatype Outcome = Added | Changed | Same

  function ClassifyScan(s: ScanInfo, prev: seq<ManifestFile>): Outcome
  {
    match LastByPath(prev, s.path)
    case None => Added
    case Some(e) => if e.sha256 != s.sha256 then Changed else Same
  }

  /** The entry the loop body appends for one scanned path. */
  function ReconcileOne(s: ScanInfo, prev: seq<ManifestFile>, id: string): (f: ManifestFile)
    ensures f.path == s.path
    ensures LastByPath(prev, s.path).Some? && LastByPath(prev, s.path).value.sha256 != s.sha256
            ==> f == LastByPath(prev, s.path).value.(sha256 := s.sha256, sizeBytes := s.sizeBytes,
                                                     modifiedTime := s.modifiedTime, status := Stale)
    ensures LastByPath(prev, s.path).Some? && LastByPath(prev, s.path).value.sha256 == s.sha256
            ==> f == LastByPath(prev, s.path).value
  {
    match LastByPath(prev, s.path)
    case None => DefaultFile(id, s.path, s.filename, s.sha256, s.sizeBytes, s.modifiedTime)
    case Some(e) =>
      if e.sha256 != s.sha256 then
        e.(sha256 := s.sha256, sizeBytes := s.sizeBytes, modifiedTime := s.modifiedTime,
           status := Stale)
      else e
  }

  /** Number of scanned paths that reconciliation classifies as `o`. */
  function CountOutcome(scan: seq<ScanInfo>, prev: seq<ManifestFile>, o: Outcome): nat
    decreases |scan|
  {
    if scan == [] then 0
    else CountOutcome(scan[..|scan| - 1], prev, o)
         + (if ClassifyScan(scan[|scan| - 1], prev) == o then 1 else 0)
  }

  /** Every scanned path increments exactly one of the three counters. */
  lemma {:induction false} OutcomeCountsPartitionScan(scan: seq<ScanInfo>, prev: seq<ManifestFile>)
    ensures CountOutcome(scan, prev, Added) + CountOutcome(scan, prev, Changed)
            + CountOutcome(scan, prev, Same) == |scan|
    decreases |scan|
  {
    if scan != [] {
      OutcomeCountsPartitionScan(scan[..|scan| - 1], prev);
    }
  }

  datatype Reconciled = Reconciled(files: seq<ManifestFile>, stats: Stats)

  /** The loop of `update_manifest`: one output entry per scanned path, in
      scan order, and the three counters. `freshId(i)` is the identifier a
      new entry at scan position `i` receives. */
  function Reconcile(scan: seq<ScanInfo>, prev: seq<ManifestFile>, freshId: nat -> string)
    : (r: Reconciled)
    ensures |r.files| == |scan|
    ensures forall i :: 0 <= i < |scan| ==> r.files[i].path == scan[i].path
    // a path never seen before becomes a fresh default entry
    ensures forall i :: 0 <= i < |scan| && LastByPath(prev, scan[i].path).None? ==>
      r.files[i] == DefaultFile(freshId(i), scan[i].path, scan[i].filename, scan[i].sha256,
                                scan[i].sizeBytes, scan[i].modifiedTime)
    // a changed hash refreshes hash/size/time and marks the entry stale, keeping the rest
    ensures forall i :: 0 <= i < |scan| && LastByPath(prev, scan[i].path).Some? &&
                        LastByPath(prev, scan[i].path).value.sha256 != scan[i].sha256 ==>
      r.files[i] == LastByPath(prev, scan[i].path).value.(
        sha256 := scan[i].sha256, sizeBytes := scan[i].sizeBytes,
        modifiedTime := scan[i].modifiedTime, status := Stale)
    // an unchanged hash keeps the previous entry verbatim, status included
    ensures forall i :: 0 <= i < |scan| && LastByPath(prev, scan[i].path).Some? &&
                        LastByPath(prev, scan[i].path).value.sha256 == scan[i].sha256 ==>
      r.files[i] == LastByPath(prev, scan[i].path).value
    ensures r.stats.newCount == CountOutcome(scan, prev, Added)
    ensures r.stats.staleCount == CountOutcome(scan, prev, Changed)
    ensures r.stats.unchangedCount == CountOutcome(scan, prev, Same)
    ensures r.stats.newCount + r.stats.staleCount + r.stats.unchangedCount == r.stats.total
    ensures r.stats.total == |scan|
  {
    var files := seq(|scan|, i requires 0 <= i < |scan| => ReconcileOne(scan[i], prev, freshId(i)));
    assert forall i :: 0 <= i < |scan| ==> files[i] == ReconcileOne(scan[i], prev, freshId(i));
    OutcomeCountsPartitionScan(scan, prev);
    Reconciled(files, Stats(CountOutcome(scan, prev, Added), CountOutcome(scan, prev, Changed),
                            CountOutcome(scan, prev, Same), |files|))
  }

  /** Entries of the previous registry whose path was not scanned do not
      survive reconciliation. */
  lemma UnscannedEntriesDropped(scan: seq<ScanInfo>, prev: seq<ManifestFile>,
                                freshId: nat -> string, p: string)
    requires forall i :: 0 <= i < |scan| ==> scan[i].path != p
    ensures forall f :: f in Reconcile(scan, prev, freshId).files ==> f.path != p
  {
    var files := Reconcile(scan, prev, freshId).files;
    forall f | f in files
      ensures f.path != p
    {
      var i :| 0 <= i < |files| && files[i] == f;
    }
  }

  /** An empty scan reports zero for every counter. */
  lemma EmptyScanStats(prev: seq<ManifestFile>, freshId: nat -> string)
    ensures Reconcile([], prev, freshId).stats == Stats(0, 0, 0, 0)
  {
  }

  /** `update_manifest`: load (or start a version-1 registry), reconcile,
      stamp the scan time, save atomically and report the counters. */
  function UpdateManifest(disk: Disk, path: string, tmp: string, scan: seq<ScanInfo>,
                          now: string, freshId: nat -> string): (r: (Disk, Stats))
    // the saved entries and the reported counters are the reconciliation of
    // the scan against the registry found on disk (none when it is unreadable)
    ensures var prev := if LoadManifest(disk, path).Some? then LoadManifest(disk, path).value.files else [];
      && LoadManifest(r.0, path).Some?
      && LoadManifest(r.0, path).value.files == Reconcile(scan, prev, freshId).files
      && r.1 == Reconcile(scan, prev, freshId).stats
    // only the registry and its temporary file are touched
    ensures forall q :: q != path && q != tmp ==> (q in r.0 <==> q in disk)
    ensures forall q :: q != path && q != tmp && q in disk ==> q in r.0 && r.0[q] == disk[q]
    ensures r.1.total == |scan|
    ensures r.1.newCount + r.1.staleCount + r.1.unchangedCount == r.1.total
    ensures LoadManifest(r.0, path).Some?
    ensures LoadManifest(r.0, path).value.lastScan == now
    ensures |LoadManifest(r.0, path).value.files| == |scan|
    ensures LoadManifest(disk, path).None? ==> LoadManifest(r.0, path).value.version == 1
    ensures LoadManifest(disk, path).Some? ==>
      LoadManifest(r.0, path).value.version == LoadManifest(disk, path).value.version
  {
    var m := match LoadManifest(disk, path)
      case None => DefaultManifest(now)
      case Some(m0) => m0;
    var rec := Reconcile(scan, m.files, freshId);
    var saved := m.(files := rec.files, lastScan := now);
    (SaveManifest(disk, path, tmp, saved), rec.stats)
  }

  /** The scanned paths are pairwise distinct, as a directory walk yields them. */
  predicate DistinctPaths(scan: seq<ScanInfo>)
  {
    forall i, j :: 0 <= i < j < |scan| ==> scan[i].path != scan[j].path
  }

  /** An entry with no later entry of the same path is the one found. */
  lemma {:induction false} LastByPathIsLastMatch(files: seq<ManifestFile>, path: string, i: int)
    requires 0 <= i < |files| && files[i].path == path
    requires forall j :: i < j < |files| ==> files[j].path != path
    ensures LastByPath(files, path) == Some(files[i])
    decreases |files|
  {
    if i < |files| - 1 {
      var init := files[..|files| - 1];
      LastByPathIsLastMatch(init, path, i);
    }
  }

  lemma {:induction false} CountAllSame(scan: seq<ScanInfo>, prev: seq<ManifestFile>)
    requires forall i :: 0 <= i < |scan| ==> ClassifyScan(scan[i], prev) == Same
    ensures CountOutcome(scan, prev, Same) == |scan|
    ensures CountOutcome(scan, prev, Added) == 0 && CountOutcome(scan, prev, Changed) == 0
    decreases |scan|
  {
    if scan != [] {
      CountAllSame(scan[..|scan| - 1], prev);
    }
  }

  /** Reconciliation keeps every scanned path and hash at its scan position. */
  lemma ReconcileCarriesScan(scan: seq<ScanInfo>, prev: seq<ManifestFile>, freshId: nat -> string)
    ensures var files := Reconcile(scan, prev, freshId).files;
      forall i :: 0 <= i < |scan| ==> files[i].path == scan[i].path && files[i].sha256 == scan[i].sha256
  {
  }

  /** Reconciling the same scan a second time keeps every entry as it is. */
  lemma RescanIsUnchanged(scan: seq<ScanInfo>, prev: seq<ManifestFile>,
                          freshId: nat -> string, laterId: nat -> string)
    requires DistinctPaths(scan)
    ensures var first := Reconcile(scan, prev, freshId);
      Reconcile(scan, first.files, laterId).files == first.files
  {
    var files := Reconcile(scan, prev, freshId).files;
    ReconcileCarriesScan(scan, prev, freshId);
    forall i | 0 <= i < |scan|
      ensures LastByPath(files, scan[i].path) == Some(files[i])
    {
      assert forall j :: i < j < |files| ==> files[j].path != scan[i].path by {
        forall j | i < j < |files| ensures files[j].path != scan[i].path {
          assert files[j].path == scan[j].path;
        }
      }
      LastByPathIsLastMatch(files, scan[i].path, i);
    }
    var second := Reconcile(scan, files, laterId).files;
    assert forall i :: 0 <= i < |scan| ==> second[i] == files[i];
  }

  /** Reconciling the same scan a second time counts every path as
      unchanged. */
  lemma RescanCountsUnchanged(scan: seq<ScanInfo>, prev: seq<ManifestFile>,
                              freshId: nat -> string, laterId: nat -> string)
    requires DistinctPaths(scan)
    ensures var first := Reconcile(scan, prev, freshId);
      Reconcile(scan, first.files, laterId).stats == Stats(0, 0, |scan|, |scan|)
  {
    var files := Reconcile(scan, prev, freshId).files;
    ReconcileCarriesScan(scan, prev, freshId);
    forall i | 0 <= i < |scan|
      ensures LastByPath(files, scan[i].path) == Some(files[i])
    {
      assert forall j :: i < j < |files| ==> files[j].path != scan[i].path by {
        forall j | i < j < |files| ensures files[j].path != scan[i].path {
          assert files[j].path == scan[j].path;
        }
      }
      LastByPathIsLastMatch(files, scan[i].path, i);
    }
    assert forall i :: 0 <= i < |scan| ==> ClassifyScan(scan[i], files) == Same;
    CountAllSame(scan, files);
  }
}

=== FILE: page_chunking.dfy ===
/** The per-page drivers of app/tools/semantic_chunking.py:
    `chunk_pages_semantic` splits every page on its own, and
    `chunk_page_ranges_semantic` does the same for the pages inside given
    1-based inclusive ranges. Every chunk cites the single page it came
    from. */
module PageChunking {
  import opened Text
  import opened TokenWindows
  import opened Splitter
  import opened PageDrivers

  /** A chunk cut from page `q` of `pages` (1-based): it cites that page
      alone, the page is not whitespace-only, the text is one of the
      splitter's outputs for that page and the count is the tokenizer's. */
  predicate FromPage(c: Config, pages: seq<string>, q: int, ch: ChunkWithPages)
    requires WellFormed(c)
  {
    && 1 <= q <= |pages|
    && ch.pageStart == q && ch.pageEnd == q
    && !IsBlank(pages[q - 1])
    && !IsBlank(ch.text)
    && ch.text in SplitText(c, pages[q - 1])
    && ch.tokenCount == Count(c.tok, ch.text)
  }

  /** The inner loop over one page's split texts: whitespace-only texts
      are skipped, the others become chunks citing page `q`. */
  function ChunksOf(c: Config, texts: seq<string>, q: int): (r: seq<ChunkWithPages>)
    ensures |r| <= |texts|
    ensures forall k :: 0 <= k < |r| ==>
      r[k].pageStart == q && r[k].pageEnd == q && !IsBlank(r[k].text)
      && r[k].text in texts && r[k].tokenCount == Count(c.tok, r[k].text)
    // when no text is whitespace-only (as the splitter guarantees) the skip never fires
    ensures (forall k :: 0 <= k < |texts| ==> !IsBlank(texts[k])) ==>
      |r| == |texts| && forall k :: 0 <= k < |r| ==> r[k].text == texts[k]
    decreases |texts|
  {
    if texts == [] then []
    else
      var rest := ChunksOf(c, texts[1..], q);
      assert forall k :: 0 <= k < |rest| ==> rest[k].text in texts by {
        forall k | 0 <= k < |rest| ensures rest[k].text in texts {
          assert rest[k].text in texts[1..];
        }
      }
      if IsBlank(texts[0]) then rest
      else
        var r := [ChunkWithPages(texts[0], q, q, Count(c.tok, texts[0]))] + rest;
        assert forall k :: 1 <= k < |r| ==> r[k] == rest[k - 1];
        r
  }

  /** The chunks of one page numbered `q`: nothing for a whitespace-only
      page, otherwise one chunk per text the splitter returns. */
  function PageChunks(c: Config, text: string, q: int): (r: seq<ChunkWithPages>)
    requires WellFormed(c)
    ensures IsBlank(text) ==> r == []
    ensures forall k :: 0 <= k < |r| ==> r[k].pageStart == q && r[k].pageEnd == q
  {
    if IsBlank(text) then [] else ChunksOf(c, SplitText(c, text), q)
  }

  /** A page that is not whitespace-only gives exactly one chunk per
      splitter output, in the same order: the per-chunk whitespace skip
      never fires. */
  lemma PageChunksOfSplit(c: Config, text: string, q: int)
    requires WellFormed(c) && !IsBlank(text)
    ensures |PageChunks(c, text, q)| == |SplitText(c, text)|
    ensures forall k :: 0 <= k < |PageChunks(c, text, q)| ==>
      PageChunks(c, text, q)[k] == ChunkWithPages(SplitText(c, text)[k], q, q, Count(c.tok, SplitText(c, text)[k]))
  {
  }

  /** Every chunk of page `q` is one `FromPage` describes. */
  lemma PageChunksFromPage(c: Config, pages: seq<string>, q: int, text: string)
    requires WellFormed(c) && 1 <= q <= |pages| && text == pages[q - 1]
    ensures forall k :: 0 <= k < |PageChunks(c, text, q)| ==> FromPage(c, pages, q, PageChunks(c, text, q)[k])
  {
    if !IsBlank(text) {
      PageChunksOfSplit(c, text, q);
    }
  }

  /** The page split both drivers use: the splitter built from `c`. */
  function PageChunker(c: Config): (f: PageSplit)
    requires WellFormed(c)
  {
    (text: string, q: int) => if WellFormed(c) then PageChunks(c, text, q) else []
  }

  lemma PageChunkerCitesItsPage(c: Config)
    requires WellFormed(c)
    ensures CitesItsPage(PageChunker(c))
  {
  }

  lemma PageChunkerApplies(c: Config, text: string, q: int)
    requires WellFormed(c)
    ensures PageChunker(c)(text, q) == PageChunks(c, text, q)
  {
  }

  /** Every chunk of a span of the splitter's page split cites a single
      page of the book. */
  lemma PageChunkerSpan(c: Config, pages: seq<string>, lo: int, hi: int)
    requires WellFormed(c) && 0 <= lo && hi <= |pages|
    ensures forall k :: 0 <= k < |Span(PageChunker(c), pages, lo, hi)| ==>
      var ch := Span(PageChunker(c), pages, lo, hi)[k];
      1 <= ch.pageStart <= |pages| && ch.pageEnd == ch.pageStart
  {
    var f := PageChunker(c);
    PageChunkerCitesItsPage(c);
    SpanPages(f, pages, lo, hi);
    var r := Span(f, pages, lo, hi);
    forall k | 0 <= k < |r|
      ensures 1 <= r[k].pageStart <= |pages| && r[k].pageEnd == r[k].pageStart
    {
      OfItsPageInPageChunks(c, pages, r[k]);
      var cs := PageChunks(c, pages[r[k].pageStart - 1], r[k].pageStart);
      var i :| 0 <= i < |cs| && cs[i] == r[k];
    }
  }

  /** Every chunk of the ranged loop over the splitter's page split cites
      a single page, inside a range that lies within the book. */
  lemma PageChunkerRanges(c: Config, pages: seq<string>, ranges: seq<(int, int)>)
    requires WellFormed(c)
    ensures forall k :: 0 <= k < |Ranges(PageChunker(c), pages, ranges)| ==>
      var ch := Ranges(PageChunker(c), pages, ranges)[k];
      InSomeRange(ranges, |pages|, ch.pageStart) && ch.pageEnd == ch.pageStart
  {
    var f := PageChunker(c);
    PageChunkerCitesItsPage(c);
    RangesPages(f, pages, ranges);
    var r := Ranges(f, pages, ranges);
    forall k | 0 <= k < |r|
      ensures r[k].pageEnd == r[k].pageStart
    {
      OfItsPageInPageChunks(c, pages, r[k]);
      var cs := PageChunks(c, pages[r[k].pageStart - 1], r[k].pageStart);
      var i :| 0 <= i < |cs| && cs[i] == r[k];
    }
  }

  /** `chunk_pages_semantic`: every page in order; each chunk cites one
      page of the book. */
  function ChunkPages(c: Config, pages: seq<string>): (r: seq<ChunkWithPages>)
    requires WellFormed(c)
    ensures forall k :: 0 <= k < |r| ==>
      var ch := r[k];
      1 <= ch.pageStart <= |pages| && ch.pageEnd == ch.pageStart
  {
    PageChunkerSpan(c, pages, 0, |pages|);
    Span(PageChunker(c), pages, 0, |pages|)
  }

  /** `chunk_page_ranges_semantic`: each chunk cites one page, inside one of
      the ranges, and that range lies within the book (ranges reaching
      outside are skipped whole). */
  function ChunkPageRanges(c: Config, pages: seq<string>, ranges: seq<(int, int)>): (r: seq<ChunkWithPages>)
    requires WellFormed(c)
    ensures forall k :: 0 <= k < |r| ==>
      var ch := r[k];
      InSomeRange(ranges, |pages|, ch.pageStart) && ch.pageEnd == ch.pageStart
  {
    PageChunkerRanges(c, pages, ranges);
    Ranges(PageChunker(c), pages, ranges)
  }

  /** A chunk `OfItsPage` for the splitter's page split is one of the
      chunks of the page it cites. */
  lemma OfItsPageInPageChunks(c: Config, pages: seq<string>, ch: ChunkWithPages)
    requires WellFormed(c) && OfItsPage(PageChunker(c), pages, ch)
    ensures 1 <= ch.pageStart <= |pages| && ch in PageChunks(c, pages[ch.pageStart - 1], ch.pageStart)
  {
    PageChunkerApplies(c, pages[ch.pageStart - 1], ch.pageStart);
  }

  /** A chunk of page `q`'s chunks is a `FromPage` chunk of that page. */
  lemma InPageChunks(c: Config, pages: seq<string>, q: int, ch: ChunkWithPages)
    requires WellFormed(c)
    requires 1 <= q <= |pages| && ch in PageChunks(c, pages[q - 1], q)
    ensures FromPage(c, pages, q, ch)
  {
    var text := pages[q - 1];
    PageChunksFromPage(c, pages, q, text);
    var k :| 0 <= k < |PageChunks(c, text, q)| && PageChunks(c, text, q)[k] == ch;
  }

  /** `chunk_pages_semantic` keeps page order. */
  lemma ChunkPagesOrdered(c: Config, pages: seq<string>)
    requires WellFormed(c)
    ensures forall i, j :: 0 <= i < j < |ChunkPages(c, pages)| ==>
      ChunkPages(c, pages)[i].pageStart <= ChunkPages(c, pages)[j].pageStart
  {
    PageChunkerCitesItsPage(c);
    SpanOrdered(PageChunker(c), pages, 0, |pages|);
  }

  /** `chunk_pages_semantic`: every chunk cites one page, that page is not
      whitespace-only, and the chunk is one of the splitter's outputs for
      it with its token count. */
  lemma ChunkPagesFromPages(c: Config, pages: seq<string>)
    requires WellFormed(c)
    ensures forall k :: 0 <= k < |ChunkPages(c, pages)| ==>
      FromPage(c, pages, ChunkPages(c, pages)[k].pageStart, ChunkPages(c, pages)[k])
  {
    WholeBookRange(c, pages);
    ChunkPageRangesInRanges(c, pages, [(1, |pages|)]);
  }

  /** Page by page, `chunk_pages_semantic` gives exactly what splitting
      that page alone gives: nothing for a page number out of range. */
  lemma ChunkPagesByPage(c: Config, pages: seq<string>, q: int)
    requires WellFormed(c)
    ensures OnPage(ChunkPages(c, pages), q) == if 1 <= q <= |pages| then PageChunks(c, pages[q - 1], q) else []
  {
    PageChunkerCitesItsPage(c);
    SpanByPage(PageChunker(c), pages, 0, |pages|, q);
  }

  /** `chunk_page_ranges_semantic`: every chunk is a `FromPage` chunk of
      the page it cites. */
  lemma ChunkPageRangesInRanges(c: Config, pages: seq<string>, ranges: seq<(int, int)>)
    requires WellFormed(c)
    ensures forall k :: 0 <= k < |ChunkPageRanges(c, pages, ranges)| ==>
      FromPage(c, pages, ChunkPageRanges(c, pages, ranges)[k].pageStart, ChunkPageRanges(c, pages, ranges)[k])
  {
    PageChunkerCitesItsPage(c);
    RangesPages(PageChunker(c), pages, ranges);
    var r := ChunkPageRanges(c, pages, ranges);
    forall k | 0 <= k < |r|
      ensures FromPage(c, pages, r[k].pageStart, r[k])
    {
      OfItsPageInPageChunks(c, pages, r[k]);
      InPageChunks(c, pages, r[k].pageStart, r[k]);
    }
  }

  /** Ranges are processed independently and in order. */
  lemma ChunkPageRangesAppend(c: Config, pages: seq<string>, a: seq<(int, int)>, b: seq<(int, int)>)
    requires WellFormed(c)
    ensures ChunkPageRanges(c, pages, a + b) == ChunkPageRanges(c, pages, a) + ChunkPageRanges(c, pages, b)
  {
    RangesAppend(PageChunker(c), pages, a, b);
  }

  /** The single range covering the whole book gives the same chunks as
      chunking every page. */
  lemma WholeBookRange(c: Config, pages: seq<string>)
    requires WellFormed(c)
    ensures ChunkPageRanges(c, pages, [(1, |pages|)]) == ChunkPages(c, pages)
  {
    var f := PageChunker(c);
    var rs := [(1, |pages|)];
    assert rs[1..] == [];
    assert Ranges(f, pages, rs) == RangeChunks(f, pages, rs[0]) + Ranges(f, pages, []);
    assert RangeChunks(f, pages, rs[0]) == Span(f, pages, 0, |pages|);
  }
}

=== FILE: page_drivers.dfy ===
/** The page loops of app/tools/semantic_chunking.py, written over any
    function that turns one page into chunks: `chunk_pages_semantic` runs
    it on every page in order, and `chunk_page_ranges_semantic` on the
    pages inside given 1-based inclusive ranges. */
module PageDrivers {
  /** `ChunkWithPages`: a chunk's text, its 1-based page span and its
      token count. */
  datatype ChunkWithPages = ChunkWithPages(text: string, pageStart: int, pageEnd: int, tokenCount: nat)

  /** How one page becomes chunks: its text and 1-based number in, its
      chunks out. */
  type PageSplit = (string, int) -> seq<ChunkWithPages>

  /** Every chunk a page split returns cites the page it was given. */
  ghost predicate CitesItsPage(f: PageSplit)
  {
    forall text: string, q: int, k :: 0 <= k < |f(text, q)| ==> f(text, q)[k].pageStart == q
  }

  /** The chunks of the pages with 0-based indices `lo .. hi-1`, in page
      order (Python's `range(lo, hi)`, empty when `hi <= lo`). */
  function Span(f: PageSplit, pages: seq<string>, lo: int, hi: int): seq<ChunkWithPages>
    requires 0 <= lo && hi <= |pages|
    decreases hi - lo
  {
    if hi <= lo then []
    else Span(f, pages, lo, hi - 1) + f(pages[hi - 1], hi)
  }

  /** One `(start, end)` range: skipped when `start - 1 < 0` or
      `end > len(pages)`, otherwise pages `start .. end`. */
  function RangeChunks(f: PageSplit, pages: seq<string>, range: (int, int)): (r: seq<ChunkWithPages>)
    ensures range.0 < 1 || range.1 > |pages| ==> r == []
  {
    if range.0 - 1 < 0 || range.1 > |pages| then []
    else Span(f, pages, range.0 - 1, range.1)
  }

  /** The loop over the ranges in the given order, each contributing its
      pages' chunks; overlapping ranges repeat pages. */
  function Ranges(f: PageSplit, pages: seq<string>, ranges: seq<(int, int)>): seq<ChunkWithPages>
    decreases |ranges|
  {
    if ranges == [] then []
    else RangeChunks(f, pages, ranges[0]) + Ranges(f, pages, ranges[1..])
  }

  /** Chunk `ch` is one of the chunks `f` cuts from the page it cites. */
  predicate OfItsPage(f: PageSplit, pages: seq<string>, ch: ChunkWithPages)
  {
    1 <= ch.pageStart <= |pages| && ch in f(pages[ch.pageStart - 1], ch.pageStart)
  }

  /** Every chunk of a span is one of the chunks of a page of the span,
      namely the page it cites. */
  lemma {:induction false} SpanPages(f: PageSplit, pages: seq<string>, lo: int, hi: int)
    requires CitesItsPage(f) && 0 <= lo && hi <= |pages|
    ensures forall k :: 0 <= k < |Span(f, pages, lo, hi)| ==>
      lo < Span(f, pages, lo, hi)[k].pageStart <= hi && OfItsPage(f, pages, Span(f, pages, lo, hi)[k])
    decreases hi - lo
  {
    if hi > lo {
      SpanPages(f, pages, lo, hi - 1);
      var a := Span(f, pages, lo, hi - 1);
      var b := f(pages[hi - 1], hi);
      var r := a + b;
      assert Span(f, pages, lo, hi) == r;
      forall k | 0 <= k < |r|
        ensures lo < r[k].pageStart <= hi && OfItsPage(f, pages, r[k])
      {
        if k < |a| { assert r[k] == a[k]; } else { assert r[k] == b[k - |a|]; }
      }
    }
  }

  /** Chunks come out in page order. */
  lemma {:induction false} SpanOrdered(f: PageSplit, pages: seq<string>, lo: int, hi: int)
    requires CitesItsPage(f) && 0 <= lo && hi <= |pages|
    ensures forall i, j :: 0 <= i < j < |Span(f, pages, lo, hi)| ==>
      Span(f, pages, lo, hi)[i].pageStart <= Span(f, pages, lo, hi)[j].pageStart
    decreases hi - lo
  {
    if hi > lo {
      SpanOrdered(f, pages, lo, hi - 1);
      SpanPages(f, pages, lo, hi - 1);
      var a := Span(f, pages, lo, hi - 1);
      var b := f(pages[hi - 1], hi);
      var r := a + b;
      assert Span(f, pages, lo, hi) == r;
      forall i, j | 0 <= i < j < |r|
        ensures r[i].pageStart <= r[j].pageStart
      {
        if j >= |a| {
          assert r[j] == b[j - |a|];
          if i < |a| { assert r[i] == a[i]; } else { assert r[i] == b[i - |a|]; }
        } else {
          assert r[i] == a[i] && r[j] == a[j];
        }
      }
    }
  }

  /** The chunks carrying page number `q`, in order. */
  function OnPage(cs: seq<ChunkWithPages>, q: int): (r: seq<ChunkWithPages>)
    ensures |r| <= |cs|
    ensures forall k :: 0 <= k < |r| ==> r[k].pageStart == q
    decreases |cs|
  {
    if cs == [] then []
    else (if cs[0].pageStart == q then [cs[0]] else []) + OnPage(cs[1..], q)
  }

  lemma {:induction false} OnPageAppend(a: seq<ChunkWithPages>, b: seq<ChunkWithPages>, q: int)
    ensures OnPage(a + b, q) == OnPage(a, q) + OnPage(b, q)
    decreases |a|
  {
    if a == [] {
      assert a + b == b;
    } else {
      var h := if a[0].pageStart == q then [a[0]] else [];
      calc {
        OnPage(a + b, q);
        { assert (a + b)[0] == a[0] && (a + b)[1..] == a[1..] + b; }
        h + OnPage(a[1..] + b, q);
        { OnPageAppend(a[1..], b, q); }
        h + (OnPage(a[1..], q) + OnPage(b, q));
        (h + OnPage(a[1..], q)) + OnPage(b, q);
      }
    }
  }

  lemma {:induction false} OnPageAll(cs: seq<ChunkWithPages>, q: int)
    requires forall k :: 0 <= k < |cs| ==> cs[k].pageStart == q
    ensures OnPage(cs, q) == cs
    decreases |cs|
  {
    if cs != [] {
      OnPageAll(cs[1..], q);
    }
  }

  lemma {:induction false} OnPageNone(cs: seq<ChunkWithPages>, q: int)
    requires forall k :: 0 <= k < |cs| ==> cs[k].pageStart != q
    ensures OnPage(cs, q) == []
    decreases |cs|
  {
    if cs != [] {
      OnPageNone(cs[1..], q);
    }
  }

  /** Page by page, a span holds exactly the chunks of splitting that page
      on its own; a page outside the span has none. */
  lemma {:induction false} SpanByPage(f: PageSplit, pages: seq<string>, lo: int, hi: int, q: int)
    requires CitesItsPage(f) && 0 <= lo && hi <= |pages|
    ensures OnPage(Span(f, pages, lo, hi), q) == if lo < q <= hi then f(pages[q - 1], q) else []
    decreases hi - lo
  {
    if hi <= lo {
      assert Span(f, pages, lo, hi) == [];
    } else {
      var a := Span(f, pages, lo, hi - 1);
      var b := f(pages[hi - 1], hi);
      assert Span(f, pages, lo, hi) == a + b;
      SpanByPage(f, pages, lo, hi - 1, q);
      OnPageAppend(a, b, q);
      if q == hi {
        OnPageAll(b, q);
      } else {
        OnPageNone(b, q);
      }
    }
  }

  /** Page `p` lies in one of the ranges, and that range lies within a
      book of `n` pages. */
  predicate InSomeRange(ranges: seq<(int, int)>, n: int, p: int)
  {
    exists j :: 0 <= j < |ranges| && 1 <= ranges[j].0 <= p <= ranges[j].1 <= n
  }

  /** Every chunk of the ranged loop comes from a page inside one of the
      ranges that was not skipped. */
  lemma {:induction false} RangesPages(f: PageSplit, pages: seq<string>, ranges: seq<(int, int)>)
    requires CitesItsPage(f)
    ensures forall k :: 0 <= k < |Ranges(f, pages, ranges)| ==>
      OfItsPage(f, pages, Ranges(f, pages, ranges)[k])
      && InSomeRange(ranges, |pages|, Ranges(f, pages, ranges)[k].pageStart)
    decreases |ranges|
  {
    if ranges != [] {
      RangesPages(f, pages, ranges[1..]);
      var a := RangeChunks(f, pages, ranges[0]);
      var b := Ranges(f, pages, ranges[1..]);
      assert Ranges(f, pages, ranges) == a + b;
      if !(ranges[0].0 - 1 < 0 || ranges[0].1 > |pages|) {
        SpanPages(f, pages, ranges[0].0 - 1, ranges[0].1);
      }
      forall k | 0 <= k < |a|
        ensures OfItsPage(f, pages, a[k]) && InSomeRange(ranges, |pages|, a[k].pageStart)
      {
        assert 1 <= ranges[0].0 <= a[k].pageStart <= ranges[0].1 <= |pages|;
      }
      forall k | 0 <= k < |b|
        ensures InSomeRange(ranges, |pages|, b[k].pageStart)
      {
        var j :| 0 <= j < |ranges[1..]| && 1 <= ranges[1..][j].0 <= b[k].pageStart <= ranges[1..][j].1 <= |pages|;
        assert ranges[1..][j] == ranges[j + 1];
      }
      ConcatKeeps(f, pages, ranges, a, b);
    }
  }

  lemma ConcatKeeps(f: PageSplit, pages: seq<string>, ranges: seq<(int, int)>,
                    a: seq<ChunkWithPages>, b: seq<ChunkWithPages>)
    requires forall k :: 0 <= k < |a| ==> OfItsPage(f, pages, a[k]) && InSomeRange(ranges, |pages|, a[k].pageStart)
    requires forall k :: 0 <= k < |b| ==> OfItsPage(f, pages, b[k]) && InSomeRange(ranges, |pages|, b[k].pageStart)
    ensures forall k :: 0 <= k < |a + b| ==>
      OfItsPage(f, pages, (a + b)[k]) && InSomeRange(ranges, |pages|, (a + b)[k].pageStart)
  {
    forall k | 0 <= k < |a + b|
      ensures OfItsPage(f, pages, (a + b)[k]) && InSomeRange(ranges, |pages|, (a + b)[k].pageStart)
    {
      if k < |a| { assert (a + b)[k] == a[k]; } else { assert (a + b)[k] == b[k - |a|]; }
    }
  }

  /** The ranged loop over the concatenation of two range lists gives the
      concatenation of the two results. */
  lemma {:induction false} RangesAppend(f: PageSplit, pages: seq<string>, a: seq<(int, int)>, b: seq<(int, int)>)
    ensures Ranges(f, pages, a + b) == Ranges(f, pages, a) + Ranges(f, pages, b)
    decreases |a|
  {
    if a == [] {
      assert a + b == b;
    } else {
      var h := RangeChunks(f, pages, a[0]);
      calc {
        Ranges(f, pages, a + b);
        { assert (a + b)[0] == a[0] && (a + b)[1..] == a[1..] + b; }
        h + Ranges(f, pages, a[1..] + b);
        { RangesAppend(f, pages, a[1..], b); }
        h + (Ranges(f, pages, a[1..]) + Ranges(f, pages, b));
        (h + Ranges(f, pages, a[1..])) + Ranges(f, pages, b);
      }
    }
  }
}

=== FILE: retrieval.dfy ===
/** The retrieval side of the agent tools (app/agents/tools.py): the
    process-wide retry guard of `search_textbook`, the filters it hands to
    the vector search, the formatting of the hits, and `check_readiness`.
    The embedding, the FAISS search and the text lookup are one oracle that
    maps filters to hits. */
module Retrieval {
  import opened Wrappers
  import opened Text
  import Coverage

  // ---------------------------------------------------------------
  // Query normalisation
  // ---------------------------------------------------------------

  /** `" ".join(query.lower().split())`: no capitals are left, the result
      splits back into the lowered query's words, and it is those words
      joined by single spaces. */
  function NormalizeQuery(q: string): (r: string)
    ensures HasNoUpper(r)
    ensures Words(r) == Words(Lower(q))
    // canonical: the words joined by single spaces, nothing around them
    ensures r == Join(" ", Words(r))
  {
    var ws := Words(Lower(q));
    WordsHaveNoUpper(Lower(q));
    JoinHasNoUpper(ws);
    WordsOfJoinedWords(ws);
    Join(" ", ws)
  }

  /** The words of a string without capitals have none either. */
  lemma {:induction false} WordsHaveNoUpper(s: string)
    requires HasNoUpper(s)
    ensures forall k :: 0 <= k < |Words(s)| ==> HasNoUpper(Words(s)[k])
    decreases |s|
  {
    if s != [] {
      if IsSpaceChar(s[0]) {
        WordsHaveNoUpper(s[1..]);
      } else {
        var n := WordLength(s);
        WordsHaveNoUpper(s[n..]);
        assert Words(s) == [s[..n]] + Words(s[n..]);
      }
    }
  }

  /** Joining capital-free parts with a space gives a capital-free string. */
  lemma {:induction false} JoinHasNoUpper(parts: seq<string>)
    requires forall k :: 0 <= k < |parts| ==> HasNoUpper(parts[k])
    ensures HasNoUpper(Join(" ", parts))
    decreases |parts|
  {
    if |parts| > 1 {
      JoinHasNoUpper(parts[1..]);
      var rest := Join(" ", parts[1..]);
      var j := parts[0] + " " + rest;
      forall i | 0 <= i < |j|
        ensures !IsUpperAscii(j[i])
      {
        if i >= |parts[0]| + 1 {
          assert j[i] == rest[i - |parts[0]| - 1];
        }
      }
    }
  }

  /** Normalising twice is normalising once, so a normalised query that is
      sent again counts as the same question. */
  lemma {:induction false} NormalizeQueryIdempotent(q: string)
    ensures NormalizeQuery(NormalizeQuery(q)) == NormalizeQuery(q)
  {
    LowerOfLowerCase(NormalizeQuery(q));
  }

  /** Case and surrounding whitespace do not distinguish questions. */
  lemma CaseAndSpacingIgnored(q: string)
    ensures NormalizeQuery(" " + Lower(q) + "\n") == NormalizeQuery(q)
  {
    var l := Lower(q);
    LowerOfLowerCase(l);
    assert Lower(" " + l + "\n") == " " + l + "\n";
    assert (" " + l + "\n")[1..] == l + "\n";
    WordsIgnoreTrailingSpace(l);
  }

  /** A trailing newline adds no word. */
  lemma {:induction false} WordsIgnoreTrailingSpace(s: string)
    ensures Words(s + "\n") == Words(s)
    decreases |s|
  {
    var t := s + "\n";
    if s == [] {
      assert t[1..] == [];
    } else if IsSpaceChar(s[0]) {
      assert t[1..] == s[1..] + "\n";
      WordsIgnoreTrailingSpace(s[1..]);
    } else {
      var n := WordLength(s);
      assert WordLength(t) == n by {
        WordLengthOfPrefix(s, n);
      }
      assert t[..n] == s[..n];
      assert t[n..] == s[n..] + "\n";
      WordsIgnoreTrailingSpace(s[n..]);
    }
  }

  lemma WordLengthOfPrefix(s: string, n: nat)
    requires n == WordLength(s)
    ensures WordLength(s + "\n") == n
  {
    if n < |s| {
      WordLengthAgrees(s, s + "\n", n);
    } else {
      assert s + "\n" == s[..n] + "\n";
      WordLengthOfWord(s[..n], "\n");
    }
  }

  /** Two strings that agree up to and including the first space have the
      same leading word. */
  lemma {:induction false} WordLengthAgrees(s: string, t: string, n: nat)
    requires n == WordLength(s) && n < |s| && n < |t|
    requires forall i :: 0 <= i <= n ==> s[i] == t[i]
    ensures WordLength(t) == n
    decreases n
  {
    if n > 0 {
      WordLengthAgrees(s[1..], t[1..], n - 1);
    }
  }

  // ---------------------------------------------------------------
  // The retry guard
  // ---------------------------------------------------------------

  /** `_TUTOR_LAST_QUERY` and `_TUTOR_QUERY_ATTEMPTS`. */
  datatype Guard = Guard(lastQuery: Option<string>, attempts: int)

  const FreshGuard: Guard := Guard(None, 0)

  /** `TUTOR_SEARCH_MAX_ATTEMPTS` when the environment does not set it. */
  const DefaultMaxAttempts: int := 2

  /** The guard after a search for `q`, whatever the search's outcome: it
      remembers the normalised question, and only a repeat of the
      remembered question keeps counting. */
  function Observe(g: Guard, q: string): (r: Guard)
    ensures r.lastQuery == Some(NormalizeQuery(q))
    ensures r.attempts >= 1 || g.attempts < 0
    // what is remembered is already normal, so sending it again is a repeat
    ensures NormalizeQuery(r.lastQuery.value) == r.lastQuery.value
  {
    NormalizeQueryIdempotent(q);
    var n := NormalizeQuery(q);
    if g.lastQuery == Some(n) then g.(attempts := g.attempts + 1) else Guard(Some(n), 1)
  }

  predicate Rejects(g: Guard, maxAttempts: int)
  {
    g.attempts > maxAttempts
  }

  /** The guard after a series of searches. */
  function ObserveAll(g: Guard, qs: seq<string>): Guard
    decreases |qs|
  {
    if qs == [] then g else Observe(ObserveAll(g, qs[..|qs| - 1]), qs[|qs| - 1])
  }

  /** After `n` searches for the same question, following anything else,
      the guard counts exactly `n` attempts. */
  lemma {:induction false} RepeatsAreCounted(g: Guard, qs: seq<string>, n: string)
    requires qs != []
    requires forall k :: 0 <= k < |qs| ==> NormalizeQuery(qs[k]) == n
    requires g.lastQuery != Some(n)
    ensures ObserveAll(g, qs) == Guard(Some(n), |qs|)
    decreases |qs|
  {
    var init := qs[..|qs| - 1];
    if init != [] {
      assert forall k :: 0 <= k < |init| ==> init[k] == qs[k];
      RepeatsAreCounted(g, init, n);
    }
  }

  /** With the default limit the first two searches for a question pass and
      the third is rejected. */
  lemma ThirdRepeatRejected(g: Guard, q: string)
    requires g.lastQuery != Some(NormalizeQuery(q))
    ensures !Rejects(ObserveAll(g, [q]), DefaultMaxAttempts)
    ensures !Rejects(ObserveAll(g, [q, q]), DefaultMaxAttempts)
    ensures Rejects(ObserveAll(g, [q, q, q]), DefaultMaxAttempts)
  {
    RepeatsAreCounted(g, [q], NormalizeQuery(q));
    RepeatsAreCounted(g, [q, q], NormalizeQuery(q));
    RepeatsAreCounted(g, [q, q, q], NormalizeQuery(q));
  }

  /** Rejected searches still count, so once a question is rejected every
      further repetition is rejected too. */
  lemma StaysRejected(g: Guard, q: string, q2: string, maxAttempts: int)
    requires Rejects(Observe(g, q), maxAttempts)
    requires NormalizeQuery(q2) == NormalizeQuery(q)
    ensures Rejects(Observe(Observe(g, q), q2), maxAttempts)
    ensures Observe(Observe(g, q), q2).attempts == Observe(g, q).attempts + 1
  {
  }

  /** Asking anything else resets the count, so with any limit of at least
      one the new question passes. */
  lemma OtherQuestionResets(g: Guard, q: string, maxAttempts: int)
    requires g.lastQuery != Some(NormalizeQuery(q))
    requires maxAttempts >= 1
    ensures Observe(g, q).attempts == 1 && !Rejects(Observe(g, q), maxAttempts)
  {
  }

  // ---------------------------------------------------------------
  // Filters
  // ---------------------------------------------------------------

  /** The `chapter_number` filter: absent, the exam's chapter list, or one
      chapter. */
  datatype ChapterFilter = AnyChapter | ChapterList(chapters: seq<int>) | OneChapter(chapter: int)

  datatype Filters = Filters(minScore: real, chapter: ChapterFilter, fileId: Option<string>)

  const MinScore: real := 0.5

  /** The coverage files the search reads, by exam id. */
  type CoverageFiles = map<string, Stored<Coverage.ExamCoverage>>

  /** Python truthiness of an optional string. */
  predicate Given(s: Option<string>)
  {
    s.Some? && s.value != ""
  }

  /** The exam's coverage file as the search sees it: `Missing` when no
      exam is given or it has no file. */
  function ExamCoverageFile(examFileId: Option<string>, coverage: CoverageFiles): Stored<Coverage.ExamCoverage>
  {
    if Given(examFileId) && examFileId.value in coverage then coverage[examFileId.value] else Missing
  }

  /** The filters of one search, or `None` when the exam's coverage file
      exists but does not parse (the search then fails). */
  function BuildFilters(examFileId: Option<string>, textbookFileId: Option<string>,
                        chapterNumber: Option<int>, coverage: CoverageFiles): (r: Option<Filters>)
    ensures r.None? <==> ExamCoverageFile(examFileId, coverage).Corrupt?
    ensures r.Some? ==> r.value.minScore == MinScore
    ensures r.Some? ==> (r.value.fileId.Some? <==> Given(textbookFileId))
    ensures r.Some? && Given(textbookFileId) ==> r.value.fileId == textbookFileId
    // an explicit chapter wins over the exam's chapters
    ensures r.Some? && chapterNumber.Some? ==> r.value.chapter == OneChapter(chapterNumber.value)
    ensures r.Some? && chapterNumber.None? ==>
      r.value.chapter == match ExamCoverageFile(examFileId, coverage)
                         case Valid(c) => ChapterList(c.chapters)
                         case _ => AnyChapter
  {
    var fromExam: Option<ChapterFilter> :=
      match ExamCoverageFile(examFileId, coverage)
      case Missing => Some(AnyChapter)
      case Corrupt => None
      case Valid(c) => Some(ChapterList(c.chapters));
    match fromExam
    case None => None
    case Some(exam) =>
      var file := if Given(textbookFileId) then textbookFileId else None;
      var chapter := if chapterNumber.Some? then OneChapter(chapterNumber.value) else exam;
      Some(Filters(MinScore, chapter, file))
  }

  /** An unreadable coverage file fails the search even when an explicit
      chapter would have replaced its chapters. */
  lemma CorruptCoverageFailsDespiteChapter(examFileId: string, textbookFileId: Option<string>,
                                           chapter: int, coverage: CoverageFiles)
    requires examFileId != "" && examFileId in coverage && coverage[examFileId].Corrupt?
    ensures BuildFilters(Some(examFileId), textbookFileId, Some(chapter), coverage).None?
  {
  }

  // ---------------------------------------------------------------
  // Formatting
  // ---------------------------------------------------------------

  /** A search hit after its text was looked up; the text may be missing. */
  datatype Hit = Hit(chunkId: string, text: Option<string>, filename: string,
                     pageStart: int, pageEnd: int, chapter: Option<int>, score: real)

  datatype Formatted = Formatted(chunkId: string, text: string, filename: string,
                                 pageStart: int, pageEnd: int, chapter: Option<int>, score: real)

  const PreviewLength: nat := 500

  /** `text[:500] + "..." if len(text) > 500 else text`. */
  function Preview(t: string): (p: string)
    ensures |p| <= PreviewLength + 3
    ensures |t| <= PreviewLength ==> p == t
    ensures |t| > PreviewLength ==> |p| == PreviewLength + 3
  {
    if |t| > PreviewLength then t[..PreviewLength] + "..." else t
  }

  /** A preview keeps the start of the text and marks a cut. */
  lemma PreviewKeepsStart(t: string)
    ensures var p := Preview(t);
      if |t| <= PreviewLength then p == t
      else |p| == PreviewLength + 3 && p[..PreviewLength] == t[..PreviewLength] && p[PreviewLength..] == "..."
  {
  }

  /** Previewing a preview changes nothing. */
  lemma PreviewIdempotent(t: string)
    ensures Preview(Preview(t)) == Preview(t)
  {
    var p := Preview(t);
    if |t| > PreviewLength {
      assert p[..PreviewLength] + "..." == p;
    }
  }

  function Format(h: Hit): Formatted
    requires h.text.Some?
  {
    Formatted(h.chunkId, Preview(h.text.value), h.filename, h.pageStart, h.pageEnd, h.chapter, h.score)
  }

  /** The number of hits that carry text. */
  function WithText(hits: seq<Hit>): nat
    decreases |hits|
  {
    if hits == [] then 0 else WithText(hits[..|hits| - 1]) + (if hits[|hits| - 1].text.Some? then 1 else 0)
  }

  /** `f` is the formatting of one of the hits that carry text. */
  predicate FromHit(f: Formatted, hits: seq<Hit>)
  {
    exists j :: 0 <= j < |hits| && hits[j].text.Some? && f == Format(hits[j])
  }

  /** The hits with text, formatted, in search order. */
  function FormatResults(hits: seq<Hit>): (fs: seq<Formatted>)
    ensures |fs| == WithText(hits)
    ensures forall k :: 0 <= k < |fs| ==> FromHit(fs[k], hits)
    decreases |hits|
  {
    if hits == [] then []
    else
      var init := hits[..|hits| - 1];
      var last := hits[|hits| - 1];
      var front := FormatResults(init);
      var tail := if last.text.Some? then [Format(last)] else [];
      var fs := front + tail;
      assert forall k :: 0 <= k < |fs| ==> FromHit(fs[k], hits) by {
        forall k | 0 <= k < |fs|
          ensures FromHit(fs[k], hits)
        {
          if k < |front| {
            var j :| 0 <= j < |init| && init[j].text.Some? && front[k] == Format(init[j]);
            assert hits[j] == init[j];
          } else {
            assert fs[k] == Format(hits[|hits| - 1]);
          }
        }
      }
      fs
  }

  /** Formatting works hit by hit: results of consecutive batches are the
      batches' results in order. */
  lemma {:induction false} FormatResultsAppend(a: seq<Hit>, b: seq<Hit>)
    ensures FormatResults(a + b) == FormatResults(a) + FormatResults(b)
    decreases |b|
  {
    if b == [] {
      assert a + b == a;
    } else {
      var b0 := b[..|b| - 1];
      assert (a + b)[..|a + b| - 1] == a + b0;
      FormatResultsAppend(a, b0);
    }
  }

  /** When every hit has text, each is formatted in place. */
  lemma {:induction false} AllTextKeepsEveryHit(hits: seq<Hit>)
    requires forall k :: 0 <= k < |hits| ==> hits[k].text.Some?
    ensures |FormatResults(hits)| == |hits|
    ensures forall k :: 0 <= k < |hits| ==> FormatResults(hits)[k] == Format(hits[k])
    decreases |hits|
  {
    if hits != [] {
      var init := hits[..|hits| - 1];
      assert forall k :: 0 <= k < |init| ==> init[k] == hits[k];
      AllTextKeepsEveryHit(init);
      var fs := FormatResults(hits);
      assert fs == FormatResults(init) + [Format(hits[|hits| - 1])];
      forall k | 0 <= k < |hits|
        ensures fs[k] == Format(hits[k])
      {
        if k < |init| {
          assert fs[k] == FormatResults(init)[k];
        }
      }
    }
  }

  // ---------------------------------------------------------------
  // `search_textbook`
  // ---------------------------------------------------------------

  datatype SearchError = RetryLimit(maxAttempts: int) | NoIndex | SearchFailed

  /** One call: the guard is updated first, then the limit, the index and
      the filters are checked, and the oracle's hits are formatted. */
  function SearchTextbook(g: Guard, maxAttempts: int, query: string, examFileId: Option<string>,
                          textbookFileId: Option<string>, chapterNumber: Option<int>,
                          indexExists: bool, coverage: CoverageFiles,
                          search: Filters -> seq<Hit>): (r: (Guard, Result<seq<Formatted>, SearchError>))
    // every call counts, whatever happens next
    ensures r.0 == Observe(g, query)
    ensures r.1 == Err(RetryLimit(maxAttempts)) <==> Rejects(Observe(g, query), maxAttempts)
    ensures r.1 == Err(NoIndex) <==> !Rejects(Observe(g, query), maxAttempts) && !indexExists
    ensures r.1.Ok? ==>
      && BuildFilters(examFileId, textbookFileId, chapterNumber, coverage).Some?
      && r.1.value == FormatResults(search(BuildFilters(examFileId, textbookFileId, chapterNumber, coverage).value))
    // past the guard and the index check the filters decide
    ensures !Rejects(Observe(g, query), maxAttempts) && indexExists ==>
      match BuildFilters(examFileId, textbookFileId, chapterNumber, coverage)
      case None => r.1 == Err(SearchFailed)
      case Some(f) => r.1 == Ok(FormatResults(search(f)))
  {
    var g2 := Observe(g, query);
    if Rejects(g2, maxAttempts) then (g2, Err(RetryLimit(maxAttempts)))
    else if !indexExists then (g2, Err(NoIndex))
    else
      match BuildFilters(examFileId, textbookFileId, chapterNumber, coverage)
      case None => (g2, Err(SearchFailed))
      case Some(f) => (g2, Ok(FormatResults(search(f))))
  }

  // ---------------------------------------------------------------
  // `check_readiness`
  // ---------------------------------------------------------------

  /** One missing prerequisite. */
  datatype Requirement = IndexMissing | NeedsEnrichment(examFileId: string) | NeedsCoverage(examFileId: string)

  /** The fields read from an enriched-coverage file. */
  datatype Enriched = Enriched(examName: string, examId: string, totalTopics: int)

  datatype ExamSummary = ExamSummary(fileId: string, examName: string, examId: string, totalTopics: int)

  datatype Readiness = Readiness(ready: bool, missing: seq<Requirement>, available: seq<ExamSummary>)

  /** The enriched-coverage directory as listed: each file's stem and its
      contents. */
  type EnrichedListing = seq<(string, Stored<Enriched>)>

  predicate Listed(listing: EnrichedListing, id: string)
  {
    exists k :: 0 <= k < |listing| && listing[k].0 == id
  }

  predicate AllReadable(listing: EnrichedListing)
  {
    forall k :: 0 <= k < |listing| ==> listing[k].1.Valid?
  }

  function Summaries(listing: EnrichedListing): (s: seq<ExamSummary>)
    requires AllReadable(listing)
    ensures |s| == |listing|
    ensures forall k :: 0 <= k < |s| ==>
      s[k].fileId == listing[k].0 && s[k].examName == listing[k].1.content.examName
      && s[k].examId == listing[k].1.content.examId && s[k].totalTopics == listing[k].1.content.totalTopics
  {
    seq(|listing|, k requires 0 <= k < |listing| =>
      ExamSummary(listing[k].0, listing[k].1.content.examName, listing[k].1.content.examId,
                  listing[k].1.content.totalTopics))
  }

  /** An exam is reported available exactly when it has an enriched file. */
  lemma AvailableExams(listing: EnrichedListing, id: string)
    requires AllReadable(listing)
    ensures Listed(listing, id) <==> exists s :: s in Summaries(listing) && s.fileId == id
  {
    var ss := Summaries(listing);
    if Listed(listing, id) {
      var k :| 0 <= k < |listing| && listing[k].0 == id;
      assert ss[k] in ss && ss[k].fileId == id;
    }
    if exists s :: s in ss && s.fileId == id {
      var s :| s in ss && s.fileId == id;
      var k :| 0 <= k < |ss| && ss[k] == s;
      assert listing[k].0 == id;
    }
  }

  /** So a plan is ready exactly when the index exists and every requested
      exam is among those reported available. */
  lemma PlanReadyIffAvailable(examIds: seq<string>, indexExists: bool,
                              listing: EnrichedListing, coverageIds: set<string>)
    requires AllReadable(listing)
    ensures var r := CheckReadiness(CreatePlan, examIds, indexExists, listing, coverageIds);
      r.ready <==> indexExists && forall k :: 0 <= k < |examIds| ==>
        exists s :: s in r.available && s.fileId == examIds[k]
  {
    PlanReadyIff(examIds, indexExists, listing, coverageIds);
    forall k | 0 <= k < |examIds|
      ensures Listed(listing, examIds[k]) <==> exists s :: s in Summaries(listing) && s.fileId == examIds[k]
    {
      AvailableExams(listing, examIds[k]);
    }
  }

  /** The prerequisites the listed exams lack, in the order given. */
  function ExamNeeds(examIds: seq<string>, listing: EnrichedListing, coverageIds: set<string>): seq<Requirement>
    decreases |examIds|
  {
    if examIds == [] then []
    else
      var id := examIds[|examIds| - 1];
      var need := if Listed(listing, id) then []
                  else if id in coverageIds then [NeedsEnrichment(id)]
                  else [NeedsCoverage(id)];
      ExamNeeds(examIds[..|examIds| - 1], listing, coverageIds) + need
  }

  /** An exam needs enrichment exactly when it has coverage but no enriched
      file, and needs coverage exactly when it has neither. */
  lemma {:induction false} ExamNeedsMembership(examIds: seq<string>, listing: EnrichedListing,
                                               coverageIds: set<string>, id: string)
    ensures NeedsEnrichment(id) in ExamNeeds(examIds, listing, coverageIds)
            <==> id in examIds && !Listed(listing, id) && id in coverageIds
    ensures NeedsCoverage(id) in ExamNeeds(examIds, listing, coverageIds)
            <==> id in examIds && !Listed(listing, id) && id !in coverageIds
    ensures IndexMissing !in ExamNeeds(examIds, listing, coverageIds)
    decreases |examIds|
  {
    if examIds != [] {
      var init := examIds[..|examIds| - 1];
      ExamNeedsMembership(init, listing, coverageIds, id);
      assert examIds == init + [examIds[|examIds| - 1]];
    }
  }

  const CreatePlan: string := "create_plan"

  /** `check_readiness`; any unreadable enriched file makes the whole check
      fail, which reports not ready with nothing missing. The registry it
      loads is never consulted. */
  function CheckReadiness(intent: string, examIds: seq<string>, indexExists: bool,
                          listing: EnrichedListing, coverageIds: set<string>): (r: Readiness)
    ensures r.ready ==> r.missing == []
    ensures AllReadable(listing) ==> (r.ready <==> r.missing == [])
    ensures !AllReadable(listing) ==> r == Readiness(false, [], [])
    ensures AllReadable(listing) ==> r.available == Summaries(listing)
  {
    if !AllReadable(listing) then Readiness(false, [], [])
    else
      var index := if indexExists then [] else [IndexMissing];
      var exams := if intent == CreatePlan then ExamNeeds(examIds, listing, coverageIds) else [];
      var missing := index + exams;
      Readiness(|missing| == 0, missing, Summaries(listing))
  }

  /** What is reported missing: the index when it is absent, and for a
      plan each requested exam without an enriched file, classed by
      whether its coverage exists. */
  lemma ReadinessMissing(intent: string, examIds: seq<string>, indexExists: bool,
                         listing: EnrichedListing, coverageIds: set<string>, id: string)
    requires AllReadable(listing)
    ensures var r := CheckReadiness(intent, examIds, indexExists, listing, coverageIds);
      && (IndexMissing in r.missing <==> !indexExists)
      && (NeedsEnrichment(id) in r.missing
          <==> intent == CreatePlan && id in examIds && !Listed(listing, id) && id in coverageIds)
      && (NeedsCoverage(id) in r.missing
          <==> intent == CreatePlan && id in examIds && !Listed(listing, id) && id !in coverageIds)
  {
    ExamNeedsMembership(examIds, listing, coverageIds, id);
  }

  /** Only a plan looks at exams: for any other intent readiness is the
      index's existence. */
  lemma OtherIntentsNeedOnlyIndex(intent: string, examIds: seq<string>, indexExists: bool,
                                  listing: EnrichedListing, coverageIds: set<string>)
    requires AllReadable(listing) && intent != CreatePlan
    ensures CheckReadiness(intent, examIds, indexExists, listing, coverageIds).ready == indexExists
  {
  }

  /** A plan is ready exactly when the index exists and every requested
      exam has an enriched file. */
  lemma {:induction false} PlanReadyIff(examIds: seq<string>, indexExists: bool,
                                        listing: EnrichedListing, coverageIds: set<string>)
    requires AllReadable(listing)
    ensures CheckReadiness(CreatePlan, examIds, indexExists, listing, coverageIds).ready
            <==> indexExists && forall k :: 0 <= k < |examIds| ==> Listed(listing, examIds[k])
  {
    EveryListedNeedsNothing(examIds, listing, coverageIds);
  }

  lemma {:induction false} EveryListedNeedsNothing(examIds: seq<string>, listing: EnrichedListing,
                                                   coverageIds: set<string>)
    ensures ExamNeeds(examIds, listing, coverageIds) == []
            <==> forall k :: 0 <= k < |examIds| ==> Listed(listing, examIds[k])
    decreases |examIds|
  {
    if examIds != [] {
      var init := examIds[..|examIds| - 1];
      EveryListedNeedsNothing(init, listing, coverageIds);
      assert forall k :: 0 <= k < |init| ==> init[k] == examIds[k];
    }
  }
}

=== FILE: seqs.dfy ===
/** Counting over sequences, shared by the stage counters. */
module Seqs {

  /** Number of positions of `xs` holding `x`. */
  function Count<T(==)>(xs: seq<T>, x: T): (n: nat)
    ensures n <= |xs|
    ensures x !in xs ==> n == 0
    decreases |xs|
  {
    if xs == [] then 0
    else Count(xs[..|xs| - 1], x) + (if xs[|xs| - 1] == x then 1 else 0)
  }

  lemma CountAppend<T>(xs: seq<T>, y: T, x: T)
    ensures Count(xs + [y], x) == Count(xs, x) + (if y == x then 1 else 0)
  {
    assert (xs + [y])[..|xs|] == xs;
  }

  /** Counting from the front: the same count, one element at a time. */
  lemma {:induction false} CountPrepend<T>(xs: seq<T>, y: T, x: T)
    ensures Count([y] + xs, x) == Count(xs, x) + (if y == x then 1 else 0)
    decreases |xs|
  {
    if xs != [] {
      var init := xs[..|xs| - 1];
      CountPrepend(init, y, x);
      assert ([y] + xs)[..|xs|] == [y] + init;
    }
  }

  /** When every element is one of three distinct values, their counts add
      up to the length: each position is counted exactly once. */
  lemma {:induction false} CountPartition3<T>(xs: seq<T>, a: T, b: T, c: T)
    requires a != b && b != c && a != c
    requires forall i :: 0 <= i < |xs| ==> xs[i] == a || xs[i] == b || xs[i] == c
    ensures Count(xs, a) + Count(xs, b) + Count(xs, c) == |xs|
    decreases |xs|
  {
    if xs != [] {
      CountPartition3(xs[..|xs| - 1], a, b, c);
    }
  }

  /** Where a bound `k` of a Python slice lands on a sequence of length `n`: a
      negative bound counts from the end, and both ends are clamped. */
  function SliceBound(k: int, n: nat): (e: nat)
    ensures e <= n
    ensures 0 <= k <= n ==> e == k
    ensures k > n ==> e == n
    ensures k < 0 ==> e == if n + k < 0 then 0 else n + k
  {
    if k < 0 then (if n + k < 0 then 0 else n + k)
    else if k > n then n
    else k
  }
}

=== FILE: smart_chunking.dfy ===
/** Chapter-scoped chunking of a textbook (app/tools/smart_chunking.py):
    the chapters the exams require, their page ranges from the table of
    contents, the fallback to every page, and the chunk records with their
    chapter attribution. The chunk-id hash and the tokenizer are inputs. */
module SmartChunking {
  import opened Wrappers
  import opened StableSort
  import opened Toc
  import opened Coverage
  import opened TokenWindows
  import opened Splitter
  import opened PageDrivers
  import opened PageChunking
  import ChunkStore
  import TextExtraction
  import TocExtraction

  // ---------------------------------------------------------------
  // Required chapters (`get_required_chapters_from_coverage`)
  // ---------------------------------------------------------------

  /** The coverage directory: `None` when it does not exist, otherwise its
      `*.json` files in listing order, each readable as coverage or not. */
  type CoverageFiles = Option<seq<Stored<ExamCoverage>>>

  /** The union of the chapter lists of the readable files. */
  function ChaptersOf(files: seq<Stored<ExamCoverage>>): (r: set<int>)
    ensures forall n :: n in r <==>
      exists i :: 0 <= i < |files| && files[i].Valid? && n in files[i].content.chapters
    decreases |files|
  {
    if files == [] then {}
    else
      var init := files[..|files| - 1];
      var last := files[|files| - 1];
      assert forall i :: 0 <= i < |init| ==> init[i] == files[i];
      ChaptersOf(init) + (if last.Valid? then set n | n in last.content.chapters else {})
  }

  /** A missing directory requires nothing; otherwise the union over the
      readable files, unreadable ones being skipped. */
  function RequiredChapters(dir: CoverageFiles): (r: set<int>)
    ensures forall n :: n in r <==>
      dir.Some? && exists i :: 0 <= i < |dir.value| && dir.value[i].Valid? && n in dir.value[i].content.chapters
  {
    if dir.None? then {} else ChaptersOf(dir.value)
  }

  /** An unreadable file anywhere in the listing changes nothing. */
  lemma UnreadableFileIgnored(files: seq<Stored<ExamCoverage>>, i: nat, bad: Stored<ExamCoverage>)
    requires i <= |files| && !bad.Valid?
    ensures RequiredChapters(Some(files[..i] + [bad] + files[i..])) == RequiredChapters(Some(files))
  {
    var more := files[..i] + [bad] + files[i..];
    forall n | n in RequiredChapters(Some(more))
      ensures n in RequiredChapters(Some(files))
    {
      var j :| 0 <= j < |more| && more[j].Valid? && n in more[j].content.chapters;
      if j < i {
        assert more[j] == files[j];
      } else {
        assert more[j] == files[j - 1];
      }
    }
    forall n | n in RequiredChapters(Some(files))
      ensures n in RequiredChapters(Some(more))
    {
      var j :| 0 <= j < |files| && files[j].Valid? && n in files[j].content.chapters;
      if j < i {
        assert more[j] == files[j];
      } else {
        assert more[j + 1] == files[j];
      }
    }
  }

  // ---------------------------------------------------------------
  // Page ranges (`get_page_ranges_for_chapters`)
  // ---------------------------------------------------------------

  /** A `(page_start, page_end)` pair, both ends 1-based. */
  type PageRange = (int, int)

  function RangeStart(p: PageRange): int
  {
    p.0
  }

  /** The page range a chapter of the table of contents covers. */
  function RangeOf(ch: ChapterInfo): PageRange
  {
    (ch.pageStart, ch.pageEnd)
  }

  /** The ranges of the required chapters, in table-of-contents order. */
  function Selected(required: set<int>, chapters: seq<ChapterInfo>): (r: seq<PageRange>)
    ensures |r| <= |chapters|
    ensures forall p :: p in r <==>
      exists i :: 0 <= i < |chapters| && chapters[i].chapter in required && p == RangeOf(chapters[i])
    decreases |chapters|
  {
    if chapters == [] then []
    else
      var rest := Selected(required, chapters[1..]);
      assert forall i :: 1 <= i < |chapters| ==> chapters[1..][i - 1] == chapters[i];
      (if chapters[0].chapter in required then [RangeOf(chapters[0])] else []) + rest
  }

  /** Empty without a table of contents or chapters; otherwise the ranges
      of the required chapters sorted by first page. Ranges that overlap
      are kept apart. */
  function PageRanges(required: set<int>, toc: Option<TextbookMetadata>): (r: seq<PageRange>)
    ensures toc.None? || toc.value.chapters == [] ==> r == []
    ensures SortedBy(RangeStart, r)
    ensures forall p :: p in r <==>
      && toc.Some?
      && exists i :: 0 <= i < |toc.value.chapters| && toc.value.chapters[i].chapter in required
                     && p == RangeOf(toc.value.chapters[i])
  {
    if toc.None? || toc.value.chapters == [] then []
    else
      var sel := Selected(required, toc.value.chapters);
      SortByPermutes(RangeStart, sel);
      assert forall p :: p in SortBy(RangeStart, sel) <==> p in multiset(SortBy(RangeStart, sel));
      assert forall p :: p in sel <==> p in multiset(sel);
      SortBy(RangeStart, sel)
  }

  /** One range per required chapter of the table of contents: the result
      is a permutation of the selection, in a stable order. */
  lemma PageRangesPermuteSelection(required: set<int>, toc: TextbookMetadata, n: int)
    requires toc.chapters != []
    ensures multiset(PageRanges(required, Some(toc))) == multiset(Selected(required, toc.chapters))
    ensures WithKey(RangeStart, PageRanges(required, Some(toc)), n)
            == WithKey(RangeStart, Selected(required, toc.chapters), n)
  {
    SortByPermutes(RangeStart, Selected(required, toc.chapters));
    SortByIsStable(RangeStart, Selected(required, toc.chapters), n);
  }

  /** Two required chapters with overlapping pages give two ranges, not
      their union. */
  lemma OverlappingRangesNotMerged(toc: TextbookMetadata)
    requires toc.chapters == [ChapterInfo(1, "A", 1, 10), ChapterInfo(2, "B", 5, 20)]
    ensures PageRanges({1, 2}, Some(toc)) == [(1, 10), (5, 20)]
  {
    var sel := Selected({1, 2}, toc.chapters);
    assert toc.chapters[1..] == [ChapterInfo(2, "B", 5, 20)];
    assert toc.chapters[1..][1..] == [];
    assert Selected({1, 2}, toc.chapters[1..]) == [(5, 20)] + Selected({1, 2}, toc.chapters[1..][1..]);
    assert sel == [(1, 10)] + Selected({1, 2}, toc.chapters[1..]);
    assert sel == [(1, 10), (5, 20)];
    SortBySorted(RangeStart, sel);
  }

  // ---------------------------------------------------------------
  // Chapter attribution
  // ---------------------------------------------------------------

  /** `page_start <= page <= page_end`: the last page belongs to the
      chapter, although the metadata record documents `page_end` as
      exclusive. */
  predicate Holds(ch: ChapterInfo, page: int)
  {
    ch.pageStart <= page <= ch.pageEnd
  }

  /** The first chapter whose range holds `page`. */
  function ChapterOf(chapters: seq<ChapterInfo>, page: int): (r: Option<ChapterInfo>)
    ensures r.None? <==> forall i :: 0 <= i < |chapters| ==> !Holds(chapters[i], page)
    ensures r.Some? ==>
      exists i :: 0 <= i < |chapters| && chapters[i] == r.value && Holds(r.value, page)
                  && forall j :: 0 <= j < i ==> !Holds(chapters[j], page)
    decreases |chapters|
  {
    if chapters == [] then None
    else if Holds(chapters[0], page) then Some(chapters[0])
    else
      var r := ChapterOf(chapters[1..], page);
      assert forall i :: 1 <= i < |chapters| ==> chapters[1..][i - 1] == chapters[i];
      r
  }

  /** With a table of contents, the first chapter holding the page;
      without one, none. */
  function Attribution(toc: Option<TextbookMetadata>, page: int): Option<ChapterInfo>
  {
    if toc.None? then None else ChapterOf(toc.value.chapters, page)
  }

  /** The last listed page of a chapter is attributed to it. */
  lemma LastPageAttributed(toc: TextbookMetadata)
    requires toc.chapters == [ChapterInfo(1, "A", 1, 10), ChapterInfo(2, "B", 11, 20)]
    ensures Attribution(Some(toc), 10) == Some(ChapterInfo(1, "A", 1, 10))
  {
  }

  // ---------------------------------------------------------------
  // Chunk records
  // ---------------------------------------------------------------

  /** `Chunk.generate_chunk_id` (its hash is not part of this model): a
      deterministic function of the file id, the pages and the index. */
  type ChunkIdGen = (string, int, int, nat) -> string

  ghost predicate Injective(genId: ChunkIdGen)
  {
    forall f: string, a: int, b: int, i: nat, g: string, c: int, d: int, j: nat ::
      genId(f, a, b, i) == genId(g, c, d, j) ==> f == g && a == c && b == d && i == j
  }

  /** What the conversion loop promises of its output: one record per
      splitter chunk, in order, numbered from 0, with the chunk's text,
      pages and token count, the section `"other"`, and the chapter the
      first matching table-of-contents entry gives. */
  predicate Describes(rs: seq<ChunkStore.Chunk>, objs: seq<ChunkWithPages>, fileId: string,
                      filename: string, toc: Option<TextbookMetadata>, genId: ChunkIdGen)
  {
    && |rs| == |objs|
    && forall k :: 0 <= k < |rs| ==>
      && rs[k].chunkIndex == k
      && rs[k].chunkId == genId(fileId, objs[k].pageStart, objs[k].pageEnd, k)
      && rs[k].fileId == fileId && rs[k].filename == filename
      && rs[k].text == objs[k].text && rs[k].tokenCount == objs[k].tokenCount
      && rs[k].pageStart == objs[k].pageStart && rs[k].pageEnd == objs[k].pageEnd
      && rs[k].sectionType == "other"
      && (Attribution(toc, objs[k].pageStart).None? ==>
            rs[k].chapterNumber.None? && rs[k].chapterTitle.None?)
      && (Attribution(toc, objs[k].pageStart).Some? ==>
            rs[k].chapterNumber == Some(Attribution(toc, objs[k].pageStart).value.chapter)
            && rs[k].chapterTitle == Some(Attribution(toc, objs[k].pageStart).value.title))
  }

  /** One record. */
  function Record(obj: ChunkWithPages, idx: nat, fileId: string, filename: string,
                  toc: Option<TextbookMetadata>, genId: ChunkIdGen): ChunkStore.Chunk
  {
    var ch := Attribution(toc, obj.pageStart);
    ChunkStore.Chunk(genId(fileId, obj.pageStart, obj.pageEnd, idx), fileId, filename, obj.text,
                     obj.pageStart, obj.pageEnd, obj.tokenCount, "other",
                     if ch.Some? then Some(ch.value.chapter) else None,
                     if ch.Some? then Some(ch.value.title) else None, idx)
  }

  /** The conversion loop shared by both paths. */
  function Records(objs: seq<ChunkWithPages>, fileId: string, filename: string,
                   toc: Option<TextbookMetadata>, genId: ChunkIdGen): (rs: seq<ChunkStore.Chunk>)
    ensures Describes(rs, objs, fileId, filename, toc, genId)
  {
    seq(|objs|, k requires 0 <= k < |objs| => Record(objs[k], k, fileId, filename, toc, genId))
  }

  /** With an injective id hash the ids of one run are distinct, so the
      ledger index and the id lookup agree on them. */
  lemma RecordIdsDistinct(rs: seq<ChunkStore.Chunk>, objs: seq<ChunkWithPages>, fileId: string,
                          filename: string, toc: Option<TextbookMetadata>, genId: ChunkIdGen)
    requires Injective(genId)
    requires Describes(rs, objs, fileId, filename, toc, genId)
    ensures ChunkStore.DistinctChunkIds(rs)
  {
    forall i, j | 0 <= i < j < |rs|
      ensures rs[i].chunkId != rs[j].chunkId
    {
      assert rs[i].chunkId == genId(fileId, objs[i].pageStart, objs[i].pageEnd, i);
      assert rs[j].chunkId == genId(fileId, objs[j].pageStart, objs[j].pageEnd, j);
    }
  }

  // ---------------------------------------------------------------
  // `chunk_textbook_smart`
  // ---------------------------------------------------------------

  /** The splitter settings used: 900 tokens at most, 100 of overlap. */
  function SmartConfig(tok: Tokenizer): (c: Config)
    ensures WellFormed(c)
  {
    Config(tok, DefaultMaxTokens, DefaultOverlapTokens)
  }

  /** `load_toc_metadata`: `None` when the file is absent or unreadable. */
  function LoadToc(dir: TocExtraction.MetadataDir, fileId: string): (r: Option<TextbookMetadata>)
    ensures r.Some? <==> fileId in dir && dir[fileId].Valid?
  {
    if fileId !in dir then None else Load(dir[fileId])
  }

  /** `_chunk_all_pages_semantic`: every page, attributed when a table of
      contents is given. */
  function AllPages(tok: Tokenizer, pages: seq<string>, fileId: string, filename: string,
                    toc: Option<TextbookMetadata>, genId: ChunkIdGen): seq<ChunkStore.Chunk>
  {
    Records(ChunkPages(SmartConfig(tok), pages), fileId, filename, toc, genId)
  }

  /** The message of the division by the page count in the progress line. */
  const DivisionByZero: string := "division by zero"

  /** Whether the chapter-scoped path applies: a table of contents with
      chapters, some required chapter, and at least one mapped range. */
  predicate Scoped(toc: Option<TextbookMetadata>, required: set<int>)
  {
    toc.Some? && toc.value.chapters != [] && required != {} && PageRanges(required, toc) != []
  }

  /** `chunk_textbook_smart`: no extracted text gives no chunks; the
      chapter-scoped path on a book without pages fails; every chunk
      belongs to the file and chunks are numbered from 0. */
  function ChunkTextbookSmart(fileId: string, filename: string, texts: TextExtraction.TextDir,
                              tocDir: TocExtraction.MetadataDir, coverage: CoverageFiles,
                              tok: Tokenizer, genId: ChunkIdGen): (r: Result<seq<ChunkStore.Chunk>, string>)
    ensures TextExtraction.LoadExtractedText(texts, fileId).None? ==> r == Ok([])
    ensures r.Err? <==>
      && TextExtraction.LoadExtractedText(texts, fileId).Some?
      && |TextExtraction.LoadExtractedText(texts, fileId).value.pages| == 0
      && Scoped(LoadToc(tocDir, fileId), RequiredChapters(coverage))
    ensures r.Ok? ==> forall k :: 0 <= k < |r.value| ==> r.value[k].fileId == fileId && r.value[k].chunkIndex == k
  {
    var text := TextExtraction.LoadExtractedText(texts, fileId);
    if text.None? then Ok([])
    else
      var pages := text.value.pages;
      var toc := LoadToc(tocDir, fileId);
      if toc.None? || toc.value.chapters == [] then Ok(AllPages(tok, pages, fileId, filename, None, genId))
      else
        var required := RequiredChapters(coverage);
        if required == {} then Ok(AllPages(tok, pages, fileId, filename, toc, genId))
        else
          var ranges := PageRanges(required, toc);
          if ranges == [] then Ok(AllPages(tok, pages, fileId, filename, toc, genId))
          else if |pages| == 0 then Err(DivisionByZero)
          else Ok(Records(ChunkPageRanges(SmartConfig(tok), pages, ranges), fileId, filename, toc, genId))
  }

  /** Whenever the chapter-scoped path does not apply, every page of the
      book is chunked; chapters are attributed only when a table of contents
      with chapters was loaded. */
  lemma FallbackChunksEveryPage(fileId: string, filename: string, texts: TextExtraction.TextDir,
                                tocDir: TocExtraction.MetadataDir, coverage: CoverageFiles,
                                tok: Tokenizer, genId: ChunkIdGen)
    requires fileId in texts && texts[fileId].Valid?
    requires !Scoped(LoadToc(tocDir, fileId), RequiredChapters(coverage))
    ensures var toc := LoadToc(tocDir, fileId);
      var used := if toc.Some? && toc.value.chapters != [] then toc else None;
      ChunkTextbookSmart(fileId, filename, texts, tocDir, coverage, tok, genId)
        == Ok(AllPages(tok, texts[fileId].content.pages, fileId, filename, used, genId))
  {
  }

  /** On the chapter-scoped path of a book with pages, exactly the page
      ranges mapped from the required chapters are chunked, in the order
      the ranges are listed, and attributed through the loaded table of
      contents. */
  lemma ScopedChunksThePageRanges(fileId: string, filename: string, texts: TextExtraction.TextDir,
                                  tocDir: TocExtraction.MetadataDir, coverage: CoverageFiles,
                                  tok: Tokenizer, genId: ChunkIdGen)
    requires fileId in texts && texts[fileId].Valid? && texts[fileId].content.pages != []
    requires Scoped(LoadToc(tocDir, fileId), RequiredChapters(coverage))
    ensures ChunkTextbookSmart(fileId, filename, texts, tocDir, coverage, tok, genId)
      == Ok(Records(ChunkPageRanges(SmartConfig(tok), texts[fileId].content.pages,
                                    PageRanges(RequiredChapters(coverage), LoadToc(tocDir, fileId))),
                    fileId, filename, LoadToc(tocDir, fileId), genId))
  {
  }

  /** Without a table of contents (or with one listing no chapters) no
      chunk carries a chapter. */
  lemma NoTocNoChapters(fileId: string, filename: string, texts: TextExtraction.TextDir,
                        tocDir: TocExtraction.MetadataDir, coverage: CoverageFiles,
                        tok: Tokenizer, genId: ChunkIdGen)
    requires LoadToc(tocDir, fileId).None? || LoadToc(tocDir, fileId).value.chapters == []
    ensures ChunkTextbookSmart(fileId, filename, texts, tocDir, coverage, tok, genId).Ok?
    ensures forall ch :: ch in ChunkTextbookSmart(fileId, filename, texts, tocDir, coverage, tok, genId).value ==>
      ch.chapterNumber.None? && ch.chapterTitle.None?
  {
  }

  /** On the chapter-scoped path with an empty book the progress line
      divides by zero. */
  lemma ScopedEmptyBookFails(fileId: string, filename: string, texts: TextExtraction.TextDir,
                             tocDir: TocExtraction.MetadataDir, coverage: CoverageFiles,
                             tok: Tokenizer, genId: ChunkIdGen)
    requires fileId in texts && texts[fileId].Valid? && texts[fileId].content.pages == []
    requires Scoped(LoadToc(tocDir, fileId), RequiredChapters(coverage))
    ensures ChunkTextbookSmart(fileId, filename, texts, tocDir, coverage, tok, genId) == Err(DivisionByZero)
  {
  }

  /** On the chapter-scoped path every chunk comes from a non-blank page of
      the book that lies within a required chapter, and is attributed to
      some chapter (the first holding its page, which need not be the
      required one when chapters overlap). */
  lemma ScopedChunksLieInRequiredChapters(fileId: string, filename: string, texts: TextExtraction.TextDir,
                                          tocDir: TocExtraction.MetadataDir, coverage: CoverageFiles,
                                          tok: Tokenizer, genId: ChunkIdGen)
    requires fileId in texts && texts[fileId].Valid? && texts[fileId].content.pages != []
    requires Scoped(LoadToc(tocDir, fileId), RequiredChapters(coverage))
    ensures ChunkTextbookSmart(fileId, filename, texts, tocDir, coverage, tok, genId).Ok?
    ensures var toc := LoadToc(tocDir, fileId).value;
      var rs := ChunkTextbookSmart(fileId, filename, texts, tocDir, coverage, tok, genId).value;
      forall k :: 0 <= k < |rs| ==>
        && rs[k].chapterNumber.Some?
        && exists i :: 0 <= i < |toc.chapters| && toc.chapters[i].chapter in RequiredChapters(coverage)
             && Holds(toc.chapters[i], rs[k].pageStart)
  {
    var toc := LoadToc(tocDir, fileId);
    var pages := texts[fileId].content.pages;
    var required := RequiredChapters(coverage);
    var ranges := PageRanges(required, toc);
    var c := SmartConfig(tok);
    var objs := ChunkPageRanges(c, pages, ranges);
    ChunkPageRangesInRanges(c, pages, ranges);
    var rs := Records(objs, fileId, filename, toc, genId);
    assert ChunkTextbookSmart(fileId, filename, texts, tocDir, coverage, tok, genId) == Ok(rs);
    forall k | 0 <= k < |rs|
      ensures rs[k].chapterNumber.Some?
      ensures exists i :: 0 <= i < |toc.value.chapters| && toc.value.chapters[i].chapter in required
                && Holds(toc.value.chapters[i], rs[k].pageStart)
    {
      assert rs[k].pageStart == objs[k].pageStart;
      InRequiredChapter(required, toc.value, |pages|, objs[k].pageStart);
    }
  }

  /** A page inside one of the mapped ranges lies in a required chapter,
      so it is attributed to some chapter. */
  lemma InRequiredChapter(required: set<int>, toc: TextbookMetadata, n: int, p: int)
    requires InSomeRange(PageRanges(required, Some(toc)), n, p)
    ensures exists i :: 0 <= i < |toc.chapters| && toc.chapters[i].chapter in required && Holds(toc.chapters[i], p)
    ensures Attribution(Some(toc), p).Some?
  {
    var ranges := PageRanges(required, Some(toc));
    var j :| 0 <= j < |ranges| && 1 <= ranges[j].0 <= p <= ranges[j].1 <= n;
    assert ranges[j] in ranges;
    var i :| 0 <= i < |toc.chapters| && toc.chapters[i].chapter in required && ranges[j] == RangeOf(toc.chapters[i]);
    assert Holds(toc.chapters[i], p);
  }
}

=== FILE: sorting.dfy ===
/** Python's `list.sort(key=...)` on an integer key: a stable sort. Used
    for chapters by number and for page ranges by first page. */
module StableSort {

  predicate SortedBy<T>(key: T -> int, xs: seq<T>)
  {
    forall a, b :: 0 <= a < b < |xs| ==> key(xs[a]) <= key(xs[b])
  }

  /** The elements of `xs` whose key is `n`, in order. */
  function WithKey<T>(key: T -> int, xs: seq<T>, n: int): (r: seq<T>)
    ensures forall k :: 0 <= k < |r| ==> key(r[k]) == n
    decreases |xs|
  {
    if xs == [] then []
    else WithKey(key, xs[..|xs| - 1], n) + (if key(xs[|xs| - 1]) == n then [xs[|xs| - 1]] else [])
  }

  lemma {:induction false} WithKeyAppend<T>(key: T -> int, a: seq<T>, b: seq<T>, n: int)
    ensures WithKey(key, a + b, n) == WithKey(key, a, n) + WithKey(key, b, n)
    decreases |b|
  {
    if b == [] {
      assert a + b == a;
    } else {
      var b0 := b[..|b| - 1];
      assert (a + b)[..|a + b| - 1] == a + b0;
      WithKeyAppend(key, a, b0, n);
    }
  }

  lemma WithKeyNone<T>(key: T -> int, xs: seq<T>, n: int)
    requires forall k :: 0 <= k < |xs| ==> key(xs[k]) != n
    ensures WithKey(key, xs, n) == []
  {
    if xs != [] {
      WithKeyNone(key, xs[..|xs| - 1], n);
    }
  }

  lemma SortedCons<T>(key: T -> int, x: T, r: seq<T>)
    requires SortedBy(key, r)
    requires forall k :: 0 <= k < |r| ==> key(x) <= key(r[k])
    ensures SortedBy(key, [x] + r)
  {
    var q := [x] + r;
    forall a, b | 0 <= a < b < |q|
      ensures key(q[a]) <= key(q[b])
    {
      if a > 0 {
        assert q[a] == r[a - 1] && q[b] == r[b - 1];
      } else {
        assert q[b] == r[b - 1];
      }
    }
  }

  /** Inserts `x` after every element whose key is at most `key(x)`. */
  function InsertBy<T(==)>(key: T -> int, x: T, s: seq<T>): (q: seq<T>)
    requires SortedBy(key, s)
    ensures SortedBy(key, q)
    ensures |q| == |s| + 1
    ensures forall k :: 0 <= k < |q| ==> q[k] == x || q[k] in s
    decreases |s|
  {
    if s == [] then [x]
    else if key(x) < key(s[0]) then [x] + s
    else
      var rest := InsertBy(key, x, s[1..]);
      assert s == [s[0]] + s[1..];
      assert forall k :: 0 <= k < |rest| ==> key(s[0]) <= key(rest[k]) by {
        forall k | 0 <= k < |rest|
          ensures key(s[0]) <= key(rest[k])
        {
          if rest[k] != x {
            var m :| 0 <= m < |s[1..]| && s[1..][m] == rest[k];
            assert s[m + 1] == rest[k];
          }
        }
      }
      SortedCons(key, s[0], rest);
      [s[0]] + rest
  }

  lemma WithKeySingle<T>(key: T -> int, x: T, n: int)
    ensures WithKey(key, [x], n) == if key(x) == n then [x] else []
  {
    assert [x][..0] == [];
  }

  lemma InsertAtFront<T>(key: T -> int, x: T, s: seq<T>, n: int)
    requires SortedBy(key, s) && s != [] && key(x) < key(s[0])
    ensures WithKey(key, [x] + s, n) == WithKey(key, s, n) + (if key(x) == n then [x] else [])
  {
    WithKeyAppend(key, [x], s, n);
    WithKeySingle(key, x, n);
    if key(x) == n {
      WithKeyNone(key, s, n);
    }
  }

  /** Inserting `x` places it after every element sharing its key. */
  lemma {:induction false} InsertKeepsKeyOrder<T>(key: T -> int, x: T, s: seq<T>, n: int)
    requires SortedBy(key, s)
    ensures WithKey(key, InsertBy(key, x, s), n)
            == WithKey(key, s, n) + (if key(x) == n then [x] else [])
    decreases |s|
  {
    if s == [] {
      WithKeySingle(key, x, n);
    } else if key(x) < key(s[0]) {
      InsertAtFront(key, x, s, n);
    } else {
      var rest := InsertBy(key, x, s[1..]);
      var tail := if key(x) == n then [x] else [];
      assert InsertBy(key, x, s) == [s[0]] + rest;
      WithKeyAppend(key, [s[0]], rest, n);
      InsertKeepsKeyOrder(key, x, s[1..], n);
      WithKeyAppend(key, [s[0]], s[1..], n);
      assert s == [s[0]] + s[1..];
    }
  }

  /** The sort: each element is inserted after the equal-keyed elements
      that precede it in the input. */
  function SortBy<T(==)>(key: T -> int, xs: seq<T>): (r: seq<T>)
    ensures SortedBy(key, r)
    ensures |r| == |xs|
    decreases |xs|
  {
    if xs == [] then []
    else InsertBy(key, xs[|xs| - 1], SortBy(key, xs[..|xs| - 1]))
  }

  lemma {:induction false} InsertByPermutes<T>(key: T -> int, x: T, s: seq<T>)
    requires SortedBy(key, s)
    ensures multiset(InsertBy(key, x, s)) == multiset(s) + multiset{x}
    decreases |s|
  {
    if s != [] && key(x) >= key(s[0]) {
      var rest := InsertBy(key, x, s[1..]);
      assert InsertBy(key, x, s) == [s[0]] + rest;
      InsertByPermutes(key, x, s[1..]);
      assert s == [s[0]] + s[1..];
      assert multiset(s) == multiset{s[0]} + multiset(s[1..]);
    }
  }

  /** The sort is a permutation of its input. */
  lemma {:induction false} SortByPermutes<T>(key: T -> int, xs: seq<T>)
    ensures multiset(SortBy(key, xs)) == multiset(xs)
    decreases |xs|
  {
    if xs != [] {
      var init := xs[..|xs| - 1];
      SortByPermutes(key, init);
      InsertByPermutes(key, xs[|xs| - 1], SortBy(key, init));
      assert xs == init + [xs[|xs| - 1]];
    }
  }

  /** Stability: the elements sharing a key keep their input order.
      Together with sortedness and permutation this pins the sort down. */
  lemma {:induction false} SortByIsStable<T>(key: T -> int, xs: seq<T>, n: int)
    ensures WithKey(key, SortBy(key, xs), n) == WithKey(key, xs, n)
    decreases |xs|
  {
    if xs != [] {
      var init := xs[..|xs| - 1];
      SortByIsStable(key, init, n);
      InsertKeepsKeyOrder(key, xs[|xs| - 1], SortBy(key, init), n);
    }
  }

  /** An input already in key order is returned as it is. */
  lemma {:induction false} SortBySorted<T>(key: T -> int, xs: seq<T>)
    requires SortedBy(key, xs)
    ensures SortBy(key, xs) == xs
    decreases |xs|
  {
    if xs != [] {
      var init := xs[..|xs| - 1];
      var x := xs[|xs| - 1];
      assert SortedBy(key, init);
      SortBySorted(key, init);
      InsertAtEnd(key, x, init);
      assert init + [x] == xs;
    }
  }

  /** An element whose key is at least every key of a sorted list goes last. */
  lemma {:induction false} InsertAtEnd<T>(key: T -> int, x: T, s: seq<T>)
    requires SortedBy(key, s)
    requires forall k :: 0 <= k < |s| ==> key(s[k]) <= key(x)
    ensures InsertBy(key, x, s) == s + [x]
    decreases |s|
  {
    if s != [] {
      InsertAtEnd(key, x, s[1..]);
      assert s == [s[0]] + s[1..];
    }
  }
}

=== FILE: splitter.dfy ===
/** `RecursiveCharacterSplitter` (app/tools/semantic_chunking.py): split a
    text on the most meaningful separator that works, greedily merge the
    parts into chunks with a token overlap, split oversized parts again,
    and fall back to fixed token windows. */
module Splitter {
  import opened Text
  import opened TokenWindows

  /** The settings the splitter's methods read. `target_tokens` and
      `min_tokens` are stored by the constructor but never read. */
  datatype Config = Config(tok: Tokenizer, maxTokens: int, overlapTokens: int)

  const DefaultMaxTokens: int := 900
  const DefaultOverlapTokens: int := 100

  /** Settings under which the token-window fallback advances. */
  predicate WellFormed(c: Config)
  {
    0 <= c.overlapTokens < c.maxTokens
  }

  /** The separators tried in order; after them comes the empty separator,
      which means token windows. */
  const Separators: seq<string> := ["\n\n", "\n", ". ", " "]

  /** Summed token counts of a list of segments. */
  function SegSum(tok: Tokenizer, segs: seq<string>): nat
    decreases |segs|
  {
    if segs == [] then 0 else Count(tok, segs[0]) + SegSum(tok, segs[1..])
  }

  lemma {:induction false} SegSumAppend(tok: Tokenizer, segs: seq<string>, x: string)
    ensures SegSum(tok, segs + [x]) == SegSum(tok, segs) + Count(tok, x)
    decreases |segs|
  {
    if segs != [] {
      assert (segs + [x])[1..] == segs[1..] + [x];
      SegSumAppend(tok, segs[1..], x);
    }
  }

  /** The overlap carried into a new chunk: segments taken from the end of
      the closed chunk while their summed tokens stay within `budget`. The
      first segment that does not fit stops the scan, so the result may be
      empty. */
  function OverlapSuffix(tok: Tokenizer, cur: seq<string>, budget: int): (ov: seq<string>)
    requires budget >= 0
    ensures |ov| <= |cur|
    ensures forall j :: 0 <= j < |ov| ==> ov[j] == cur[|cur| - |ov| + j]
    ensures SegSum(tok, ov) <= budget
    ensures |ov| < |cur| ==> SegSum(tok, ov) + Count(tok, cur[|cur| - |ov| - 1]) > budget
    decreases |cur|
  {
    if cur == [] then []
    else
      var last := cur[|cur| - 1];
      if Count(tok, last) <= budget then
        var ov := OverlapSuffix(tok, cur[..|cur| - 1], budget - Count(tok, last));
        SegSumAppend(tok, ov, last);
        ov + [last]
      else []
  }

  /** Where a chunk of `_merge_splits` came from: the separator-join of the
      segments it collected, or a chunk of the recursive split of one
      oversized segment. */
  datatype Piece = Joined(segs: seq<string>) | Nested(text: string)

  function PieceText(sep: string, p: Piece): string
  {
    match p
    case Joined(segs) => Join(sep, segs)
    case Nested(t) => t
  }

  function NestedPieces(sub: seq<string>): (ps: seq<Piece>)
    ensures |ps| == |sub|
    ensures forall j :: 0 <= j < |sub| ==> ps[j] == Nested(sub[j])
    decreases |sub|
  {
    if sub == [] then [] else [Nested(sub[0])] + NestedPieces(sub[1..])
  }

  /** `_merge_splits`' loop state: chunks so far, the open chunk's segments
      and the running token count the code keeps for it. */
  datatype MergeState = MergeState(pieces: seq<Piece>, current: seq<string>, tracked: int)

  /** A segment the merge keeps: not whitespace-only, within the limit. */
  predicate SmallSegment(c: Config, s: string)
  {
    !IsBlank(s) && Count(c.tok, s) <= c.maxTokens
  }

  /** What the merge guarantees of a chunk it closes itself: one or more
      kept segments whose token counts sum to at most
      `max_tokens + overlap_tokens`; a nested chunk is not whitespace-only. */
  predicate GoodPiece(c: Config, p: Piece)
  {
    match p
    case Joined(segs) =>
      && segs != []
      && (forall j :: 0 <= j < |segs| ==> SmallSegment(c, segs[j]))
      && SegSum(c.tok, segs) <= c.maxTokens + c.overlapTokens
    case Nested(t) => !IsBlank(t)
  }

  predicate MergeInv(c: Config, st: MergeState)
  {
    && (forall j :: 0 <= j < |st.pieces| ==> GoodPiece(c, st.pieces[j]))
    && (forall j :: 0 <= j < |st.current| ==> SmallSegment(c, st.current[j]))
    && SegSum(c.tok, st.current) <= st.tracked
    && SegSum(c.tok, st.current) <= c.maxTokens + c.overlapTokens
  }

  function Oversized(c: Config, split: string): bool
  {
    !IsBlank(split) && Count(c.tok, split) > c.maxTokens
  }

  /** One iteration of `_merge_splits` on `split`, with `sub` standing for
      `split_text(split)` (only used when the segment is oversized). */
  function MergeStep(c: Config, sep: string, st: MergeState, split: string, sub: seq<string>)
    : (r: MergeState)
    requires WellFormed(c)
    ensures |st.pieces| <= |r.pieces| && r.pieces[..|st.pieces|] == st.pieces
  {
    if IsBlank(split) then st
    else
      var s := Count(c.tok, split);
      if s > c.maxTokens then
        var closed := if st.current != [] then st.pieces + [Joined(st.current)] else st.pieces;
        MergeState(closed + NestedPieces(sub), [], 0)
      else
        var potential := st.tracked + s + (if sep != "" then Count(c.tok, sep) else 0);
        if st.current != [] && potential > c.maxTokens then
          var ov := OverlapSuffix(c.tok, st.current, c.overlapTokens);
          MergeState(st.pieces + [Joined(st.current)], ov + [split], SegSum(c.tok, ov) + s)
        else
          MergeState(st.pieces, st.current + [split], potential)
  }

  /** Every step keeps the merge invariant: in particular the open chunk's
      segments never sum to more than `max_tokens + overlap_tokens`,
      because the carried overlap plus the new segment is not checked
      against the limit again. */
  lemma MergeStepKeepsInvariant(c: Config, sep: string, st: MergeState, split: string,
                                sub: seq<string>)
    requires WellFormed(c) && MergeInv(c, st)
    requires forall j :: 0 <= j < |sub| ==> !IsBlank(sub[j])
    ensures MergeInv(c, MergeStep(c, sep, st, split, sub))
  {
    if !IsBlank(split) {
      var s := Count(c.tok, split);
      if s > c.maxTokens {
        FlushKeepsInvariant(c, sep, st, split, sub);
      } else {
        var potential := st.tracked + s + (if sep != "" then Count(c.tok, sep) else 0);
        if st.current != [] && potential > c.maxTokens {
          CloseKeepsInvariant(c, sep, st, split);
          assert MergeStep(c, sep, st, split, sub) == MergeStep(c, sep, st, split, []);
        } else {
          AppendKeepsInvariant(c, sep, st, split);
          assert MergeStep(c, sep, st, split, sub) == MergeStep(c, sep, st, split, []);
        }
      }
    }
  }

  lemma FlushKeepsInvariant(c: Config, sep: string, st: MergeState, split: string,
                            sub: seq<string>)
    requires WellFormed(c) && MergeInv(c, st)
    requires forall j :: 0 <= j < |sub| ==> !IsBlank(sub[j])
    requires !IsBlank(split) && Count(c.tok, split) > c.maxTokens
    ensures MergeInv(c, MergeStep(c, sep, st, split, sub))
  {
    var closed := if st.current != [] then st.pieces + [Joined(st.current)] else st.pieces;
    assert forall j :: 0 <= j < |closed| ==> GoodPiece(c, closed[j]);
    var r := MergeStep(c, sep, st, split, sub);
    assert r.pieces == closed + NestedPieces(sub);
  }

  lemma CloseKeepsInvariant(c: Config, sep: string, st: MergeState, split: string)
    requires WellFormed(c) && MergeInv(c, st)
    requires SmallSegment(c, split) && st.current != []
    requires st.tracked + Count(c.tok, split) + (if sep != "" then Count(c.tok, sep) else 0)
             > c.maxTokens
    ensures MergeInv(c, MergeStep(c, sep, st, split, []))
  {
    var ov := OverlapSuffix(c.tok, st.current, c.overlapTokens);
    MergeStepCloses(c, sep, st, split, []);
    SegSumAppend(c.tok, ov, split);
    assert forall j :: 0 <= j < |ov| ==> ov[j] == st.current[|st.current| - |ov| + j];
    assert GoodPiece(c, Joined(st.current));
  }

  lemma AppendKeepsInvariant(c: Config, sep: string, st: MergeState, split: string)
    requires WellFormed(c) && MergeInv(c, st)
    requires SmallSegment(c, split)
    requires st.current == [] ||
             st.tracked + Count(c.tok, split) + (if sep != "" then Count(c.tok, sep) else 0)
             <= c.maxTokens
    ensures MergeInv(c, MergeStep(c, sep, st, split, []))
  {
    SegSumAppend(c.tok, st.current, split);
    if st.current == [] {
      assert SegSum(c.tok, st.current) == 0;
    }
  }

  function InitialState(): (st: MergeState)
    ensures st.pieces == [] && st.current == []
  {
    MergeState([], [], 0)
  }

  /** `split_text`: whitespace-only text gives nothing, text within the
      limit is one chunk, and longer text goes down the separator
      cascade. No chunk is whitespace-only. */
  function SplitText(c: Config, text: string): (r: seq<string>)
    requires WellFormed(c)
    ensures IsBlank(text) ==> r == []
    ensures !IsBlank(text) && Count(c.tok, text) <= c.maxTokens ==> r == [text]
    ensures forall k :: 0 <= k < |r| ==> !IsBlank(r[k])
    decreases |text|, 4, 0
  {
    if IsBlank(text) then []
    else if Count(c.tok, text) <= c.maxTokens then [text]
    else TrySeparators(c, text, 0)
  }

  /** The loop over the separators from position `i` on: a separator is
      used when splitting on it gives more than one part and merging them
      gives at least one chunk; past the last separator, token windows. */
  function TrySeparators(c: Config, text: string, i: nat): (r: seq<string>)
    requires WellFormed(c) && i <= |Separators|
    ensures forall k :: 0 <= k < |r| ==> !IsBlank(r[k])
    decreases |text|, 3, |Separators| - i
  {
    if i == |Separators| then SplitByTokens(c.tok, c.maxTokens, c.overlapTokens, text)
    else
      var sep := Separators[i];
      var splits := SplitOn(text, sep);
      if |splits| > 1 then
        var chunks := MergeSplits(c, |text|, splits, sep);
        if chunks != [] then chunks else TrySeparators(c, text, i + 1)
      else TrySeparators(c, text, i + 1)
  }

  /** `_merge_splits`: the texts of the pieces the merge produces, every
      one of them shorter than `bound`, the length of the text that was
      split. */
  function MergeSplits(c: Config, bound: nat, splits: seq<string>, sep: string): (r: seq<string>)
    requires WellFormed(c)
    requires forall j :: 0 <= j < |splits| ==> |splits[j]| < bound
    ensures forall k :: 0 <= k < |r| ==> !IsBlank(r[k])
    decreases bound, 2, 0
  {
    var ps := MergePieces(c, bound, splits, sep);
    PieceTexts(c, sep, ps)
  }

  /** The texts of well-formed pieces are never whitespace-only. */
  function PieceTexts(c: Config, sep: string, ps: seq<Piece>): (r: seq<string>)
    requires forall j :: 0 <= j < |ps| ==> GoodPiece(c, ps[j])
    ensures |r| == |ps|
    ensures forall k :: 0 <= k < |r| ==> r[k] == PieceText(sep, ps[k]) && !IsBlank(r[k])
    decreases |ps|
  {
    if ps == [] then []
    else
      var p := ps[0];
      assert GoodPiece(c, p);
      if p.Joined? then
        assert SmallSegment(c, p.segs[0]);
        JoinNotBlank(sep, p.segs, 0);
        [PieceText(sep, p)] + PieceTexts(c, sep, ps[1..])
      else
        [PieceText(sep, p)] + PieceTexts(c, sep, ps[1..])
  }

  /** The pieces of `_merge_splits`: the loop over every split, then the
      open chunk closed. Each is a well-formed piece. */
  function MergePieces(c: Config, bound: nat, splits: seq<string>, sep: string): (ps: seq<Piece>)
    requires WellFormed(c)
    requires forall j :: 0 <= j < |splits| ==> |splits[j]| < bound
    ensures forall j :: 0 <= j < |ps| ==> GoodPiece(c, ps[j])
    decreases bound, 1, 0
  {
    var st := MergeFrom(c, bound, splits, sep, 0, InitialState());
    if st.current != [] then st.pieces + [Joined(st.current)] else st.pieces
  }

  /** The merge loop from split `k` on. */
  function MergeFrom(c: Config, bound: nat, splits: seq<string>, sep: string, k: nat,
                     st: MergeState): (r: MergeState)
    requires WellFormed(c) && k <= |splits| && MergeInv(c, st)
    requires forall j :: 0 <= j < |splits| ==> |splits[j]| < bound
    ensures MergeInv(c, r)
    decreases bound, 0, |splits| - k
  {
    if k == |splits| then st
    else
      var split := splits[k];
      var sub := if Oversized(c, split) then SplitText(c, split) else [];
      MergeStepKeepsInvariant(c, sep, st, split, sub);
      MergeFrom(c, bound, splits, sep, k + 1, MergeStep(c, sep, st, split, sub))
  }

  // ---------------------------------------------------------------
  // Properties
  // ---------------------------------------------------------------

  /** A counter that adds up over concatenation, as a character count does. */
  ghost predicate Additive(tok: Tokenizer)
  {
    forall a: string, b: string :: Count(tok, a + b) == Count(tok, a) + Count(tok, b)
  }

  /** Under an additive counter a joined chunk costs its segments plus one
      separator between each pair. */
  lemma {:induction false} CountOfJoin(tok: Tokenizer, sep: string, segs: seq<string>)
    requires Additive(tok) && segs != []
    ensures Count(tok, Join(sep, segs)) == SegSum(tok, segs) + (|segs| - 1) * Count(tok, sep)
    decreases |segs|
  {
    if |segs| == 1 {
      assert SegSum(tok, segs) == Count(tok, segs[0]) + SegSum(tok, segs[1..]);
    } else {
      CountOfJoin(tok, sep, segs[1..]);
      var tail := Join(sep, segs[1..]);
      assert Join(sep, segs) == segs[0] + (sep + tail);
      assert Count(tok, segs[0] + (sep + tail)) == Count(tok, segs[0]) + Count(tok, sep + tail);
      assert Count(tok, sep + tail) == Count(tok, sep) + Count(tok, tail);
    }
  }

  /** The bound a merged chunk actually keeps: with an additive counter it
      holds at most `max_tokens + overlap_tokens` tokens of segments plus
      its separators, not `max_tokens`. */
  lemma MergedChunkBound(c: Config, bound: nat, splits: seq<string>, sep: string, k: int)
    requires WellFormed(c) && Additive(c.tok)
    requires forall j :: 0 <= j < |splits| ==> |splits[j]| < bound
    requires 0 <= k < |MergePieces(c, bound, splits, sep)|
    requires MergePieces(c, bound, splits, sep)[k].Joined?
    ensures var segs := MergePieces(c, bound, splits, sep)[k].segs;
      Count(c.tok, Join(sep, segs))
        <= c.maxTokens + c.overlapTokens + (|segs| - 1) * Count(c.tok, sep)
  {
    var segs := MergePieces(c, bound, splits, sep)[k].segs;
    CountOfJoin(c.tok, sep, segs);
  }

  /** The merge of the parts that splitting on separator `j` gives. */
  function MergeOn(c: Config, text: string, j: nat): seq<string>
    requires WellFormed(c) && j < |Separators| && |SplitOn(text, Separators[j])| > 1
  {
    MergeSplits(c, |text|, SplitOn(text, Separators[j]), Separators[j])
  }

  /** Separator `i` is the one used: splitting on it gives more than one
      part, and merging the parts gives at least one chunk. */
  predicate SeparatorWorks(c: Config, text: string, i: nat)
    requires WellFormed(c) && i < |Separators|
  {
    |SplitOn(text, Separators[i])| > 1 && MergeOn(c, text, i) != []
  }

  /** One turn of the cascade. */
  lemma TrySeparatorsStep(c: Config, text: string, i: nat)
    requires WellFormed(c) && i < |Separators|
    ensures SeparatorWorks(c, text, i) ==> TrySeparators(c, text, i) == MergeOn(c, text, i)
    ensures !SeparatorWorks(c, text, i) ==> TrySeparators(c, text, i) == TrySeparators(c, text, i + 1)
  {
  }

  /** Separator `j` is the first to work from `i` on. */
  predicate FirstWorking(c: Config, text: string, i: nat, j: nat)
    requires WellFormed(c)
  {
    && i <= j < |Separators| && SeparatorWorks(c, text, j)
    && forall l :: i <= l < j ==> !SeparatorWorks(c, text, l)
  }

  /** No separator from `i` on works. */
  predicate NoneWorks(c: Config, text: string, i: nat)
    requires WellFormed(c)
  {
    forall l :: i <= l < |Separators| ==> !SeparatorWorks(c, text, l)
  }

  lemma FirstWorkingShift(c: Config, text: string, i: nat, j: nat)
    requires WellFormed(c) && i < |Separators| && !SeparatorWorks(c, text, i)
    ensures FirstWorking(c, text, i + 1, j) ==> FirstWorking(c, text, i, j)
    ensures NoneWorks(c, text, i + 1) ==> NoneWorks(c, text, i)
  {
  }

  /** From separator `i` on, the cascade returns the merge on the first
      separator that works, or token windows when none does. */
  lemma {:induction false} TrySeparatorsFirstWorking(c: Config, text: string, i: nat)
    requires WellFormed(c) && i <= |Separators|
    ensures || (exists j :: FirstWorking(c, text, i, j) && TrySeparators(c, text, i) == MergeOn(c, text, j))
            || (NoneWorks(c, text, i)
                && TrySeparators(c, text, i) == SplitByTokens(c.tok, c.maxTokens, c.overlapTokens, text))
    decreases |Separators| - i
  {
    if i < |Separators| {
      TrySeparatorsStep(c, text, i);
      if !SeparatorWorks(c, text, i) {
        TrySeparatorsFirstWorking(c, text, i + 1);
        if exists j :: FirstWorking(c, text, i + 1, j) && TrySeparators(c, text, i + 1) == MergeOn(c, text, j) {
          var j :| FirstWorking(c, text, i + 1, j) && TrySeparators(c, text, i + 1) == MergeOn(c, text, j);
          FirstWorkingShift(c, text, i, j);
        } else {
          FirstWorkingShift(c, text, i, i);
        }
      } else {
        assert FirstWorking(c, text, i, i);
      }
    }
  }

  /** `split_text` on non-blank text over the limit: the merge on the
      first separator that works, or token windows when none does. */
  lemma SplitTextCascade(c: Config, text: string)
    requires WellFormed(c) && !IsBlank(text) && Count(c.tok, text) > c.maxTokens
    ensures || (exists j :: FirstWorking(c, text, 0, j) && SplitText(c, text) == MergeOn(c, text, j))
            || (NoneWorks(c, text, 0)
                && SplitText(c, text) == SplitByTokens(c.tok, c.maxTokens, c.overlapTokens, text))
  {
    TrySeparatorsFirstWorking(c, text, 0);
  }

  /** Every chunk the merge closes itself keeps the lifted bound; the
      others are chunks of a recursive split of one oversized part. */
  lemma MergeSplitsChunkBound(c: Config, bound: nat, splits: seq<string>, sep: string, k: int)
    requires WellFormed(c) && Additive(c.tok)
    requires forall j :: 0 <= j < |splits| ==> |splits[j]| < bound
    requires 0 <= k < |MergeSplits(c, bound, splits, sep)|
    ensures var p := MergePieces(c, bound, splits, sep)[k];
      || (&& p.Joined?
          && MergeSplits(c, bound, splits, sep)[k] == Join(sep, p.segs)
          && Count(c.tok, MergeSplits(c, bound, splits, sep)[k])
             <= c.maxTokens + c.overlapTokens + (|p.segs| - 1) * Count(c.tok, sep))
      || (p.Nested? && MergeSplits(c, bound, splits, sep)[k] == p.text)
  {
    if MergePieces(c, bound, splits, sep)[k].Joined? {
      MergedChunkBound(c, bound, splits, sep, k);
    }
  }

  /** Text that is too long and holds none of the separators goes
      straight to token windows. */
  lemma SplitTextWithoutSeparators(c: Config, text: string)
    requires WellFormed(c)
    requires !IsBlank(text) && Count(c.tok, text) > c.maxTokens
    requires forall i :: 0 <= i < |Separators| ==> !Contains(text, Separators[i])
    ensures SplitText(c, text) == SplitByTokens(c.tok, c.maxTokens, c.overlapTokens, text)
  {
    forall i | 0 <= i < |Separators|
      ensures TrySeparators(c, text, i) == TrySeparators(c, text, i + 1)
    {
      SplitOnAbsent(text, Separators[i]);
    }
    assert TrySeparators(c, text, 0) == TrySeparators(c, text, 1);
    assert TrySeparators(c, text, 1) == TrySeparators(c, text, 2);
    assert TrySeparators(c, text, 2) == TrySeparators(c, text, 3);
    assert TrySeparators(c, text, 3) == TrySeparators(c, text, 4);
  }

  /** With a limit of 5 and an overlap of 3, merging segments of 3, 3 and
      1 tokens on a one-token space closes a chunk of two 3-token segments:
      the carried-over first segment plus the second is never re-checked
      against the limit, so the chunk exceeds it (7 tokens under an
      additive counter). */
  lemma MergeCanExceedMax(tok: Tokenizer, a: string, b: string, d: string, bound: nat)
    requires Count(tok, a) == 3 && Count(tok, b) == 3 && Count(tok, d) == 1
    requires Count(tok, " ") == 1
    requires !IsBlank(a) && !IsBlank(b) && !IsBlank(d)
    requires |a| < bound && |b| < bound && |d| < bound
    ensures var c := Config(tok, 5, 3);
      && MergeSplits(c, bound, [a, b, d], " ") == [a, Join(" ", [a, b]), Join(" ", [b, d])]
      && SegSum(tok, [a, b]) > c.maxTokens
      && (Additive(tok) ==> Count(tok, Join(" ", [a, b])) == 7)
  {
    var c := Config(tok, 5, 3);
    ExamplePieces(tok, a, b, d, bound);
    var r := MergeSplits(c, bound, [a, b, d], " ");
    assert r[0] == Join(" ", [a]) == a;
    assert r == [a, Join(" ", [a, b]), Join(" ", [b, d])];
    assert [a, b][1..] == [b] && [b][1..] == [];
    if Additive(tok) {
      CountOfJoin(tok, " ", [a, b]);
    }
  }

  lemma ExamplePieces(tok: Tokenizer, a: string, b: string, d: string, bound: nat)
    requires Count(tok, a) == 3 && Count(tok, b) == 3 && Count(tok, d) == 1
    requires Count(tok, " ") == 1
    requires !IsBlank(a) && !IsBlank(b) && !IsBlank(d)
    requires |a| < bound && |b| < bound && |d| < bound
    ensures MergePieces(Config(tok, 5, 3), bound, [a, b, d], " ")
            == [Joined([a]), Joined([a, b]), Joined([b, d])]
  {
    ExampleMerge(tok, a, b, d, bound);
  }

  lemma ExampleMerge(tok: Tokenizer, a: string, b: string, d: string, bound: nat)
    requires Count(tok, a) == 3 && Count(tok, b) == 3 && Count(tok, d) == 1
    requires Count(tok, " ") == 1
    requires !IsBlank(a) && !IsBlank(b) && !IsBlank(d)
    requires |a| < bound && |b| < bound && |d| < bound
    ensures MergeFrom(Config(tok, 5, 3), bound, [a, b, d], " ", 0, InitialState())
            == MergeState([Joined([a]), Joined([a, b])], [b, d], 4)
  {
    var c := Config(tok, 5, 3);
    var splits := [a, b, d];
    var st0 := InitialState();
    MergeFromSmallStep(c, bound, splits, " ", 0, st0);
    var st1 := MergeStep(c, " ", st0, a, []);
    MergeFromSmallStep(c, bound, splits, " ", 1, st1);
    var st2 := MergeStep(c, " ", st1, b, []);
    MergeFromSmallStep(c, bound, splits, " ", 2, st2);
    var st3 := MergeStep(c, " ", st2, d, []);
    assert MergeFrom(c, bound, splits, " ", 3, st3) == st3;
    ExampleStep1(tok, a);
    ExampleStep2(tok, a, b);
    ExampleStep3(tok, a, b, d);
  }

  /** One loop iteration on a segment that is not oversized. */
  lemma MergeFromSmallStep(c: Config, bound: nat, splits: seq<string>, sep: string, k: nat,
                           st: MergeState)
    requires WellFormed(c) && k < |splits| && MergeInv(c, st)
    requires forall j :: 0 <= j < |splits| ==> |splits[j]| < bound
    requires !Oversized(c, splits[k])
    ensures MergeInv(c, MergeStep(c, sep, st, splits[k], []))
    ensures MergeFrom(c, bound, splits, sep, k, st)
            == MergeFrom(c, bound, splits, sep, k + 1, MergeStep(c, sep, st, splits[k], []))
  {
    MergeStepKeepsInvariant(c, sep, st, splits[k], []);
  }

  lemma ExampleStep1(tok: Tokenizer, a: string)
    requires Count(tok, a) == 3 && Count(tok, " ") == 1 && !IsBlank(a)
    ensures MergeStep(Config(tok, 5, 3), " ", InitialState(), a, []) == MergeState([], [a], 4)
  {
  }

  lemma ExampleStep2(tok: Tokenizer, a: string, b: string)
    requires Count(tok, a) == 3 && Count(tok, b) == 3 && Count(tok, " ") == 1 && !IsBlank(b)
    ensures MergeStep(Config(tok, 5, 3), " ", MergeState([], [a], 4), b, [])
            == MergeState([Joined([a])], [a, b], 6)
  {
    var c := Config(tok, 5, 3);
    OverlapOfOne(tok, a, 3);
    MergeStepCloses(c, " ", MergeState([], [a], 4), b, []);
  }

  lemma ExampleStep3(tok: Tokenizer, a: string, b: string, d: string)
    requires Count(tok, a) == 3 && Count(tok, b) == 3 && Count(tok, d) == 1
    requires Count(tok, " ") == 1 && !IsBlank(d)
    ensures MergeStep(Config(tok, 5, 3), " ", MergeState([Joined([a])], [a, b], 6), d, [])
            == MergeState([Joined([a]), Joined([a, b])], [b, d], 4)
  {
    var c := Config(tok, 5, 3);
    OverlapOfTwo(tok, a, b, 3);
    MergeStepCloses(c, " ", MergeState([Joined([a])], [a, b], 6), d, []);
  }

  /** A segment that fits but does not fit into the open chunk closes it and
      opens the next one with the carried overlap. */
  lemma MergeStepCloses(c: Config, sep: string, st: MergeState, split: string, sub: seq<string>)
    requires WellFormed(c) && !IsBlank(split) && Count(c.tok, split) <= c.maxTokens
    requires st.current != []
    requires st.tracked + Count(c.tok, split) + (if sep != "" then Count(c.tok, sep) else 0)
             > c.maxTokens
    ensures var ov := OverlapSuffix(c.tok, st.current, c.overlapTokens);
      MergeStep(c, sep, st, split, sub)
      == MergeState(st.pieces + [Joined(st.current)], ov + [split],
                    SegSum(c.tok, ov) + Count(c.tok, split))
  {
  }

  lemma OverlapOfOne(tok: Tokenizer, a: string, budget: int)
    requires 0 <= Count(tok, a) <= budget
    ensures OverlapSuffix(tok, [a], budget) == [a]
    ensures SegSum(tok, [a]) == Count(tok, a)
  {
    assert [a][..0] == [] && [a][1..] == [];
    assert OverlapSuffix(tok, [], budget - Count(tok, a)) == [];
  }

  lemma OverlapOfTwo(tok: Tokenizer, a: string, b: string, budget: int)
    requires 0 <= budget && Count(tok, b) <= budget < Count(tok, a) + Count(tok, b)
    ensures OverlapSuffix(tok, [a, b], budget) == [b]
    ensures SegSum(tok, [b]) == Count(tok, b)
  {
    assert [a, b][..1] == [a] && [b][1..] == [];
    assert OverlapSuffix(tok, [a], budget - Count(tok, b)) == [];
  }
}

=== FILE: stage_tools.dfy ===
/** The per-file stage tools the agents call (app/agents/tools.py):
    `extract_text`, `extract_toc_tool`, `chunk_textbook`, `extract_coverage`
    and `_update_manifest_enriched`. Each checks its prerequisites, may
    answer from a cached artifact, runs the stage, and records the artifact
    in the entry's `derived` list only when it is not there yet. The PDF
    reader, the language models, the tokenizer and the chunk-id hash are
    inputs; message wording is reduced to an error kind. */
module StageTools {
  import opened Wrappers
  import opened Manifest
  import ManifestIO
  import TextExtraction
  import Toc
  import TocExtraction
  import Coverage
  import CoverageExtraction
  import ChunkStore
  import SmartChunking
  import TokenWindows

  /** The registry the tools use and the temporary name `save_manifest`
      writes first (`with_suffix(".tmp")`). */
  const ManifestPath: string := "storage/state/manifest.json"
  const ManifestTmp: string := "storage/state/manifest.tmp"

  /** Artifact paths as the tools record them: relative to the project
      root, so under `storage/`. */
  function ToolArtifact(kind: string, fileId: string): string
  {
    "storage/state/" + kind + "/" + fileId + ".json"
  }

  const ChunksArtifact: string := "storage/state/chunks/chunks.jsonl"

  /** Why a tool answered with an error. */
  datatype ToolError =
    | ManifestMissing        // no readable registry
    | NotFound               // no entry with that id
    | TextMissing            // no extracted text
    | Unreadable             // an artifact exists but does not parse
    | WrongDocType(docType: string)
    | ExtractionFailed(message: Option<string>)
    | Crashed                // an exception inside the cache check
    | ChunkingFailed(reason: string)

  /** A successful answer: how many pages, chapters or chunks, and whether
      it came from the cache. */
  datatype Report = Report(count: nat, cached: bool)

  /** A tool's effect: the registry directory, the store the tool writes,
      and its answer. */
  datatype Run<S> = Run(disk: ManifestIO.Disk, store: S, reply: Result<Report, ToolError>)

  /** Saves the registry with entry `i` replaced by `g`. */
  function SaveEntry(disk: ManifestIO.Disk, m: Manifest, i: nat, g: ManifestFile): (d: ManifestIO.Disk)
    requires i < |m.files|
    ensures ManifestIO.LoadManifest(d, ManifestPath) == Some(m.(files := m.files[i := g]))
  {
    ManifestIO.SaveManifest(disk, ManifestPath, ManifestTmp, m.(files := m.files[i := g]))
  }

  /** The registry on `after` is the one on `before` with the entry for
      `fileId` replaced by one that `step` relates to it. */
  predicate EntryUpdated(before: ManifestIO.Disk, after: ManifestIO.Disk, fileId: string,
                         step: (ManifestFile, ManifestFile) -> bool)
  {
    && ManifestIO.LoadManifest(before, ManifestPath).Some?
    && var m := ManifestIO.LoadManifest(before, ManifestPath).value;
       && FindById(m.files, fileId).Some?
       && var i := FindById(m.files, fileId).value;
          && ManifestIO.LoadManifest(after, ManifestPath).Some?
          && var m2 := ManifestIO.LoadManifest(after, ManifestPath).value;
             && |m2.files| == |m.files|
             && m2 == m.(files := m.files[i := m2.files[i]])
             && step(m.files[i], m2.files[i])
  }

  /** The registry is readable and has an entry with id `fileId`. */
  predicate Located(disk: ManifestIO.Disk, fileId: string)
  {
    && ManifestIO.LoadManifest(disk, ManifestPath).Some?
    && FindById(ManifestIO.LoadManifest(disk, ManifestPath).value.files, fileId).Some?
  }

  /** The first registry entry with id `fileId`. */
  function EntryOf(disk: ManifestIO.Disk, fileId: string): ManifestFile
    requires Located(disk, fileId)
  {
    var m := ManifestIO.LoadManifest(disk, ManifestPath).value;
    m.files[FindById(m.files, fileId).value]
  }

  /** Every registry entry lists each artifact at most once. */
  predicate DerivedClean(disk: ManifestIO.Disk)
  {
    ManifestIO.LoadManifest(disk, ManifestPath).Some? ==>
      forall k :: 0 <= k < |ManifestIO.LoadManifest(disk, ManifestPath).value.files| ==>
        NoDuplicates(ManifestIO.LoadManifest(disk, ManifestPath).value.files[k].derived)
  }

  /** Replacing one entry by one that adds an artifact only when absent
      keeps a clean registry clean. */
  lemma SaveEntryKeepsClean(disk: ManifestIO.Disk, m: Manifest, i: nat, g: ManifestFile, a: string)
    requires i < |m.files| && g.derived == AppendIfAbsent(m.files[i].derived, a)
    ensures (forall k :: 0 <= k < |m.files| ==> NoDuplicates(m.files[k].derived))
            ==> DerivedClean(SaveEntry(disk, m, i, g))
  {
    var files := m.files[i := g];
    assert forall k :: 0 <= k < |files| ==> files[k] == (if k == i then g else m.files[k]);
  }

  /** Replacing an entry by one with the same id leaves it the first
      entry with that id. */
  lemma StillFound(files: seq<ManifestFile>, i: nat, g: ManifestFile, fileId: string)
    requires FindById(files, fileId) == Some(i) && g.fileId == fileId
    ensures FindById(files[i := g], fileId) == Some(i)
  {
    var after := files[i := g];
    var r := FindById(after, fileId);
    assert after[i].fileId == fileId;
    assert r.Some?;
    assert forall k :: 0 <= k < i ==> after[k] == files[k];
  }

  // ---------------------------------------------------------------
  // `extract_text`
  // ---------------------------------------------------------------

  /** The cached-answer condition shared by the stages: the artifact exists
      and the entry is not waiting for (re)processing. */
  predicate Cacheable<T>(dir: map<string, Stored<T>>, fileId: string, f: ManifestFile)
  {
    fileId in dir && !IsPending(f.status)
  }

  /** What a successful extraction does to the entry: it is processed, the
      artifact is recorded once, and nothing else (not even `error`)
      changes. */
  predicate TextStep(fileId: string, f: ManifestFile, g: ManifestFile)
  {
    g == f.(status := Processed, derived := AppendIfAbsent(f.derived, ToolArtifact("extracted_text", fileId)))
  }

  function ExtractTextTool(fileId: string, disk: ManifestIO.Disk, texts: TextExtraction.TextDir,
                           extract: ManifestFile -> TextExtraction.ExtractResult): (r: Run<TextExtraction.TextDir>)
    // an error or a cached answer changes nothing
    ensures r.reply.Err? || r.reply.value.cached ==> r.disk == disk && r.store == texts
    // a cached answer exactly when the text exists, parses, and the entry is not pending
    ensures r.reply.Ok? && r.reply.value.cached <==>
      && ManifestIO.LoadManifest(disk, ManifestPath).Some?
      && FindById(ManifestIO.LoadManifest(disk, ManifestPath).value.files, fileId).Some?
      && var m := ManifestIO.LoadManifest(disk, ManifestPath).value;
         Cacheable(texts, fileId, m.files[FindById(m.files, fileId).value]) && texts[fileId].Valid?
    // a fresh extraction stores the text and marks the entry processed
    ensures r.reply.Ok? && !r.reply.value.cached ==>
      && fileId in r.store && r.store[fileId].Valid?
      && r.reply.value.count == |r.store[fileId].content.pages|
      && EntryUpdated(disk, r.disk, fileId, (f, g) => TextStep(fileId, f, g))
    // no cache: the reader's outcome decides, and its text is what is stored
    ensures Located(disk, fileId) && !Cacheable(texts, fileId, EntryOf(disk, fileId)) ==>
      match extract(EntryOf(disk, fileId))
      case Extracted(t) =>
        r.reply == Ok(Report(|t.pages|, false)) && r.store == texts[fileId := Valid(t)]
      case ExtractFailed(msg) => r.reply == Err(ExtractionFailed(msg))
    // a cached text that does not parse is an error, and nothing is redone
    ensures Located(disk, fileId) && Cacheable(texts, fileId, EntryOf(disk, fileId)) && !texts[fileId].Valid? ==>
      r == Run(disk, texts, Err(Unreadable))
    ensures !Located(disk, fileId) ==> r.reply.Err?
    ensures DerivedClean(disk) ==> DerivedClean(r.disk)
  {
    match ManifestIO.LoadManifest(disk, ManifestPath)
    case None => Run(disk, texts, Err(ManifestMissing))
    case Some(m) =>
      match FindById(m.files, fileId)
      case None => Run(disk, texts, Err(NotFound))
      case Some(i) =>
        var f := m.files[i];
        if Cacheable(texts, fileId, f) then
          if texts[fileId].Valid? then Run(disk, texts, Ok(Report(|texts[fileId].content.pages|, true)))
          else Run(disk, texts, Err(Unreadable))
        else
          match extract(f)
          case ExtractFailed(msg) => Run(disk, texts, Err(ExtractionFailed(msg)))
          case Extracted(t) =>
            var g := f.(status := Processed,
                        derived := AppendIfAbsent(f.derived, ToolArtifact("extracted_text", fileId)));
            assert TextStep(fileId, f, g);
            SaveEntryKeepsClean(disk, m, i, g, ToolArtifact("extracted_text", fileId));
            Run(SaveEntry(disk, m, i, g), texts[fileId := Valid(t)], Ok(Report(|t.pages|, false)))
  }

  /** A second call after a fresh extraction answers from the cache with
      the same page count and changes nothing. */
  lemma ExtractTextTwiceIsCached(fileId: string, disk: ManifestIO.Disk, texts: TextExtraction.TextDir,
                                 extract: ManifestFile -> TextExtraction.ExtractResult)
    requires ExtractTextTool(fileId, disk, texts, extract).reply.Ok?
    requires !ExtractTextTool(fileId, disk, texts, extract).reply.value.cached
    ensures var first := ExtractTextTool(fileId, disk, texts, extract);
      var second := ExtractTextTool(fileId, first.disk, first.store, extract);
      second == Run(first.disk, first.store, Ok(Report(first.reply.value.count, true)))
  {
    var m := ManifestIO.LoadManifest(disk, ManifestPath).value;
    var i := FindById(m.files, fileId).value;
    var first := ExtractTextTool(fileId, disk, texts, extract);
    var m2 := ManifestIO.LoadManifest(first.disk, ManifestPath).value;
    StillFound(m.files, i, m2.files[i], fileId);
  }

  // ---------------------------------------------------------------
  // `extract_toc_tool`
  // ---------------------------------------------------------------

  /** The number of pages the tool lets the detector search. */
  const TocPages: int := 30

  predicate TocStep(fileId: string, f: ManifestFile, g: ManifestFile)
  {
    g == f.(derived := AppendIfAbsent(f.derived, ToolArtifact("textbook_metadata", fileId)))
  }

  function ExtractTocTool(fileId: string, disk: ManifestIO.Disk, texts: TextExtraction.TextDir,
                          tocs: TocExtraction.MetadataDir, llm: Toc.Llm): (r: Run<TocExtraction.MetadataDir>)
    ensures r.reply.Err? || r.reply.value.cached ==> r.disk == disk && r.store == tocs
    // only textbooks get past the gate
    ensures r.reply.Ok? ==>
      && ManifestIO.LoadManifest(disk, ManifestPath).Some?
      && FindById(ManifestIO.LoadManifest(disk, ManifestPath).value.files, fileId).Some?
      && var m := ManifestIO.LoadManifest(disk, ManifestPath).value;
         m.files[FindById(m.files, fileId).value].docType == "textbook"
    // a fresh extraction stores metadata whose chapters are reported, and
    // records the artifact without touching the status
    ensures r.reply.Ok? && !r.reply.value.cached ==>
      && fileId in r.store && r.store[fileId].Valid?
      && r.reply.value.count == |r.store[fileId].content.chapters|
      && EntryUpdated(disk, r.disk, fileId, (f, g) => TocStep(fileId, f, g))
    // a cached answer exactly when readable metadata exists for a
    // non-pending textbook whose text is readable
    ensures r.reply.Ok? && r.reply.value.cached <==>
      && fileId in texts && texts[fileId].Valid? && Located(disk, fileId)
      && EntryOf(disk, fileId).docType == "textbook"
      && Cacheable(tocs, fileId, EntryOf(disk, fileId)) && tocs[fileId].Valid?
    // no cache: the TOC extraction over the first 30 pages decides, and its
    // metadata is what is stored
    ensures fileId in texts && texts[fileId].Valid? && Located(disk, fileId)
            && EntryOf(disk, fileId).docType == "textbook"
            && !Cacheable(tocs, fileId, EntryOf(disk, fileId)) ==>
      var x := Toc.ExtractToc(fileId, texts[fileId].content.pages, EntryOf(disk, fileId).filename, TocPages, llm);
      && (Toc.IsError(x.1) ==> r.reply == Err(ExtractionFailed(x.1)))
      && (!Toc.IsError(x.1) ==>
            r.reply == Ok(Report(|x.0.chapters|, false)) && r.store == tocs[fileId := Valid(x.0)])
    // without readable extracted text the tool fails
    ensures fileId !in texts ==> r == Run(disk, tocs, Err(TextMissing))
    ensures fileId in texts && !texts[fileId].Valid? ==> r == Run(disk, tocs, Err(Unreadable))
    // saved metadata that does not parse is an error, and nothing is redone
    ensures fileId in texts && texts[fileId].Valid? && Located(disk, fileId)
            && EntryOf(disk, fileId).docType == "textbook"
            && Cacheable(tocs, fileId, EntryOf(disk, fileId)) && !tocs[fileId].Valid? ==>
      r == Run(disk, tocs, Err(Unreadable))
    ensures DerivedClean(disk) ==> DerivedClean(r.disk)
  {
    if fileId !in texts then Run(disk, tocs, Err(TextMissing))
    else if !texts[fileId].Valid? then Run(disk, tocs, Err(Unreadable))
    else
      match ManifestIO.LoadManifest(disk, ManifestPath)
      case None => Run(disk, tocs, Err(ManifestMissing))
      case Some(m) =>
        match FindById(m.files, fileId)
        case None => Run(disk, tocs, Err(NotFound))
        case Some(i) =>
          var f := m.files[i];
          if f.docType != "textbook" then Run(disk, tocs, Err(WrongDocType(f.docType)))
          else if Cacheable(tocs, fileId, f) then
            if tocs[fileId].Valid? then Run(disk, tocs, Ok(Report(|tocs[fileId].content.chapters|, true)))
            else Run(disk, tocs, Err(Unreadable))
          else
            var (meta, err) := Toc.ExtractToc(fileId, texts[fileId].content.pages, f.filename, TocPages, llm);
            if Toc.IsError(err) then Run(disk, tocs, Err(ExtractionFailed(err)))
            else
              var g := f.(derived := AppendIfAbsent(f.derived, ToolArtifact("textbook_metadata", fileId)));
              assert TocStep(fileId, f, g);
              SaveEntryKeepsClean(disk, m, i, g, ToolArtifact("textbook_metadata", fileId));
              Run(SaveEntry(disk, m, i, g), tocs[fileId := Valid(meta)], Ok(Report(|meta.chapters|, false)))
  }

  /** Once metadata is saved for a processed textbook, later calls answer
      from it, even when it lists no chapters (the batch loop, by
      contrast, extracts again when the saved chapters are empty). */
  lemma SavedTocIsReused(fileId: string, disk: ManifestIO.Disk, texts: TextExtraction.TextDir,
                         tocs: TocExtraction.MetadataDir, llm: Toc.Llm, llm2: Toc.Llm)
    requires ExtractTocTool(fileId, disk, texts, tocs, llm).reply.Ok?
    requires !ExtractTocTool(fileId, disk, texts, tocs, llm).reply.value.cached
    requires var m := ManifestIO.LoadManifest(disk, ManifestPath).value;
      !IsPending(m.files[FindById(m.files, fileId).value].status)
    ensures var first := ExtractTocTool(fileId, disk, texts, tocs, llm);
      var second := ExtractTocTool(fileId, first.disk, texts, first.store, llm2);
      second == Run(first.disk, first.store, Ok(Report(first.reply.value.count, true)))
    ensures var first := ExtractTocTool(fileId, disk, texts, tocs, llm);
      first.reply.value.count == 0 ==> !TocExtraction.HasSavedChapters(first.store, fileId)
  {
    var m := ManifestIO.LoadManifest(disk, ManifestPath).value;
    var i := FindById(m.files, fileId).value;
    var first := ExtractTocTool(fileId, disk, texts, tocs, llm);
    var m2 := ManifestIO.LoadManifest(first.disk, ManifestPath).value;
    StillFound(m.files, i, m2.files[i], fileId);
  }

  // ---------------------------------------------------------------
  // `chunk_textbook`
  // ---------------------------------------------------------------

  /** The inputs the chunker reads besides the registry and the ledger. */
  datatype ChunkInputs = ChunkInputs(texts: TextExtraction.TextDir, tocs: TocExtraction.MetadataDir,
                                     coverage: SmartChunking.CoverageFiles, tok: TokenWindows.Tokenizer,
                                     genId: SmartChunking.ChunkIdGen, codec: ChunkStore.Codec)

  predicate ChunkStep(f: ManifestFile, g: ManifestFile)
  {
    g == f.(derived := AppendIfAbsent(f.derived, ChunksArtifact))
  }

  /** The chunks of one run of the chapter-scoped chunker. */
  function SmartChunks(fileId: string, f: ManifestFile, inp: ChunkInputs): Result<seq<ChunkStore.Chunk>, string>
  {
    SmartChunking.ChunkTextbookSmart(fileId, f.filename, inp.texts, inp.tocs, inp.coverage, inp.tok, inp.genId)
  }

  /** `chunk_textbook` as written: its cache check calls `.get` on the
      chunk records the ledger loader returns, so with any readable chunk
      in the ledger (and the entry not pending) it fails; otherwise it
      chunks and appends without removing earlier chunks of the file. */
  function ChunkTextbookTool(fileId: string, disk: ManifestIO.Disk, ledger: ChunkStore.Ledger,
                             inp: ChunkInputs): (r: Run<ChunkStore.Ledger>)
    ensures r.reply.Err? ==> r.disk == disk && r.store == ledger
    ensures r.reply.Ok? ==> !r.reply.value.cached
    ensures r.reply.Ok? ==>
      && ManifestIO.LoadManifest(disk, ManifestPath).Some?
      && FindById(ManifestIO.LoadManifest(disk, ManifestPath).value.files, fileId).Some?
      && var m := ManifestIO.LoadManifest(disk, ManifestPath).value;
         var f := m.files[FindById(m.files, fileId).value];
         && f.docType == "textbook"
         && SmartChunks(fileId, f, inp).Ok?
         && r.store == ChunkStore.Append(inp.codec, ledger, SmartChunks(fileId, f, inp).value)
         && r.reply.value.count == |SmartChunks(fileId, f, inp).value|
         && EntryUpdated(disk, r.disk, fileId, ChunkStep)
    // past the gates (and the failing cache check) the chunker decides
    ensures Located(disk, fileId) && fileId in inp.texts && EntryOf(disk, fileId).docType == "textbook"
            && !(ledger.Some? && !IsPending(EntryOf(disk, fileId).status) && ChunkStore.Load(inp.codec, ledger) != []) ==>
      match SmartChunks(fileId, EntryOf(disk, fileId), inp)
      case Ok(cs) => r.reply == Ok(Report(|cs|, false))
      case Err(e) => r.reply == Err(ChunkingFailed(e))
    ensures DerivedClean(disk) ==> DerivedClean(r.disk)
  {
    match ManifestIO.LoadManifest(disk, ManifestPath)
    case None => Run(disk, ledger, Err(ManifestMissing))
    case Some(m) =>
      match FindById(m.files, fileId)
      case None => Run(disk, ledger, Err(NotFound))
      case Some(i) =>
        var f := m.files[i];
        if fileId !in inp.texts then Run(disk, ledger, Err(TextMissing))
        else if f.docType != "textbook" then Run(disk, ledger, Err(WrongDocType(f.docType)))
        else if ledger.Some? && !IsPending(f.status) && ChunkStore.Load(inp.codec, ledger) != [] then
          Run(disk, ledger, Err(Crashed))
        else
          match SmartChunks(fileId, f, inp)
          case Err(e) => Run(disk, ledger, Err(ChunkingFailed(e)))
          case Ok(cs) =>
            var g := f.(derived := AppendIfAbsent(f.derived, ChunksArtifact));
            assert ChunkStep(f, g);
            SaveEntryKeepsClean(disk, m, i, g, ChunksArtifact);
            Run(SaveEntry(disk, m, i, g), ChunkStore.Append(inp.codec, ledger, cs), Ok(Report(|cs|, false)))
  }

  /** The cache check as evidently intended: the file's own chunks in the
      ledger are counted and returned, and nothing is chunked again. */
  function ChunkTextbookToolIntended(fileId: string, disk: ManifestIO.Disk, ledger: ChunkStore.Ledger,
                                     inp: ChunkInputs): (r: Run<ChunkStore.Ledger>)
    ensures r.reply.Err? || r.reply.value.cached ==> r.disk == disk && r.store == ledger
    ensures r.reply.Ok? && r.reply.value.cached ==>
      r.reply.value.count == |ChunkStore.GetChunksByFileId(inp.codec, ledger, fileId)| > 0
    ensures DerivedClean(disk) ==> DerivedClean(r.disk)
  {
    match ManifestIO.LoadManifest(disk, ManifestPath)
    case None => Run(disk, ledger, Err(ManifestMissing))
    case Some(m) =>
      match FindById(m.files, fileId)
      case None => Run(disk, ledger, Err(NotFound))
      case Some(i) =>
        var f := m.files[i];
        var own := ChunkStore.GetChunksByFileId(inp.codec, ledger, fileId);
        if fileId !in inp.texts then Run(disk, ledger, Err(TextMissing))
        else if f.docType != "textbook" then Run(disk, ledger, Err(WrongDocType(f.docType)))
        else if ledger.Some? && !IsPending(f.status) && own != [] then
          Run(disk, ledger, Ok(Report(|own|, true)))
        else
          match SmartChunks(fileId, f, inp)
          case Err(e) => Run(disk, ledger, Err(ChunkingFailed(e)))
          case Ok(cs) =>
            var g := f.(derived := AppendIfAbsent(f.derived, ChunksArtifact));
            SaveEntryKeepsClean(disk, m, i, g, ChunksArtifact);
            Run(SaveEntry(disk, m, i, g), ChunkStore.Append(inp.codec, ledger, cs), Ok(Report(|cs|, false)))
  }

  /** The chunks a successful run appends all belong to the file. */
  lemma RunChunksBelongToFile(fileId: string, f: ManifestFile, inp: ChunkInputs)
    requires SmartChunks(fileId, f, inp).Ok?
    ensures ChunkStore.WithFileId(SmartChunks(fileId, f, inp).value, fileId) == SmartChunks(fileId, f, inp).value
  {
    ChunkStore.WithFileIdAll(SmartChunks(fileId, f, inp).value, fileId);
  }

  /** As written, calling `chunk_textbook` again on a processed textbook
      that produced chunks fails in the cache check, whatever the inputs. */
  lemma ChunkAgainFails(fileId: string, disk: ManifestIO.Disk, ledger: ChunkStore.Ledger, inp: ChunkInputs)
    requires ChunkStore.Faithful(inp.codec)
    requires ChunkTextbookTool(fileId, disk, ledger, inp).reply.Ok?
    requires ChunkTextbookTool(fileId, disk, ledger, inp).reply.value.count > 0
    requires var m := ManifestIO.LoadManifest(disk, ManifestPath).value;
      !IsPending(m.files[FindById(m.files, fileId).value].status)
    ensures var first := ChunkTextbookTool(fileId, disk, ledger, inp);
      ChunkTextbookTool(fileId, first.disk, first.store, inp) == Run(first.disk, first.store, Err(Crashed))
  {
    var m := ManifestIO.LoadManifest(disk, ManifestPath).value;
    var i := FindById(m.files, fileId).value;
    var f := m.files[i];
    var cs := SmartChunks(fileId, f, inp).value;
    var first := ChunkTextbookTool(fileId, disk, ledger, inp);
    var m2 := ManifestIO.LoadManifest(first.disk, ManifestPath).value;
    StillFound(m.files, i, m2.files[i], fileId);
    ChunkStore.AppendThenLoad(inp.codec, ledger, cs);
    assert ChunkStore.Load(inp.codec, first.store) == ChunkStore.Load(inp.codec, ledger) + cs;
  }

  /** With the intended cache check, the second call answers from the
      ledger with exactly the chunks the first call appended (when the
      ledger held none of the file's chunks before), and the ledger does
      not grow. */
  lemma ChunkAgainIsCached(fileId: string, disk: ManifestIO.Disk, ledger: ChunkStore.Ledger, inp: ChunkInputs)
    requires ChunkStore.Faithful(inp.codec)
    requires ChunkTextbookToolIntended(fileId, disk, ledger, inp).reply.Ok?
    requires !ChunkTextbookToolIntended(fileId, disk, ledger, inp).reply.value.cached
    requires ChunkTextbookToolIntended(fileId, disk, ledger, inp).reply.value.count > 0
    requires ChunkStore.GetChunksByFileId(inp.codec, ledger, fileId) == []
    requires var m := ManifestIO.LoadManifest(disk, ManifestPath).value;
      !IsPending(m.files[FindById(m.files, fileId).value].status)
    ensures var first := ChunkTextbookToolIntended(fileId, disk, ledger, inp);
      ChunkTextbookToolIntended(fileId, first.disk, first.store, inp)
        == Run(first.disk, first.store, Ok(Report(first.reply.value.count, true)))
  {
    var m := ManifestIO.LoadManifest(disk, ManifestPath).value;
    var i := FindById(m.files, fileId).value;
    var f := m.files[i];
    var cs := SmartChunks(fileId, f, inp).value;
    var first := ChunkTextbookToolIntended(fileId, disk, ledger, inp);
    var m2 := ManifestIO.LoadManifest(first.disk, ManifestPath).value;
    StillFound(m.files, i, m2.files[i], fileId);
    ChunkStore.AppendThenLoad(inp.codec, ledger, cs);
    var before := ChunkStore.Load(inp.codec, ledger);
    ChunkStore.WithFileIdAppend(before, cs, fileId);
    RunChunksBelongToFile(fileId, f, inp);
    assert ChunkStore.GetChunksByFileId(inp.codec, first.store, fileId) == cs;
  }

  /** Re-chunking a pending entry appends the file's chunks a second time. */
  lemma ChunkPendingAgainDuplicates(fileId: string, disk: ManifestIO.Disk, ledger: ChunkStore.Ledger,
                                    inp: ChunkInputs)
    requires ChunkStore.Faithful(inp.codec)
    requires ChunkTextbookTool(fileId, disk, ledger, inp).reply.Ok?
    requires var m := ManifestIO.LoadManifest(disk, ManifestPath).value;
      IsPending(m.files[FindById(m.files, fileId).value].status)
    ensures var first := ChunkTextbookTool(fileId, disk, ledger, inp);
      var second := ChunkTextbookTool(fileId, first.disk, first.store, inp);
      var m := ManifestIO.LoadManifest(disk, ManifestPath).value;
      var cs := SmartChunks(fileId, m.files[FindById(m.files, fileId).value], inp).value;
      second.reply.Ok? && ChunkStore.Load(inp.codec, second.store) == ChunkStore.Load(inp.codec, ledger) + cs + cs
  {
    var m := ManifestIO.LoadManifest(disk, ManifestPath).value;
    var i := FindById(m.files, fileId).value;
    var f := m.files[i];
    var cs := SmartChunks(fileId, f, inp).value;
    var first := ChunkTextbookTool(fileId, disk, ledger, inp);
    var m2 := ManifestIO.LoadManifest(first.disk, ManifestPath).value;
    StillFound(m.files, i, m2.files[i], fileId);
    assert m2.files[i].filename == f.filename && m2.files[i].status == f.status;
    assert SmartChunks(fileId, m2.files[i], inp) == SmartChunks(fileId, f, inp);
    ChunkStore.AppendThenLoad(inp.codec, ledger, cs);
    ChunkStore.AppendThenLoad(inp.codec, first.store, cs);
  }

  // ---------------------------------------------------------------
  // `extract_coverage`
  // ---------------------------------------------------------------

  predicate CoverageStep(fileId: string, f: ManifestFile, g: ManifestFile)
  {
    g == f.(derived := AppendIfAbsent(f.derived, ToolArtifact("coverage", fileId)))
  }

  /** `extract_coverage`: exam overviews and still-unclassified files only;
      no cache, so every call runs the extractor again. */
  function ExtractCoverageTool(fileId: string, disk: ManifestIO.Disk, texts: TextExtraction.TextDir,
                               coverage: CoverageExtraction.CoverageDir, llm: CoverageExtraction.Llm)
    : (r: Run<CoverageExtraction.CoverageDir>)
    ensures r.reply.Err? ==> r.disk == disk && r.store == coverage
    ensures r.reply.Ok? ==> !r.reply.value.cached
    ensures r.reply.Ok? ==>
      && ManifestIO.LoadManifest(disk, ManifestPath).Some?
      && FindById(ManifestIO.LoadManifest(disk, ManifestPath).value.files, fileId).Some?
      && var m := ManifestIO.LoadManifest(disk, ManifestPath).value;
         var f := m.files[FindById(m.files, fileId).value];
         && (f.docType == "exam_overview" || f.docType == "unknown")
         && fileId in r.store && r.reply.value.count == |r.store[fileId].chapters|
         && EntryUpdated(disk, r.disk, fileId, (f, g) => CoverageStep(fileId, f, g))
    // past the gates the extractor decides, and its record is what is stored
    ensures fileId in texts && texts[fileId].Valid? && Located(disk, fileId)
            && (EntryOf(disk, fileId).docType == "exam_overview" || EntryOf(disk, fileId).docType == "unknown") ==>
      match llm(EntryOf(disk, fileId), texts[fileId].content)
      case Covered(c) => r.reply == Ok(Report(|c.chapters|, false)) && r.store == coverage[fileId := c]
      case NotCovered(msg) => r.reply == Err(ExtractionFailed(msg))
    ensures DerivedClean(disk) ==> DerivedClean(r.disk)
  {
    if fileId !in texts then Run(disk, coverage, Err(TextMissing))
    else if !texts[fileId].Valid? then Run(disk, coverage, Err(Unreadable))
    else
      match ManifestIO.LoadManifest(disk, ManifestPath)
      case None => Run(disk, coverage, Err(ManifestMissing))
      case Some(m) =>
        match FindById(m.files, fileId)
        case None => Run(disk, coverage, Err(NotFound))
        case Some(i) =>
          var f := m.files[i];
          if f.docType != "exam_overview" && f.docType != "unknown" then
            Run(disk, coverage, Err(WrongDocType(f.docType)))
          else
            match llm(f, texts[fileId].content)
            case NotCovered(msg) => Run(disk, coverage, Err(ExtractionFailed(msg)))
            case Covered(c) =>
              var g := f.(derived := AppendIfAbsent(f.derived, ToolArtifact("coverage", fileId)));
              assert CoverageStep(fileId, f, g);
              SaveEntryKeepsClean(disk, m, i, g, ToolArtifact("coverage", fileId));
              Run(SaveEntry(disk, m, i, g), coverage[fileId := c], Ok(Report(|c.chapters|, false)))
  }

  /** The tool records `storage/state/coverage/<id>.json`, the batch loop
      looks for `state/coverage/<id>.json`: coverage the tool extracted
      leaves a processed exam overview eligible for the batch loop, which
      extracts it again. */
  lemma ToolCoverageUnseenByBatch(fileId: string, disk: ManifestIO.Disk, texts: TextExtraction.TextDir,
                                  coverage: CoverageExtraction.CoverageDir, llm: CoverageExtraction.Llm)
    requires ExtractCoverageTool(fileId, disk, texts, coverage, llm).reply.Ok?
    requires var m := ManifestIO.LoadManifest(disk, ManifestPath).value;
      CoverageExtraction.Eligible(m.files[FindById(m.files, fileId).value])
    ensures var r := ExtractCoverageTool(fileId, disk, texts, coverage, llm);
      var m := ManifestIO.LoadManifest(disk, ManifestPath).value;
      var m2 := ManifestIO.LoadManifest(r.disk, ManifestPath).value;
      CoverageExtraction.Eligible(m2.files[FindById(m.files, fileId).value])
  {
    var m := ManifestIO.LoadManifest(disk, ManifestPath).value;
    var i := FindById(m.files, fileId).value;
    var f := m.files[i];
    var tool := ToolArtifact("coverage", fileId);
    var batch := CoverageExtraction.CoverageArtifact(fileId);
    assert |tool| == |batch| + 8;
    assert batch !in AppendIfAbsent(f.derived, tool);
  }

  // ---------------------------------------------------------------
  // `_update_manifest_enriched`
  // ---------------------------------------------------------------

  /** Records the enriched-coverage artifact on the first entry with the
      exam's id, saving only when something was added. */
  function UpdateManifestEnriched(disk: ManifestIO.Disk, examFileId: string, artifact: string)
    : (d: ManifestIO.Disk)
    ensures DerivedClean(disk) ==> DerivedClean(d)
    ensures d != disk ==> EntryUpdated(disk, d, examFileId,
                                       (f: ManifestFile, g: ManifestFile) => g == f.(derived := f.derived + [artifact])
                                                                         && artifact !in f.derived)
    // the artifact is recorded exactly when the entry exists and lacks it
    ensures Located(disk, examFileId) && artifact !in EntryOf(disk, examFileId).derived ==>
      EntryUpdated(disk, d, examFileId, (f: ManifestFile, g: ManifestFile) => g == f.(derived := f.derived + [artifact]))
    ensures !(Located(disk, examFileId) && artifact !in EntryOf(disk, examFileId).derived) ==> d == disk
  {
    match ManifestIO.LoadManifest(disk, ManifestPath)
    case None => disk
    case Some(m) =>
      match FindById(m.files, examFileId)
      case None => disk
      case Some(i) =>
        var f := m.files[i];
        if artifact in f.derived then disk
        else
          var g := f.(derived := f.derived + [artifact]);
          assert g.derived == AppendIfAbsent(f.derived, artifact);
          SaveEntryKeepsClean(disk, m, i, g, artifact);
          SaveEntry(disk, m, i, g)
  }

  /** Recording the same artifact twice is the same as recording it once. */
  lemma UpdateManifestEnrichedIdempotent(disk: ManifestIO.Disk, examFileId: string, artifact: string)
    ensures UpdateManifestEnriched(UpdateManifestEnriched(disk, examFileId, artifact), examFileId, artifact)
            == UpdateManifestEnriched(disk, examFileId, artifact)
  {
    var once := UpdateManifestEnriched(disk, examFileId, artifact);
    if once != disk {
      var m := ManifestIO.LoadManifest(disk, ManifestPath).value;
      var i := FindById(m.files, examFileId).value;
      var m2 := ManifestIO.LoadManifest(once, ManifestPath).value;
      StillFound(m.files, i, m2.files[i], examFileId);
      assert artifact in m2.files[i].derived;
    }
  }
}

=== FILE: text.dfy ===
/** String helpers the repository gets from Python's `str`: whitespace
    classification (`strip`, `isspace`), `lower`, `sep.join`, `s.split(sep)`
    and the argument-less `s.split()`. */
module Text {

  /** The characters Python's `str.isspace` accepts. */
  predicate IsSpaceChar(ch: char)
  {
    || ch == ' ' || ch == '\t' || ch == '\n' || ch == '\r'
    || ch == '\U{B}' || ch == '\U{C}'
    || ('\U{1C}' <= ch <= '\U{1F}')
    || ch == '\U{85}' || ch == '\U{A0}' || ch == '\U{1680}'
    || ('\U{2000}' <= ch <= '\U{200A}')
    || ch == '\U{2028}' || ch == '\U{2029}' || ch == '\U{202F}' || ch == '\U{205F}'
    || ch == '\U{3000}'
  }

  /** `not s.strip()`: the string is empty or holds only whitespace. */
  predicate IsBlank(s: string)
  {
    forall i :: 0 <= i < |s| ==> IsSpaceChar(s[i])
  }

  /** The number of leading whitespace characters of `s`. */
  function LeadingSpaces(s: string): (n: nat)
    ensures n <= |s| && IsBlank(s[..n])
    ensures n < |s| ==> !IsSpaceChar(s[n])
    decreases |s|
  {
    if s != [] && IsSpaceChar(s[0]) then
      var n := LeadingSpaces(s[1..]);
      assert forall i :: 1 <= i < n + 1 ==> s[i] == s[1..][i - 1];
      n + 1
    else 0
  }

  /** Where the trailing whitespace of `s` begins. */
  function TrailingStart(s: string): (n: nat)
    ensures n <= |s| && IsBlank(s[n..])
    ensures n > 0 ==> !IsSpaceChar(s[n - 1])
    decreases |s|
  {
    if s != [] && IsSpaceChar(s[|s| - 1]) then
      var n := TrailingStart(s[..|s| - 1]);
      assert forall i :: n <= i < |s| - 1 ==> s[i] == s[..|s| - 1][i];
      n
    else |s|
  }

  /** `s.strip()`: `s` with only whitespace removed from its two ends, and
      no whitespace left at either end; empty exactly when `s` is
      whitespace-only. */
  function Strip(s: string): (r: string)
    ensures exists i, j :: 0 <= i <= j <= |s| && r == s[i..j] && IsBlank(s[..i]) && IsBlank(s[j..])
    ensures r == [] <==> IsBlank(s)
    ensures r != [] ==> !IsSpaceChar(r[0]) && !IsSpaceChar(r[|r| - 1])
  {
    var i := LeadingSpaces(s);
    var t := s[i..];
    var j := TrailingStart(t);
    var r := t[..j];
    StripOfNothing(s, i, j);
    assert r != [] ==> r[0] == s[i];
    assert r == s[i..i + j] && s[i + j..] == t[j..];
    r
  }

  lemma StripOfNothing(s: string, i: nat, j: nat)
    requires i <= |s| && IsBlank(s[..i]) && j <= |s[i..]| && IsBlank(s[i..][j..])
    ensures j == 0 ==> IsBlank(s)
  {
    if j == 0 {
      assert s == s[..i] + s[i..][j..];
      BlankConcat(s[..i], s[i..][j..]);
    }
  }

  lemma BlankConcat(x: string, y: string)
    requires IsBlank(x) && IsBlank(y)
    ensures IsBlank(x + y)
  {
    forall i | 0 <= i < |x + y| ensures IsSpaceChar((x + y)[i]) {
      if i < |x| { assert (x + y)[i] == x[i]; } else { assert (x + y)[i] == y[i - |x|]; }
    }
  }

  predicate IsUpperAscii(ch: char)
  {
    'A' <= ch <= 'Z'
  }

  function LowerChar(ch: char): (r: char)
    ensures !IsUpperAscii(r)
    ensures !IsUpperAscii(ch) ==> r == ch
  {
    if IsUpperAscii(ch) then (ch as int + 32) as char else ch
  }

  /** `s.lower()`, restricted to the ASCII letters. */
  function Lower(s: string): (r: string)
    ensures |r| == |s|
    ensures forall i :: 0 <= i < |s| ==> r[i] == LowerChar(s[i])
    // no upper-case letter is left; each one moves to its lower-case partner
    ensures HasNoUpper(r)
    ensures forall i :: 0 <= i < |s| && IsUpperAscii(s[i]) ==> r[i] as int == s[i] as int + 32
    // every other character is kept
    ensures forall i :: 0 <= i < |s| ==> (r[i] == s[i] <==> !IsUpperAscii(s[i]))
  {
    seq(|s|, i requires 0 <= i < |s| => LowerChar(s[i]))
  }

  predicate HasNoUpper(s: string)
  {
    forall i :: 0 <= i < |s| ==> !IsUpperAscii(s[i])
  }

  lemma LowerOfLowerCase(s: string)
    requires HasNoUpper(s)
    ensures Lower(s) == s
  {
  }

  /** Lowering twice is lowering once, and a text is a lowering result
      exactly when it has no upper-case letter. */
  lemma LowerIdempotent(s: string)
    ensures Lower(Lower(s)) == Lower(s)
    ensures HasNoUpper(s) <==> Lower(s) == s
  {
    LowerOfLowerCase(Lower(s));
    if Lower(s) == s {
      assert HasNoUpper(Lower(s));
    }
  }

  /** `sub` occurs in `s` starting at index `i`. */
  predicate OccursAt(s: string, sub: string, i: int)
  {
    0 <= i && i + |sub| <= |s| && s[i..i + |sub|] == sub
  }

  /** Python's `sub in s`. */
  predicate Contains(s: string, sub: string)
  {
    exists i | 0 <= i <= |s| - |sub| :: OccursAt(s, sub, i)
  }

  /** Python's `sep.join(parts)`. */
  function Join(sep: string, parts: seq<string>): string
    decreases |parts|
  {
    if |parts| == 0 then ""
    else if |parts| == 1 then parts[0]
    else parts[0] + sep + Join(sep, parts[1..])
  }

  /** Python's `s.split(sep)` for a non-empty separator: occurrences are
      found left to right and do not overlap. */
  function SplitOn(s: string, sep: string): (parts: seq<string>)
    requires |sep| > 0
    ensures |parts| >= 1
    ensures forall k :: 0 <= k < |parts| ==> |parts[k]| <= |s|
    ensures |parts| > 1 ==> forall k :: 0 <= k < |parts| ==> |parts[k]| < |s|
    decreases |s|
  {
    if |s| < |sep| then [s]
    else if s[..|sep|] == sep then [""] + SplitOn(s[|sep|..], sep)
    else
      var rest := SplitOn(s[1..], sep);
      [[s[0]] + rest[0]] + rest[1..]
  }

  /** `sub` occurs in `c + t` only at its start or inside `t`. */
  lemma ContainsCons(c: char, t: string, sub: string)
    requires Contains([c] + t, sub)
    ensures OccursAt([c] + t, sub, 0) || Contains(t, sub)
  {
    var i :| 0 <= i <= |[c] + t| - |sub| && OccursAt([c] + t, sub, i);
    if i > 0 {
      assert ([c] + t)[i..i + |sub|] == t[i - 1..i - 1 + |sub|];
      assert OccursAt(t, sub, i - 1);
    }
  }

  /** An occurrence in a prefix is an occurrence in the whole. */
  lemma ContainsPrefix(a: string, b: string, sub: string)
    requires Contains(a, sub)
    ensures Contains(a + b, sub)
  {
    var i :| 0 <= i <= |a| - |sub| && OccursAt(a, sub, i);
    assert (a + b)[i..i + |sub|] == a[i..i + |sub|];
    assert OccursAt(a + b, sub, i);
  }

  /** Every cut is at the leftmost remaining occurrence of the separator: no
      part holds the separator, and no occurrence starts inside a part and
      runs into the separator that follows it. */
  predicate CutsLeftmost(parts: seq<string>, sep: string)
    requires |sep| > 0
  {
    && (forall k :: 0 <= k < |parts| ==> !Contains(parts[k], sep))
    && (forall k :: 0 <= k < |parts| - 1 ==> !Contains(parts[k] + sep[..|sep| - 1], sep))
  }

  lemma CutsLeftmostCons(parts: seq<string>, p: string, rest: seq<string>, sep: string)
    requires parts == [p] + rest
    requires |sep| > 0 && CutsLeftmost(rest, sep) && !Contains(p, sep)
    requires rest != [] ==> !Contains(p + sep[..|sep| - 1], sep)
    ensures CutsLeftmost(parts, sep)
  {
    forall k | 1 <= k < |parts| ensures parts[k] == rest[k - 1] { }
  }

  /** `s.split(sep)` cuts at every leftmost occurrence of `sep`. */
  lemma {:induction false} SplitOnCutsAtEveryOccurrence(s: string, sep: string)
    requires |sep| > 0
    ensures CutsLeftmost(SplitOn(s, sep), sep)
    decreases |s|
  {
    if |s| < |sep| {
      assert SplitOn(s, sep) == [s];
    } else if s[..|sep|] == sep {
      var rest := SplitOn(s[|sep|..], sep);
      SplitOnCutsAtEveryOccurrence(s[|sep|..], sep);
      assert SplitOn(s, sep) == [""] + rest;
      CutAtSeparator(SplitOn(s, sep), rest, sep);
    } else {
      var rest := SplitOn(s[1..], sep);
      SplitOnCutsAtEveryOccurrence(s[1..], sep);
      JoinSplitOn(s[1..], sep);
      assert SplitOn(s, sep) == [[s[0]] + rest[0]] + rest[1..];
      CutAfterCharacter(SplitOn(s, sep), s, rest, sep);
    }
  }

  /** A separator at the start gives an empty first part. */
  lemma CutAtSeparator(parts: seq<string>, rest: seq<string>, sep: string)
    requires |sep| > 0 && parts == [""] + rest && CutsLeftmost(rest, sep)
    ensures CutsLeftmost(parts, sep)
  {
    var cut := sep[..|sep| - 1];
    assert "" + cut == cut;
    CutsLeftmostCons(parts, "", rest, sep);
  }

  /** Without a separator at the start of `s` its first character joins
      the first part of the rest. */
  lemma CutAfterCharacter(parts: seq<string>, s: string, rest: seq<string>, sep: string)
    requires 0 < |sep| <= |s| && s[..|sep|] != sep
    requires |rest| >= 1 && Join(sep, rest) == s[1..] && CutsLeftmost(rest, sep)
    requires parts == [[s[0]] + rest[0]] + rest[1..]
    ensures CutsLeftmost(parts, sep)
  {
    assert CutsLeftmost(rest[1..], sep) by {
      forall k | 0 <= k < |rest[1..]| ensures rest[1..][k] == rest[k + 1] { }
    }
    if |rest| == 1 {
      LastPartAfterCharacter(s, rest[0], sep);
    } else {
      assert Join(sep, rest) == rest[0] + sep + Join(sep, rest[1..]);
      PartAfterCharacter(s, rest[0], Join(sep, rest[1..]), sep);
    }
    CutsLeftmostCons(parts, [s[0]] + rest[0], rest[1..], sep);
  }

  lemma LastPartAfterCharacter(s: string, r: string, sep: string)
    requires 0 < |sep| <= |s| && s[..|sep|] != sep
    requires s[1..] == r && !Contains(r, sep)
    ensures !Contains([s[0]] + r, sep)
  {
    assert [s[0]] + r == s;
    if Contains([s[0]] + r, sep) {
      ContainsCons(s[0], r, sep);
    }
  }

  lemma PartAfterCharacter(s: string, r: string, tail: string, sep: string)
    requires 0 < |sep| <= |s| && s[..|sep|] != sep
    requires s[1..] == r + sep + tail && !Contains(r + sep[..|sep| - 1], sep)
    ensures !Contains([s[0]] + r, sep)
    ensures !Contains([s[0]] + r + sep[..|sep| - 1], sep)
  {
    var cut := sep[..|sep| - 1];
    var x := [s[0]] + (r + cut);
    var y := r + sep + tail;
    assert y[..|r| + |cut|] == r + cut;
    assert s == [s[0]] + y;
    assert x == s[..|x|];
    assert x[..|sep|] == s[..|sep|];
    if Contains(x, sep) {
      ContainsCons(s[0], r + cut, sep);
    }
    assert [s[0]] + r + cut == x;
    if Contains([s[0]] + r, sep) {
      ContainsPrefix([s[0]] + r, cut, sep);
    }
  }

  /** A string with no occurrence of the separator splits into itself. */
  lemma {:induction false} SplitOnAbsent(s: string, sep: string)
    requires |sep| > 0 && !Contains(s, sep)
    ensures SplitOn(s, sep) == [s]
    decreases |s|
  {
    if |s| >= |sep| {
      assert !OccursAt(s, sep, 0);
      assert !Contains(s[1..], sep) by {
        forall i | 0 <= i <= |s[1..]| - |sep|
          ensures !OccursAt(s[1..], sep, i)
        {
          assert !OccursAt(s, sep, i + 1);
          assert s[1..][i..i + |sep|] == s[i + 1..i + 1 + |sep|];
        }
      }
      SplitOnAbsent(s[1..], sep);
      assert [s[0]] + s[1..] == s;
    }
  }

  /** A join is blank only when every part is. */
  lemma {:induction false} JoinNotBlank(sep: string, parts: seq<string>, k: int)
    requires 0 <= k < |parts| && !IsBlank(parts[k])
    ensures !IsBlank(Join(sep, parts))
    decreases |parts|
  {
    if |parts| > 1 {
      var tail := Join(sep, parts[1..]);
      assert Join(sep, parts) == parts[0] + sep + tail;
      if k == 0 {
        var i :| 0 <= i < |parts[0]| && !IsSpaceChar(parts[0][i]);
        assert (parts[0] + sep + tail)[i] == parts[0][i];
      } else {
        JoinNotBlank(sep, parts[1..], k - 1);
        var i :| 0 <= i < |tail| && !IsSpaceChar(tail[i]);
        assert (parts[0] + sep + tail)[|parts[0]| + |sep| + i] == tail[i];
      }
    }
  }

  lemma JoinPrependToHead(sep: string, c: char, parts: seq<string>)
    requires |parts| >= 1
    ensures Join(sep, [[c] + parts[0]] + parts[1..]) == [c] + Join(sep, parts)
  {
    var ps := [[c] + parts[0]] + parts[1..];
    if |parts| > 1 {
      assert ps[1..] == parts[1..];
    }
  }

  /** Joining the parts with the separator gives back the original string. */
  lemma {:induction false} JoinSplitOn(s: string, sep: string)
    requires |sep| > 0
    ensures Join(sep, SplitOn(s, sep)) == s
    decreases |s|
  {
    if |s| < |sep| {
    } else if s[..|sep|] == sep {
      var rest := SplitOn(s[|sep|..], sep);
      JoinSplitOn(s[|sep|..], sep);
      var ps := [""] + rest;
      assert ps[1..] == rest;
      assert Join(sep, ps) == "" + sep + Join(sep, rest);
      assert s == s[..|sep|] + s[|sep|..];
    } else {
      var rest := SplitOn(s[1..], sep);
      JoinSplitOn(s[1..], sep);
      JoinPrependToHead(sep, s[0], rest);
      assert s == [s[0]] + s[1..];
    }
  }

  /** Length of the leading run of non-whitespace characters. */
  function WordLength(s: string): (n: nat)
    ensures n <= |s|
    ensures forall i :: 0 <= i < n ==> !IsSpaceChar(s[i])
    ensures n < |s| ==> IsSpaceChar(s[n])
  {
    if s == [] || IsSpaceChar(s[0]) then 0 else 1 + WordLength(s[1..])
  }

  /** A maximal run of non-whitespace characters. */
  predicate IsWord(w: string)
  {
    |w| > 0 && forall i :: 0 <= i < |w| ==> !IsSpaceChar(w[i])
  }

  /** Python's argument-less `s.split()`: the maximal whitespace-free runs,
      in order. */
  function Words(s: string): (ws: seq<string>)
    ensures forall k :: 0 <= k < |ws| ==> IsWord(ws[k])
    decreases |s|
  {
    if s == [] then []
    else if IsSpaceChar(s[0]) then Words(s[1..])
    else
      var n := WordLength(s);
      [s[..n]] + Words(s[n..])
  }

  /** `gaps[0] + ws[0] + gaps[1] + ... + ws[n - 1] + gaps[n]`. */
  function Interleave(gaps: seq<string>, ws: seq<string>): string
    requires |gaps| == |ws| + 1
    decreases |ws|
  {
    if ws == [] then gaps[0] else gaps[0] + ws[0] + Interleave(gaps[1..], ws[1..])
  }

  /** The gaps around and between the words: whitespace only, one more gap
      than words, and at least one character between consecutive words. */
  predicate Separates(gaps: seq<string>, ws: seq<string>)
  {
    && |gaps| == |ws| + 1
    && (forall k :: 0 <= k < |gaps| ==> IsBlank(gaps[k]))
    && (forall k :: 0 < k < |ws| ==> gaps[k] != [])
  }

  /** The whitespace runs of `s` that `Words` drops, in order. */
  function Gaps(s: string): (gs: seq<string>)
    ensures |gs| == |Words(s)| + 1
    decreases |s|
  {
    if s == [] then [""]
    else if IsSpaceChar(s[0]) then
      var g := Gaps(s[1..]);
      [[s[0]] + g[0]] + g[1..]
    else [""] + Gaps(s[WordLength(s)..])
  }

  /** The words, interleaved with whitespace gaps, rebuild the string. */
  lemma {:induction false} WordsWithGaps(s: string)
    ensures Separates(Gaps(s), Words(s))
    ensures Interleave(Gaps(s), Words(s)) == s
    decreases |s|
  {
    if s == [] {
    } else if IsSpaceChar(s[0]) {
      WordsWithGaps(s[1..]);
      GapsAfterSpace(s);
    } else {
      WordsWithGaps(s[WordLength(s)..]);
      GapsAfterWord(s);
    }
  }

  /** A leading whitespace character joins the first gap. */
  lemma GapsAfterSpace(s: string)
    requires s != [] && IsSpaceChar(s[0])
    requires Separates(Gaps(s[1..]), Words(s[1..])) && Interleave(Gaps(s[1..]), Words(s[1..])) == s[1..]
    ensures Separates(Gaps(s), Words(s)) && Interleave(Gaps(s), Words(s)) == s
  {
    var g := Gaps(s[1..]);
    assert Gaps(s) == [[s[0]] + g[0]] + g[1..];
    assert Words(s) == Words(s[1..]);
    SpaceBeforeGapsSeparates(Gaps(s), s[0], g, Words(s));
    SpaceBeforeGapsInterleave(Gaps(s), s[0], g, Words(s));
    assert s == [s[0]] + s[1..];
  }

  lemma SpaceBeforeGapsSeparates(gs: seq<string>, c: char, g: seq<string>, ws: seq<string>)
    requires IsSpaceChar(c) && Separates(g, ws) && gs == [[c] + g[0]] + g[1..]
    ensures Separates(gs, ws)
  {
    BlankConcat([c], g[0]);
    forall k | 1 <= k < |gs| ensures gs[k] == g[k] { }
  }

  lemma SpaceBeforeGapsInterleave(gs: seq<string>, c: char, g: seq<string>, ws: seq<string>)
    requires |g| == |ws| + 1 && gs == [[c] + g[0]] + g[1..]
    ensures Interleave(gs, ws) == [c] + Interleave(g, ws)
  {
    if ws != [] {
      assert gs[1..] == g[1..];
    }
  }

  /** A leading word is the first word, after an empty first gap. */
  lemma GapsAfterWord(s: string)
    requires s != [] && !IsSpaceChar(s[0])
    requires var t := s[WordLength(s)..];
      Separates(Gaps(t), Words(t)) && Interleave(Gaps(t), Words(t)) == t
    ensures Separates(Gaps(s), Words(s)) && Interleave(Gaps(s), Words(s)) == s
  {
    var n := WordLength(s);
    var t := s[n..];
    UnfoldAtWord(s);
    if Words(t) != [] {
      assert t != [];
      assert IsSpaceChar(t[0]) by { assert t[0] == s[n]; }
      GapsOfSpace(t);
    }
    WordBeforeGapsSeparates(Gaps(s), Words(s), s[..n], Gaps(t), Words(t));
    WordBeforeGapsInterleave(Gaps(s), Words(s), s[..n], Gaps(t), Words(t));
    PrefixThenSuffix(s, n);
  }

  lemma PrefixThenSuffix(s: string, n: nat)
    requires n <= |s|
    ensures s[..n] + s[n..] == s
  {
  }

  lemma UnfoldAtWord(s: string)
    requires s != [] && !IsSpaceChar(s[0])
    ensures Gaps(s) == [""] + Gaps(s[WordLength(s)..])
    ensures Words(s) == [s[..WordLength(s)]] + Words(s[WordLength(s)..])
  {
  }

  /** A string that starts with whitespace has a non-empty first gap. */
  lemma GapsOfSpace(t: string)
    requires t != [] && IsSpaceChar(t[0])
    ensures Gaps(t)[0] != []
  {
    var g := Gaps(t[1..]);
    assert Gaps(t) == [[t[0]] + g[0]] + g[1..];
  }

  lemma WordBeforeGapsSeparates(gs: seq<string>, vs: seq<string>, w: string, g: seq<string>, ws: seq<string>)
    requires Separates(g, ws) && (ws != [] ==> g[0] != [])
    requires gs == [""] + g && vs == [w] + ws
    ensures Separates(gs, vs)
  {
    forall k | 1 <= k < |gs| ensures gs[k] == g[k - 1] { }
  }

  lemma WordBeforeGapsInterleave(gs: seq<string>, vs: seq<string>, w: string, g: seq<string>, ws: seq<string>)
    requires |g| == |ws| + 1 && gs == [""] + g && vs == [w] + ws
    ensures Interleave(gs, vs) == w + Interleave(g, ws)
  {
    assert gs[0] == "" && vs[0] == w && gs[1..] == g && vs[1..] == ws;
    assert Interleave(gs, vs) == gs[0] + vs[0] + Interleave(gs[1..], vs[1..]);
    assert "" + w == w;
  }

  /** Whitespace in front of a string adds no word. */
  lemma {:induction false} WordsAfterBlank(b: string, x: string)
    requires IsBlank(b)
    ensures Words(b + x) == Words(x)
    decreases |b|
  {
    if b != [] {
      assert IsSpaceChar(b[0]) && IsBlank(b[1..]);
      assert (b + x)[0] == b[0] && (b + x)[1..] == b[1..] + x;
      assert Words(b + x) == Words(b[1..] + x);
      WordsAfterBlank(b[1..], x);
    } else {
      assert b + x == x;
    }
  }

  /** Any split of a string into words separated by whitespace gaps is the
      one `Words` finds, so the words are determined by the string. */
  lemma {:induction false} WordsOfInterleave(gaps: seq<string>, ws: seq<string>)
    requires Separates(gaps, ws)
    requires forall k :: 0 <= k < |ws| ==> IsWord(ws[k])
    ensures Words(Interleave(gaps, ws)) == ws
    decreases |ws|
  {
    if ws == [] {
      WordsAfterBlank(gaps[0], "");
      assert gaps[0] + "" == gaps[0];
    } else {
      var rest := Interleave(gaps[1..], ws[1..]);
      assert Interleave(gaps, ws) == gaps[0] + (ws[0] + rest);
      WordsAfterBlank(gaps[0], ws[0] + rest);
      if ws[1..] == [] {
        assert rest == gaps[1];
      } else {
        assert gaps[1] != [];
        assert rest == gaps[1] + (ws[1..][0] + Interleave(gaps[2..], ws[2..]));
      }
      WordsOfWordThenRest(ws[0], rest);
      WordsOfInterleave(gaps[1..], ws[1..]);
    }
  }

  lemma WordsOfWordThenRest(w: string, rest: string)
    requires IsWord(w)
    requires rest == [] || IsSpaceChar(rest[0])
    ensures Words(w + rest) == [w] + Words(rest)
  {
    var s := w + rest;
    WordLengthOfWord(w, rest);
    assert s[..|w|] == w;
    assert s[|w|..] == rest;
  }

  lemma {:induction false} WordLengthOfWord(w: string, rest: string)
    requires forall i :: 0 <= i < |w| ==> !IsSpaceChar(w[i])
    requires rest == [] || IsSpaceChar(rest[0])
    ensures WordLength(w + rest) == |w|
    decreases |w|
  {
    if w != [] {
      assert (w + rest)[1..] == w[1..] + rest;
      WordLengthOfWord(w[1..], rest);
    }
  }

  /** Splitting a single-space join of words gives the words back. */
  lemma {:induction false} WordsOfJoinedWords(ws: seq<string>)
    requires forall k :: 0 <= k < |ws| ==> IsWord(ws[k])
    ensures Words(Join(" ", ws)) == ws
    decreases |ws|
  {
    if |ws| == 0 {
    } else if |ws| == 1 {
      WordsOfWordThenRest(ws[0], "");
      assert ws[0] + "" == ws[0];
    } else {
      var tail := Join(" ", ws[1..]);
      WordsOfJoinedWords(ws[1..]);
      assert Join(" ", ws) == ws[0] + (" " + tail);
      WordsOfWordThenRest(ws[0], " " + tail);
      assert (" " + tail)[1..] == tail;
    }
  }
}

=== FILE: text_extraction.dfy ===
/** Batch text extraction with registry bookkeeping
    (app/tools/text_extraction.py). The PDF reader is an input: `extract`
    says what reading one registry entry's file yields. */
module TextExtraction {
  import opened Wrappers
  import opened Manifest
  import ManifestIO
  import opened Seqs

  /** The cached per-file extraction (app/models/extracted_text.py);
      the extraction timestamp is left out. */
  datatype ExtractedText = ExtractedText(fileId: string, path: string, numPages: int,
                                         pages: seq<string>, fullText: string,
                                         firstPage: string)

  /** What the PDF reader returns for one file: the text, or no text and an
      optional message. */
  datatype ExtractResult = Extracted(text: ExtractedText) | ExtractFailed(message: Option<string>)

  /** The extracted-text directory, keyed by file id. */
  type TextDir = map<string, Stored<ExtractedText>>

  /** `load_extracted_text`: `None` when `<file_id>.json` is absent or does
      not parse. */
  function LoadExtractedText(dir: TextDir, fileId: string): (r: Option<ExtractedText>)
    ensures r.Some? <==> fileId in dir && dir[fileId].Valid?
    ensures r.Some? ==> dir[fileId].content == r.value
  {
    if fileId !in dir then None else Load(dir[fileId])
  }

  /** The registry path recorded for a file's extracted text. */
  function TextArtifact(fileId: string): string
  {
    "state/extracted_text/" + fileId + ".json"
  }

  const UnknownExtractionError: string := "Unknown extraction error"

  /** `error or "Unknown extraction error"`: an absent or empty message is
      replaced by the fallback. */
  function FailureMessage(message: Option<string>): (r: string)
    ensures r != ""
    ensures message.Some? && message.value != "" ==> r == message.value
    ensures (message.None? || message.value == "") ==> r == UnknownExtractionError
  {
    if message.Some? && message.value != "" then message.value else UnknownExtractionError
  }

  /** What the loop does with one entry. */
  datatype TextOutcome = Done | Failed | Skipped

  function ClassifyEntry(f: ManifestFile, extract: ManifestFile -> ExtractResult): TextOutcome
  {
    if !IsPending(f.status) then Skipped
    else if extract(f).Extracted? then Done
    else Failed
  }

  /** The loop body's effect on one registry entry. */
  function ExtractEntry(f: ManifestFile, extract: ManifestFile -> ExtractResult): (g: ManifestFile)
    ensures !IsPending(f.status) ==> g == f
    ensures IsPending(f.status) && extract(f).Extracted? ==>
      g == f.(status := Processed, error := None,
              derived := AppendIfAbsent(f.derived, TextArtifact(f.fileId)))
    ensures IsPending(f.status) && extract(f).ExtractFailed? ==>
      g == f.(status := Error, error := Some(FailureMessage(extract(f).message)))
    // nothing but status, error and derived ever changes
    ensures g.fileId == f.fileId && g.path == f.path && g.sha256 == f.sha256
    ensures g.docType == f.docType
    ensures NoDuplicates(f.derived) ==> NoDuplicates(g.derived)
    ensures forall a :: a in f.derived ==> a in g.derived
  {
    if !IsPending(f.status) then f
    else match extract(f)
      case Extracted(_) =>
        f.(status := Processed, error := None,
           derived := AppendIfAbsent(f.derived, TextArtifact(f.fileId)))
      case ExtractFailed(msg) =>
        f.(status := Error, error := Some(FailureMessage(msg)))
  }

  /** The extracted-text files written by the loop, in registry order. */
  function WriteTexts(files: seq<ManifestFile>, extract: ManifestFile -> ExtractResult,
                      dir: TextDir): (r: TextDir)
    ensures forall i :: 0 <= i < |files| && ClassifyEntry(files[i], extract) == Done ==>
      files[i].fileId in r && r[files[i].fileId].Valid?
    ensures forall k :: k in dir ==> k in r
    ensures forall k :: k in dir && dir[k].Valid? ==> r[k].Valid?
    ensures forall k :: k in r && k !in dir ==>
      exists i :: 0 <= i < |files| && ClassifyEntry(files[i], extract) == Done && files[i].fileId == k
    decreases |files|
  {
    if files == [] then dir
    else
      var f := files[0];
      var dir1 := if ClassifyEntry(f, extract) == Done then dir[f.fileId := Valid(extract(f).text)]
                  else dir;
      var r := WriteTexts(files[1..], extract, dir1);
      assert forall i :: 1 <= i < |files| ==> files[i] == files[1..][i - 1];
      r
  }

  predicate DistinctIds(files: seq<ManifestFile>)
  {
    forall i, j :: 0 <= i < j < |files| ==> files[i].fileId != files[j].fileId
  }

  /** With distinct file ids, each successful extraction can be loaded back
      exactly as the reader produced it. */
  lemma {:induction false} WrittenTextLoadsBack(files: seq<ManifestFile>,
                                                 extract: ManifestFile -> ExtractResult,
                                                 dir: TextDir, i: nat)
    requires DistinctIds(files)
    requires i < |files| && ClassifyEntry(files[i], extract) == Done
    ensures LoadExtractedText(WriteTexts(files, extract, dir), files[i].fileId)
            == Some(extract(files[i]).text)
    decreases |files|
  {
    var f := files[0];
    var dir1 := if ClassifyEntry(f, extract) == Done then dir[f.fileId := Valid(extract(f).text)]
                else dir;
    if i == 0 {
      WriteTextsKeepsUnwritten(files[1..], extract, dir1, f.fileId);
    } else {
      assert files[1..][i - 1] == files[i];
      WrittenTextLoadsBack(files[1..], extract, dir1, i - 1);
    }
  }

  /** Keys no later entry writes keep their value. */
  lemma {:induction false} WriteTextsKeepsUnwritten(files: seq<ManifestFile>,
                                                     extract: ManifestFile -> ExtractResult,
                                                     dir: TextDir, k: string)
    requires forall j :: 0 <= j < |files| ==> files[j].fileId != k
    ensures k in dir ==> k in WriteTexts(files, extract, dir)
                         && WriteTexts(files, extract, dir)[k] == dir[k]
    decreases |files|
  {
    if files != [] {
      var f := files[0];
      var dir1 := if ClassifyEntry(f, extract) == Done then dir[f.fileId := Valid(extract(f).text)]
                  else dir;
      WriteTextsKeepsUnwritten(files[1..], extract, dir1, k);
    }
  }

  datatype Stats = Stats(processed: nat, failed: nat, skipped: nat)

  datatype Run = Run(disk: ManifestIO.Disk, texts: TextDir, stats: Stats)

  function Outcomes(files: seq<ManifestFile>, extract: ManifestFile -> ExtractResult)
    : (os: seq<TextOutcome>)
    ensures |os| == |files|
    ensures forall i :: 0 <= i < |files| ==> os[i] == ClassifyEntry(files[i], extract)
  {
    seq(|files|, i requires 0 <= i < |files| => ClassifyEntry(files[i], extract))
  }

  /** `extract_all_pending`: fails when there is no readable registry;
      otherwise every New/Stale entry is extracted, every other entry is
      skipped, the registry is saved and the three counters are returned. */
  function ExtractAllPending(disk: ManifestIO.Disk, path: string, tmp: string, texts: TextDir,
                             extract: ManifestFile -> ExtractResult): (r: Result<Run, string>)
    ensures r.Err? <==> ManifestIO.LoadManifest(disk, path).None?
    ensures r.Ok? ==>
      var before := ManifestIO.LoadManifest(disk, path).value;
      var after := ManifestIO.LoadManifest(r.value.disk, path);
      && after.Some?
      && after.value.version == before.version && after.value.lastScan == before.lastScan
      && |after.value.files| == |before.files|
      && (forall i :: 0 <= i < |before.files| ==>
            after.value.files[i] == ExtractEntry(before.files[i], extract))
      && r.value.stats.processed + r.value.stats.failed + r.value.stats.skipped == |before.files|
      && r.value.stats.processed == Count(Outcomes(before.files, extract), Done)
      && r.value.stats.failed == Count(Outcomes(before.files, extract), Failed)
      && r.value.stats.skipped == Count(Outcomes(before.files, extract), Skipped)
    // every successful extraction is written
    ensures r.Ok? ==>
      r.value.texts == WriteTexts(ManifestIO.LoadManifest(disk, path).value.files, extract, texts)
  {
    match ManifestIO.LoadManifest(disk, path)
    case None => Err("Manifest not found: " + path)
    case Some(m) =>
      var files := seq(|m.files|, i requires 0 <= i < |m.files| => ExtractEntry(m.files[i], extract));
      var os := Outcomes(m.files, extract);
      CountPartition3(os, Done, Failed, Skipped);
      var saved := m.(files := files);
      ManifestIO.SaveThenLoad(disk, path, tmp, saved);
      Ok(Run(ManifestIO.SaveManifest(disk, path, tmp, saved), WriteTexts(m.files, extract, texts),
             Stats(Count(os, Done), Count(os, Failed), Count(os, Skipped))))
  }

  /** A second run finds nothing pending: every entry the first run touched
      is now Processed or Error, so it is skipped and left as it is. */
  lemma SecondRunSkipsAll(f: ManifestFile, extract: ManifestFile -> ExtractResult,
                          extract2: ManifestFile -> ExtractResult)
    requires IsPending(f.status)
    ensures ClassifyEntry(ExtractEntry(f, extract), extract2) == Skipped
    ensures ExtractEntry(ExtractEntry(f, extract), extract2) == ExtractEntry(f, extract)
  {
  }
}

=== FILE: toc.dfy ===
/** Table-of-contents extraction from a textbook's pages
    (app/tools/toc_extract.py) and the records it produces
    (app/models/textbook_metadata.py). The language-model call is an input:
    `llm` maps the combined TOC text to a chapter list and an optional
    error. */
module Toc {
  import opened Wrappers
  import opened Text
  import opened Seqs
  import opened StableSort

  /** A chapter of the table of contents. `pageEnd` is documented as
      exclusive, but every consumer treats it as the last page of the
      chapter; sections are always empty in chapter-only extraction. */
  datatype ChapterInfo = ChapterInfo(chapter: int, title: string, pageStart: int, pageEnd: int)

  /** How the metadata's `notes` field was produced; the wording of the
      note is not modelled. */
  datatype TocNote =
    | NoTocDetected(searched: int)
    | TocExtractionFailed(tocIndices: seq<nat>, error: string)
    | TocExtracted(sourcePages: seq<int>)

  /** `TextbookMetadata` without its timestamp. */
  datatype TextbookMetadata = TextbookMetadata(fileId: string, filename: string, docType: string,
                                               tocSourcePages: seq<int>,
                                               chapters: seq<ChapterInfo>, notes: TocNote)

  /** What the chapter extractor returns: chapters, and an error message
      that takes effect only when it is non-empty. */
  datatype LlmReply = LlmReply(chapters: seq<ChapterInfo>, error: Option<string>)

  type Llm = string -> LlmReply

  const DefaultMaxTocPages: int := 30
  const PageBreak: string := "\n\n---PAGE BREAK---\n\n"

  // ---------------------------------------------------------------
  // Page detection (`_find_toc_pages`)
  // ---------------------------------------------------------------

  /** An ASCII decimal digit. The patterns' `\d` also matches the other
      Unicode decimal digits, which this model does not recognise. */
  predicate IsDigit(ch: char)
  {
    '0' <= ch <= '9'
  }

  /** `s[i..j]` is a non-empty run of whitespace (`\s+`). */
  predicate SpaceRun(s: string, i: int, j: int)
  {
    0 <= i < j <= |s| && IsBlank(s[i..j])
  }

  /** `re.search(r"table\s+of\s+contents", s)`. */
  predicate MatchesTableOfContents(s: string)
  {
    exists i, j, k | 0 <= i && i + 5 < j && j + 2 < k <= |s| ::
      OccursAt(s, "table", i) && SpaceRun(s, i + 5, j) && OccursAt(s, "of", j)
      && SpaceRun(s, j + 2, k) && OccursAt(s, "contents", k)
  }

  /** `re.search(r"chapter\s+\d+", s)`. */
  predicate MatchesChapterNumber(s: string)
  {
    exists i, j | 0 <= i && i + 7 < j < |s| ::
      OccursAt(s, "chapter", i) && SpaceRun(s, i + 7, j) && IsDigit(s[j])
  }

  predicate IsUpperRomanDigit(ch: char)
  {
    ch == 'I' || ch == 'V' || ch == 'X'
  }

  /** `re.search(r"part\s+[IVX]+", s)`: case-sensitive, so only upper-case
      numerals match. */
  predicate MatchesPartNumeral(s: string)
  {
    exists i, j | 0 <= i && i + 4 < j < |s| ::
      OccursAt(s, "part", i) && SpaceRun(s, i + 4, j) && IsUpperRomanDigit(s[j])
  }

  /** Any of the four keyword patterns. */
  predicate HasTocKeyword(s: string)
  {
    MatchesTableOfContents(s) || Contains(s, "contents") || MatchesChapterNumber(s)
    || MatchesPartNumeral(s)
  }

  /** `re.search(r'\d+\s*$', s, re.MULTILINE)`: some digit is followed only
      by whitespace up to the end of a line or of the text. */
  predicate HasPageNumberLine(s: string)
  {
    exists i, j | 0 <= i < j <= |s| ::
      IsDigit(s[i]) && IsBlank(s[i + 1..j]) && (j == |s| || s[j] == '\n')
  }

  /** Three full stops or the ellipsis character. */
  predicate HasDotLeaders(s: string)
  {
    Contains(s, "...") || Contains(s, "\U{2026}")
  }

  /** The keyword patterns see the lowered page; the other two checks see
      the page as it is. */
  predicate IsTocPage(page: string)
  {
    HasTocKeyword(Lower(page)) || (HasPageNumberLine(page) && HasDotLeaders(page))
  }

  predicate StrictlyAscending(xs: seq<nat>)
  {
    forall a, b :: 0 <= a < b < |xs| ==> xs[a] < xs[b]
  }

  /** `_find_toc_pages`: the indices of the pages that look like a table of
      contents, ascending. */
  function FindTocPages(pages: seq<string>): (r: seq<nat>)
    ensures StrictlyAscending(r)
    ensures forall k :: 0 <= k < |r| ==> r[k] < |pages|
    ensures forall i :: 0 <= i < |pages| ==> (i in r <==> IsTocPage(pages[i]))
    decreases |pages|
  {
    if pages == [] then []
    else
      var n := |pages| - 1;
      var rest := FindTocPages(pages[..n]);
      assert forall i :: 0 <= i < n ==> pages[..n][i] == pages[i];
      if IsTocPage(pages[n]) then rest + [n] else rest
  }

  /** A lowered page contains no upper-case letter, so the part-numeral
      pattern can never fire on it: only upper-case `I`, `V`, `X` match. */
  lemma PartPatternNeverMatchesLowered(page: string)
    ensures !MatchesPartNumeral(Lower(page))
  {
    var s := Lower(page);
    forall j | 0 <= j < |s|
      ensures !IsUpperRomanDigit(s[j])
    {
    }
  }

  /** The `table of contents` pattern adds nothing: every match of it
      contains `contents`. */
  lemma TableOfContentsImpliesContents(s: string)
    requires MatchesTableOfContents(s)
    ensures Contains(s, "contents")
  {
    var i, j, k :| 0 <= i && i + 5 < j && j + 2 < k <= |s| &&
      OccursAt(s, "table", i) && SpaceRun(s, i + 5, j) && OccursAt(s, "of", j)
      && SpaceRun(s, j + 2, k) && OccursAt(s, "contents", k);
    assert OccursAt(s, "contents", k);
  }

  /** So a page is taken exactly when its lowered text mentions `contents`
      or `chapter <n>`, or it has a numbered line and dot leaders. */
  lemma TocPageCharacterised(page: string)
    ensures IsTocPage(page) <==>
      Contains(Lower(page), "contents") || MatchesChapterNumber(Lower(page))
      || (HasPageNumberLine(page) && HasDotLeaders(page))
  {
    PartPatternNeverMatchesLowered(page);
    if MatchesTableOfContents(Lower(page)) {
      TableOfContentsImpliesContents(Lower(page));
    }
  }

  // ---------------------------------------------------------------
  // Chapter post-processing (`_validate_and_fix_chapters`)
  // ---------------------------------------------------------------

  function ChapterNumber(c: ChapterInfo): int
  {
    c.chapter
  }

  predicate SortedByChapter(cs: seq<ChapterInfo>)
  {
    SortedBy(ChapterNumber, cs)
  }

  /** `chapters.sort(key=lambda c: c.chapter)`, Python's stable sort. */
  function SortByChapter(cs: seq<ChapterInfo>): (r: seq<ChapterInfo>)
    ensures SortedByChapter(r)
    ensures |r| == |cs|
    // none lost or added
    ensures multiset(r) == multiset(cs)
  {
    SortByPermutes(ChapterNumber, cs);
    SortBy(ChapterNumber, cs)
  }

  /** The page-end repair of one chapter at position `i` of the sorted list. */
  function FixPageEnd(sorted: seq<ChapterInfo>, i: nat): (c: ChapterInfo)
    requires i < |sorted|
    ensures c.chapter == sorted[i].chapter && c.title == sorted[i].title
    ensures c.pageStart == sorted[i].pageStart
    ensures sorted[i].pageStart < sorted[i].pageEnd ==> c == sorted[i]
    ensures sorted[i].pageStart >= sorted[i].pageEnd && i + 1 < |sorted| ==>
      c.pageEnd == sorted[i + 1].pageStart - 1
    ensures sorted[i].pageStart >= sorted[i].pageEnd && i + 1 == |sorted| ==>
      c.pageEnd == c.pageStart + 50
  {
    var ch := sorted[i];
    if ch.pageStart >= ch.pageEnd then
      if i + 1 < |sorted| then ch.(pageEnd := sorted[i + 1].pageStart - 1)
      else ch.(pageEnd := ch.pageStart + 50)
    else ch
  }

  /** `_validate_and_fix_chapters`: sort by number, then repair every
      chapter whose start is not before its end. */
  function ValidateAndFix(cs: seq<ChapterInfo>): (r: seq<ChapterInfo>)
    ensures |r| == |cs|
    ensures cs == [] ==> r == []
    ensures SortedByChapter(r)
    ensures forall i :: 0 <= i < |r| ==> r[i] == FixPageEnd(SortByChapter(cs), i)
  {
    var sorted := SortByChapter(cs);
    seq(|sorted|, i requires 0 <= i < |sorted| => FixPageEnd(sorted, i))
  }

  /** The repair only ever touches end pages: every chapter that went in
      comes out with its number, title and start page, and every chapter
      that comes out is the sorted list's chapter at its position, which
      went in. */
  lemma ValidateAndFixKeepsChapters(cs: seq<ChapterInfo>)
    ensures forall c :: c in cs ==>
      exists i :: 0 <= i < |ValidateAndFix(cs)| && SameHeading(ValidateAndFix(cs)[i], c)
    ensures forall i :: 0 <= i < |ValidateAndFix(cs)| ==>
      SortByChapter(cs)[i] in cs && SameHeading(ValidateAndFix(cs)[i], SortByChapter(cs)[i])
  {
    var sorted := SortByChapter(cs);
    var r := ValidateAndFix(cs);
    forall c | c in cs
      ensures exists i :: 0 <= i < |r| && SameHeading(r[i], c)
    {
      assert c in multiset(sorted);
      var i :| 0 <= i < |sorted| && sorted[i] == c;
      assert SameHeading(r[i], c);
    }
    forall i | 0 <= i < |r|
      ensures sorted[i] in cs
    {
      assert sorted[i] in multiset(cs);
    }
  }

  /** Same chapter number, title and start page. */
  predicate SameHeading(a: ChapterInfo, b: ChapterInfo)
  {
    a.chapter == b.chapter && a.title == b.title && a.pageStart == b.pageStart
  }

  /** What the repair does guarantee: a repaired last chapter ends after it
      starts, and a repaired inner chapter ends just before its successor
      starts. */
  lemma ValidateAndFixGuarantee(cs: seq<ChapterInfo>, i: nat)
    requires i < |cs|
    ensures var r := ValidateAndFix(cs);
      (i + 1 == |r| ==> r[i].pageStart < r[i].pageEnd)
      && (i + 1 < |r| ==> r[i].pageStart < r[i].pageEnd || r[i].pageEnd == r[i + 1].pageStart - 1)
  {
  }

  /** The promise of non-overlapping ranges with start before end is not
      kept: a chapter whose successor starts earlier than it is repaired to
      end before it starts. */
  lemma ValidateAndFixCanInvertRange()
    ensures var r := ValidateAndFix([ChapterInfo(1, "A", 10, 5), ChapterInfo(2, "B", 3, 20)]);
      r[0].pageStart == 10 && r[0].pageEnd == 2
  {
    var cs := [ChapterInfo(1, "A", 10, 5), ChapterInfo(2, "B", 3, 20)];
    SortBySorted(ChapterNumber, cs);
  }

  // ---------------------------------------------------------------
  // `extract_toc`
  // ---------------------------------------------------------------

  /** `[p + 1 for p in indices]`: 1-based page numbers. */
  function OneBased(indices: seq<nat>): (r: seq<int>)
    ensures |r| == |indices|
    ensures forall k :: 0 <= k < |r| ==> r[k] == indices[k] + 1 && r[k] >= 1
  {
    seq(|indices|, k requires 0 <= k < |indices| => indices[k] + 1)
  }

  /** Page number `p` is reported exactly when index `p - 1` was found. */
  lemma OneBasedHas(indices: seq<nat>, p: int)
    requires p >= 1
    ensures p in OneBased(indices) <==> (p - 1) as nat in indices
  {
    var r := OneBased(indices);
    if p in r {
      var k :| 0 <= k < |r| && r[k] == p;
      assert indices[k] == p - 1;
    }
    if (p - 1) as nat in indices {
      var k :| 0 <= k < |indices| && indices[k] == p - 1;
      assert r[k] == p;
    }
  }

  /** The detected pages joined with the page-break marker. */
  function TocText(candidates: seq<string>, indices: seq<nat>): string
    requires forall k :: 0 <= k < |indices| ==> indices[k] < |candidates|
  {
    Join(PageBreak, seq(|indices|, k requires 0 <= k < |indices| => candidates[indices[k]]))
  }

  /** Python truthiness of the optional error. */
  predicate IsError(e: Option<string>)
  {
    e.Some? && e.value != ""
  }

  /** The pages searched: the first `min(maxTocPages, |pages|)`, with
      Python's slice semantics for a negative bound. */
  function Candidates(pages: seq<string>, maxTocPages: int): (c: seq<string>)
    ensures |c| <= |pages| && c == pages[..|c|]
    ensures 0 <= maxTocPages ==> |c| == if maxTocPages < |pages| then maxTocPages else |pages|
  {
    pages[..SliceBound(if maxTocPages < |pages| then maxTocPages else |pages|, |pages|)]
  }

  /** `extract_toc`: always returns metadata; the error is present exactly
      when the chapter extractor reported one. */
  function ExtractToc(fileId: string, pages: seq<string>, filename: string, maxTocPages: int,
                      llm: Llm): (r: (TextbookMetadata, Option<string>))
    ensures r.0.fileId == fileId && r.0.filename == filename && r.0.docType == "textbook"
    // no TOC page among the candidates: no chapters, no error
    ensures FindTocPages(Candidates(pages, maxTocPages)) == [] ==>
      r.0.tocSourcePages == [] && r.0.chapters == [] && r.1 == None
    // a TOC was found: its pages are reported 1-based
    ensures FindTocPages(Candidates(pages, maxTocPages)) != [] ==>
      r.0.tocSourcePages == OneBased(FindTocPages(Candidates(pages, maxTocPages)))
    ensures forall k :: 0 <= k < |r.0.tocSourcePages| ==>
      1 <= r.0.tocSourcePages[k] <= |Candidates(pages, maxTocPages)|
    // page p (1-based) is reported exactly when it looks like a TOC page
    ensures forall p :: 1 <= p <= |Candidates(pages, maxTocPages)| ==>
      (p in r.0.tocSourcePages <==> IsTocPage(Candidates(pages, maxTocPages)[p - 1]))
    // a TOC was found: the chapters are the extractor's, validated, or its error
    ensures var cands := Candidates(pages, maxTocPages);
      var found := FindTocPages(cands);
      found != [] ==>
        var reply := llm(TocText(cands, found));
        && (IsError(reply.error) ==> r.1 == reply.error && r.0.chapters == [])
        && (!IsError(reply.error) ==> r.1 == None && r.0.chapters == ValidateAndFix(reply.chapters))
    // an extractor error empties the chapter list and is passed on
    ensures r.1.Some? ==> r.0.chapters == [] && r.1.value != ""
    ensures r.1.None? && r.0.chapters != [] ==> SortedByChapter(r.0.chapters)
  {
    var cands := Candidates(pages, maxTocPages);
    var found := FindTocPages(cands);
    TocPagesReported(cands, found);
    if found == [] then
      (TextbookMetadata(fileId, filename, "textbook", [], [], NoTocDetected(maxTocPages)), None)
    else
      var reply := llm(TocText(cands, found));
      if IsError(reply.error) then
        (TextbookMetadata(fileId, filename, "textbook", OneBased(found), [],
                          TocExtractionFailed(found, reply.error.value)), reply.error)
      else
        (TextbookMetadata(fileId, filename, "textbook", OneBased(found),
                          ValidateAndFix(reply.chapters), TocExtracted(OneBased(found))), None)
  }

  /** Whatever page indices a detector reports, shifting them to 1-based
      numbers keeps "page `p` is reported exactly when it is a TOC page". */
  lemma TocPagesReported(cands: seq<string>, found: seq<nat>)
    requires forall i :: 0 <= i < |cands| ==> (i in found <==> IsTocPage(cands[i]))
    ensures forall p :: 1 <= p <= |cands| ==> (p in OneBased(found) <==> IsTocPage(cands[p - 1]))
  {
    forall p | 1 <= p <= |cands|
      ensures p in OneBased(found) <==> IsTocPage(cands[p - 1])
    {
      OneBasedHas(found, p);
      assert (p - 1) as nat in found <==> IsTocPage(cands[p - 1]);
    }
  }

  /** When a TOC is found and the extractor succeeds, every chapter it
      returned is in the metadata with its number, title and start page,
      and each chapter there is, in sorted position, one it returned. */
  lemma ExtractTocKeepsReplyChapters(fileId: string, pages: seq<string>, filename: string,
                                     maxTocPages: int, llm: Llm)
    requires FindTocPages(Candidates(pages, maxTocPages)) != []
    requires !IsError(llm(TocText(Candidates(pages, maxTocPages), FindTocPages(Candidates(pages, maxTocPages)))).error)
    ensures var reply := llm(TocText(Candidates(pages, maxTocPages), FindTocPages(Candidates(pages, maxTocPages))));
      var chapters := ExtractToc(fileId, pages, filename, maxTocPages, llm).0.chapters;
      && |chapters| == |reply.chapters|
      && (forall c :: c in reply.chapters ==>
            exists i :: 0 <= i < |chapters| && SameHeading(chapters[i], c))
      && (forall i :: 0 <= i < |chapters| ==>
            SortByChapter(reply.chapters)[i] in reply.chapters
            && SameHeading(chapters[i], SortByChapter(reply.chapters)[i]))
  {
    var cands := Candidates(pages, maxTocPages);
    var reply := llm(TocText(cands, FindTocPages(cands)));
    var chapters := ExtractToc(fileId, pages, filename, maxTocPages, llm).0.chapters;
    ValidateAndFixKeepsChapters(reply.chapters);
    assert chapters == ValidateAndFix(reply.chapters);
  }

  /** Pages after the search window never influence the result. */
  lemma ExtractTocIgnoresLaterPages(fileId: string, pages: seq<string>, more: seq<string>,
                                    filename: string, llm: Llm)
    requires |pages| >= DefaultMaxTocPages
    ensures ExtractToc(fileId, pages + more, filename, DefaultMaxTocPages, llm)
            == ExtractToc(fileId, pages, filename, DefaultMaxTocPages, llm)
  {
    assert Candidates(pages + more, DefaultMaxTocPages) == Candidates(pages, DefaultMaxTocPages);
  }
}

=== FILE: toc_extraction.dfy ===
/** Batch and single-file table-of-contents extraction with registry
    bookkeeping (app/tools/toc_extraction.py). */
module TocExtraction {
  import opened Wrappers
  import opened Manifest
  import ManifestIO
  import TextExtraction
  import opened Toc
  import opened Seqs

  /** The textbook-metadata directory, keyed by file id. */
  type MetadataDir = map<string, Stored<TextbookMetadata>>

  const Textbook: string := "textbook"

  /** The registry path recorded for a file's textbook metadata. */
  function TocArtifact(fileId: string): string
  {
    "state/textbook_metadata/" + fileId + ".json"
  }

  /** A saved metadata file that records at least one chapter. */
  predicate HasSavedChapters(dir: MetadataDir, fileId: string)
  {
    fileId in dir && dir[fileId].Valid? && dir[fileId].content.chapters != []
  }

  datatype TocOutcome = Extracted | Skipped | Failed

  /** One loop iteration's result: the entry, the metadata directory, the
      outcome and the number of chapters it adds to the total. */
  datatype Step = Step(entry: ManifestFile, dir: MetadataDir, outcome: TocOutcome, chapters: nat)

  /** The loop body of `extract_all_textbook_tocs` for one entry. */
  function TocEntry(f: ManifestFile, texts: TextExtraction.TextDir, dir: MetadataDir,
                    force: bool, llm: Llm): (s: Step)
    // not a processed textbook: skipped, nothing changes
    ensures f.docType != Textbook || f.status != Processed ==>
      s == Step(f, dir, Skipped, 0)
    // already extracted with chapters and not forced: skipped, nothing changes
    ensures TocArtifact(f.fileId) in f.derived && !force && HasSavedChapters(dir, f.fileId) ==>
      s == Step(f, dir, Skipped, 0)
    // no extracted text: failed, but a forced run has already dropped the artifact
    ensures f.docType == Textbook && f.status == Processed
            && (force || TocArtifact(f.fileId) !in f.derived || !HasSavedChapters(dir, f.fileId))
            && TextExtraction.LoadExtractedText(texts, f.fileId).None? ==>
      s.outcome == Failed && s.dir == dir
      && s.entry == (if force then f.(derived := RemoveFirst(f.derived, TocArtifact(f.fileId))) else f)
    // otherwise the metadata is always produced, saved and recorded once
    ensures s.outcome == Extracted ==>
      var t := TextExtraction.LoadExtractedText(texts, f.fileId).value;
      var md := ExtractToc(f.fileId, t.pages, f.filename, DefaultMaxTocPages, llm).0;
      && s.dir == dir[f.fileId := Valid(md)]
      && s.chapters == |md.chapters|
      && TocArtifact(f.fileId) in s.entry.derived
    // an eligible entry with extracted text is always extracted, and only
    // its artifact is added to the (possibly forced-clean) derived list
    ensures f.docType == Textbook && f.status == Processed
            && (force || TocArtifact(f.fileId) !in f.derived || !HasSavedChapters(dir, f.fileId))
            && TextExtraction.LoadExtractedText(texts, f.fileId).Some? ==>
      s.outcome == Extracted
      && s.entry == f.(derived := AppendIfAbsent(if force then RemoveFirst(f.derived, TocArtifact(f.fileId))
                                                 else f.derived, TocArtifact(f.fileId)))
    ensures s.outcome != Extracted ==> s.chapters == 0
    ensures s.outcome == Failed ==>
      TextExtraction.LoadExtractedText(texts, f.fileId).None?
    // the stage never touches status or error, and never duplicates an artifact
    ensures s.entry.status == f.status && s.entry.error == f.error && s.entry.fileId == f.fileId
    ensures NoDuplicates(f.derived) ==> NoDuplicates(s.entry.derived)
  {
    var artifact := TocArtifact(f.fileId);
    if f.docType != Textbook || f.status != Processed then Step(f, dir, Skipped, 0)
    else if artifact in f.derived && !force && HasSavedChapters(dir, f.fileId) then
      Step(f, dir, Skipped, 0)
    else
      var f1 := if force && artifact in f.derived then f.(derived := RemoveFirst(f.derived, artifact))
                else f;
      match TextExtraction.LoadExtractedText(texts, f.fileId)
      case None => Step(f1, dir, Failed, 0)
      case Some(t) =>
        var (md, _) := ExtractToc(f.fileId, t.pages, f.filename, DefaultMaxTocPages, llm);
        Step(f1.(derived := AppendIfAbsent(f1.derived, artifact)), dir[f.fileId := Valid(md)],
             Extracted, |md.chapters|)
  }

  /** A forced re-extraction leaves the artifact recorded exactly once. */
  lemma ForcedRunRecordsArtifactOnce(f: ManifestFile, texts: TextExtraction.TextDir,
                                     dir: MetadataDir, llm: Llm)
    requires NoDuplicates(f.derived)
    requires TocEntry(f, texts, dir, true, llm).outcome == Extracted
    ensures var d := TocEntry(f, texts, dir, true, llm).entry.derived;
      TocArtifact(f.fileId) in d && NoDuplicates(d) && |d| == |f.derived| + (if TocArtifact(f.fileId) in f.derived then 0 else 1)
  {
  }

  /** A failing chapter extractor does not make the entry fail: the metadata
      is saved with no chapters and counted as extracted, so the next
      unforced run tries again. */
  lemma ExtractorErrorCountsAsExtracted(f: ManifestFile, texts: TextExtraction.TextDir,
                                        dir: MetadataDir, force: bool, llm: Llm)
    requires f.docType == Textbook && f.status == Processed
    requires force || TocArtifact(f.fileId) !in f.derived || !HasSavedChapters(dir, f.fileId)
    requires TextExtraction.LoadExtractedText(texts, f.fileId).Some?
    requires IsError(llm(TocText(
      Candidates(TextExtraction.LoadExtractedText(texts, f.fileId).value.pages, DefaultMaxTocPages),
      FindTocPages(Candidates(TextExtraction.LoadExtractedText(texts, f.fileId).value.pages,
                              DefaultMaxTocPages)))).error)
    requires FindTocPages(Candidates(TextExtraction.LoadExtractedText(texts, f.fileId).value.pages,
                                     DefaultMaxTocPages)) != []
    ensures var s := TocEntry(f, texts, dir, force, llm);
      s.outcome == Extracted && s.chapters == 0 && !HasSavedChapters(s.dir, f.fileId)
      && TocEntry(s.entry, texts, s.dir, false, llm).outcome != Skipped
  {
  }

  /** An extraction that found chapters is skipped by every later unforced
      run, whatever the extractor would now say. */
  lemma SuccessfulEntrySkippedLater(f: ManifestFile, texts: TextExtraction.TextDir,
                                    dir: MetadataDir, force: bool, llm: Llm,
                                    texts2: TextExtraction.TextDir, llm2: Llm)
    requires TocEntry(f, texts, dir, force, llm).outcome == Extracted
    requires TocEntry(f, texts, dir, force, llm).chapters > 0
    ensures var s := TocEntry(f, texts, dir, force, llm);
      TocEntry(s.entry, texts2, s.dir, false, llm2) == Step(s.entry, s.dir, Skipped, 0)
  {
  }

  datatype Stats = Stats(extracted: nat, skipped: nat, failed: nat, totalChapters: nat)

  datatype Loop = Loop(files: seq<ManifestFile>, dir: MetadataDir, stats: Stats)

  /** The loop over the registry, threading the metadata directory. */
  function TocLoop(files: seq<ManifestFile>, texts: TextExtraction.TextDir, dir: MetadataDir,
                   force: bool, llm: Llm): (r: Loop)
    ensures |r.files| == |files|
    ensures r.stats.extracted + r.stats.skipped + r.stats.failed == |files|
    ensures r.stats.extracted == 0 ==> r.stats.totalChapters == 0
    decreases |files|
  {
    if files == [] then Loop([], dir, Stats(0, 0, 0, 0))
    else
      var s := TocEntry(files[0], texts, dir, force, llm);
      var rest := TocLoop(files[1..], texts, s.dir, force, llm);
      var out := [s.entry] + rest.files;
      var st := rest.stats;
      var stats := match s.outcome
        case Extracted => st.(extracted := st.extracted + 1, totalChapters := st.totalChapters + s.chapters)
        case Skipped => st.(skipped := st.skipped + 1)
        case Failed => st.(failed := st.failed + 1);
      Loop(out, rest.dir, stats)
  }

  /** The step the loop takes at entry `i`. */
  function StepAt(files: seq<ManifestFile>, texts: TextExtraction.TextDir, dir: MetadataDir,
                  force: bool, llm: Llm, i: nat): Step
    requires i < |files|
  {
    TocEntry(files[i], texts, DirAt(files, texts, dir, force, llm, i), force, llm)
  }

  /** Every step the loop takes, in registry order. */
  function StepsOf(files: seq<ManifestFile>, texts: TextExtraction.TextDir, dir: MetadataDir,
                   force: bool, llm: Llm): (ss: seq<Step>)
    ensures |ss| == |files|
    decreases |files|
  {
    if files == [] then []
    else
      var s := TocEntry(files[0], texts, dir, force, llm);
      [s] + StepsOf(files[1..], texts, s.dir, force, llm)
  }

  /** The outcome of every step. */
  function Outcomes(ss: seq<Step>): (os: seq<TocOutcome>)
    ensures |os| == |ss| && forall k :: 0 <= k < |ss| ==> os[k] == ss[k].outcome
    decreases |ss|
  {
    if ss == [] then [] else [ss[0].outcome] + Outcomes(ss[1..])
  }

  /** The chapter count of every step. */
  function Chapters(ss: seq<Step>): (cs: seq<nat>)
    ensures |cs| == |ss| && forall k :: 0 <= k < |ss| ==> cs[k] == ss[k].chapters
    decreases |ss|
  {
    if ss == [] then [] else [ss[0].chapters] + Chapters(ss[1..])
  }

  function Sum(xs: seq<nat>): nat
    decreases |xs|
  {
    if xs == [] then 0 else xs[0] + Sum(xs[1..])
  }

  /** Position `i` of the step list is the step the loop takes at entry
      `i`, with the directory as the earlier steps left it. */
  lemma {:induction false} StepsAtEntry(files: seq<ManifestFile>, texts: TextExtraction.TextDir,
                                        dir: MetadataDir, force: bool, llm: Llm, i: nat)
    requires i < |files|
    ensures StepsOf(files, texts, dir, force, llm)[i] == StepAt(files, texts, dir, force, llm, i)
    decreases i
  {
    if i > 0 {
      var s := TocEntry(files[0], texts, dir, force, llm);
      StepsAtEntry(files[1..], texts, s.dir, force, llm, i - 1);
      assert files[1..][i - 1] == files[i];
    }
  }

  /** The counter the loop keeps for outcome `o`. */
  function Counter(st: Stats, o: TocOutcome): nat
  {
    match o
    case Extracted => st.extracted
    case Skipped => st.skipped
    case Failed => st.failed
  }

  /** The loop's counters: each counts the steps with its outcome. */
  lemma {:induction false} TocLoopCounts(files: seq<ManifestFile>, texts: TextExtraction.TextDir,
                                         dir: MetadataDir, force: bool, llm: Llm, o: TocOutcome)
    ensures Counter(TocLoop(files, texts, dir, force, llm).stats, o)
            == Count(Outcomes(StepsOf(files, texts, dir, force, llm)), o)
    decreases |files|
  {
    if files != [] {
      var s := TocEntry(files[0], texts, dir, force, llm);
      TocLoopCounts(files[1..], texts, s.dir, force, llm, o);
      var rest := StepsOf(files[1..], texts, s.dir, force, llm);
      assert ([s] + rest)[1..] == rest;
      CountPrepend(Outcomes(rest), s.outcome, o);
    }
  }

  /** The chapter total adds up the chapters of every step (only extracted
      steps have any). */
  lemma {:induction false} TocLoopChapters(files: seq<ManifestFile>, texts: TextExtraction.TextDir,
                                           dir: MetadataDir, force: bool, llm: Llm)
    ensures TocLoop(files, texts, dir, force, llm).stats.totalChapters
            == Sum(Chapters(StepsOf(files, texts, dir, force, llm)))
    decreases |files|
  {
    if files != [] {
      var s := TocEntry(files[0], texts, dir, force, llm);
      TocLoopChapters(files[1..], texts, s.dir, force, llm);
      var rest := StepsOf(files[1..], texts, s.dir, force, llm);
      assert ([s] + rest)[1..] == rest;
    }
  }

  /** The metadata directory as the loop finds it on reaching entry `i`. */
  function DirAt(files: seq<ManifestFile>, texts: TextExtraction.TextDir, dir: MetadataDir,
                 force: bool, llm: Llm, i: nat): MetadataDir
    requires i <= |files|
    decreases i
  {
    if i == 0 then dir
    else DirAt(files[1..], texts, TocEntry(files[0], texts, dir, force, llm).dir, force, llm, i - 1)
  }

  /** Entry `i` of the saved registry is the loop body applied to entry `i`
      of the loaded one, with the directory as earlier iterations left it. */
  lemma {:induction false} TocLoopEntry(files: seq<ManifestFile>, texts: TextExtraction.TextDir,
                                        dir: MetadataDir, force: bool, llm: Llm, i: nat)
    requires i < |files|
    ensures TocLoop(files, texts, dir, force, llm).files[i]
            == TocEntry(files[i], texts, DirAt(files, texts, dir, force, llm, i), force, llm).entry
    decreases i
  {
    if i > 0 {
      var s := TocEntry(files[0], texts, dir, force, llm);
      TocLoopEntry(files[1..], texts, s.dir, force, llm, i - 1);
      assert files[1..][i - 1] == files[i];
    }
  }

  /** Consequences for every entry: entries that are not processed
      textbooks come through unchanged, status, error and id are never
      touched, and `derived` stays free of duplicates. */
  lemma TocLoopPreserves(files: seq<ManifestFile>, texts: TextExtraction.TextDir,
                         dir: MetadataDir, force: bool, llm: Llm, i: nat)
    requires i < |files|
    ensures var g := TocLoop(files, texts, dir, force, llm).files[i];
      && (files[i].docType != Textbook || files[i].status != Processed ==> g == files[i])
      && g.status == files[i].status && g.error == files[i].error && g.fileId == files[i].fileId
      && (NoDuplicates(files[i].derived) ==> NoDuplicates(g.derived))
  {
    TocLoopEntry(files, texts, dir, force, llm, i);
  }

  datatype Run = Run(disk: ManifestIO.Disk, dir: MetadataDir, stats: Stats)

  /** `extract_all_textbook_tocs`: fails when there is no readable registry;
      otherwise runs the loop and saves the updated registry. */
  function ExtractAllTextbookTocs(disk: ManifestIO.Disk, path: string, tmp: string,
                                  texts: TextExtraction.TextDir, dir: MetadataDir,
                                  force: bool, llm: Llm): (r: Result<Run, string>)
    ensures r.Err? <==> ManifestIO.LoadManifest(disk, path).None?
    ensures r.Ok? ==>
      var before := ManifestIO.LoadManifest(disk, path).value;
      var after := ManifestIO.LoadManifest(r.value.disk, path);
      && after.Some? && after.value.version == before.version
      && |after.value.files| == |before.files|
      && after.value.files == TocLoop(before.files, texts, dir, force, llm).files
      && r.value.stats.extracted + r.value.stats.skipped + r.value.stats.failed == |before.files|
    // the registry saved is the one loaded, header included, with the loop's entries
    ensures r.Ok? ==>
      var before := ManifestIO.LoadManifest(disk, path).value;
      ManifestIO.LoadManifest(r.value.disk, path)
        == Some(before.(files := TocLoop(before.files, texts, dir, force, llm).files))
    // the reported counters and the metadata written are the loop's
    ensures r.Ok? ==>
      var before := ManifestIO.LoadManifest(disk, path).value;
      && r.value.stats == TocLoop(before.files, texts, dir, force, llm).stats
      && r.value.dir == TocLoop(before.files, texts, dir, force, llm).dir
  {
    match ManifestIO.LoadManifest(disk, path)
    case None => Err("Manifest not found: " + path)
    case Some(m) =>
      var loop := TocLoop(m.files, texts, dir, force, llm);
      var saved := m.(files := loop.files);
      ManifestIO.SaveThenLoad(disk, path, tmp, saved);
      Ok(Run(ManifestIO.SaveManifest(disk, path, tmp, saved), loop.dir, loop.stats))
  }

  /** The least page start of a non-empty chapter list. */
  function MinStart(cs: seq<ChapterInfo>): (m: int)
    requires cs != []
    ensures exists k :: 0 <= k < |cs| && cs[k].pageStart == m
    ensures forall k :: 0 <= k < |cs| ==> m <= cs[k].pageStart
    decreases |cs|
  {
    if |cs| == 1 then cs[0].pageStart
    else
      var m := MinStart(cs[1..]);
      assert forall k :: 1 <= k < |cs| ==> cs[k] == cs[1..][k - 1];
      if cs[0].pageStart <= m then cs[0].pageStart else m
  }

  /** The greatest page end of a non-empty chapter list. */
  function MaxEnd(cs: seq<ChapterInfo>): (m: int)
    requires cs != []
    ensures exists k :: 0 <= k < |cs| && cs[k].pageEnd == m
    ensures forall k :: 0 <= k < |cs| ==> cs[k].pageEnd <= m
    decreases |cs|
  {
    if |cs| == 1 then cs[0].pageEnd
    else
      var m := MaxEnd(cs[1..]);
      assert forall k :: 1 <= k < |cs| ==> cs[k] == cs[1..][k - 1];
      if cs[0].pageEnd >= m then cs[0].pageEnd else m
  }

  /** The summary `extract_single_textbook_toc` returns. */
  datatype Summary = Summary(filename: string, tocPages: seq<int>, numChapters: nat,
                             firstPage: Option<int>, lastPage: Option<int>, notes: TocNote)

  /** The summary of freshly extracted metadata: the TOC pages, the chapter
      count and the least start and greatest end page over the chapters,
      both attained and both absent exactly when there are no chapters. */
  function Summarise(md: TextbookMetadata, filename: string): (sm: Summary)
    ensures sm.filename == filename && sm.tocPages == md.tocSourcePages && sm.notes == md.notes
    ensures sm.numChapters == |md.chapters|
    ensures (sm.firstPage.Some? <==> md.chapters != []) && (sm.lastPage.Some? <==> md.chapters != [])
    ensures sm.firstPage.Some? ==>
      (forall k :: 0 <= k < |md.chapters| ==> sm.firstPage.value <= md.chapters[k].pageStart)
      && exists k :: 0 <= k < |md.chapters| && md.chapters[k].pageStart == sm.firstPage.value
    ensures sm.lastPage.Some? ==>
      (forall k :: 0 <= k < |md.chapters| ==> md.chapters[k].pageEnd <= sm.lastPage.value)
      && exists k :: 0 <= k < |md.chapters| && md.chapters[k].pageEnd == sm.lastPage.value
  {
    var first := if md.chapters == [] then None else Some(MinStart(md.chapters));
    var last := if md.chapters == [] then None else Some(MaxEnd(md.chapters));
    Summary(filename, md.tocSourcePages, |md.chapters|, first, last, md.notes)
  }

  datatype Single = Single(disk: ManifestIO.Disk, dir: MetadataDir, summary: Option<Summary>)

  /** `extract_single_textbook_toc`: fails when there is no readable
      registry; answers `None` for an unknown id, a non-textbook, an
      unprocessed entry or missing text; otherwise saves the metadata,
      records the artifact and summarises. */
  function ExtractSingleTextbookToc(fileId: string, disk: ManifestIO.Disk, path: string, tmp: string,
                                    texts: TextExtraction.TextDir, dir: MetadataDir, llm: Llm)
    : (r: Result<Single, string>)
    ensures r.Err? <==> ManifestIO.LoadManifest(disk, path).None?
    ensures r.Ok? ==>
      var files := ManifestIO.LoadManifest(disk, path).value.files;
      var found := FindById(files, fileId);
      (r.value.summary.None? <==>
         || found.None?
         || files[found.value].docType != Textbook
         || files[found.value].status != Processed
         || TextExtraction.LoadExtractedText(texts, fileId).None?)
    ensures r.Ok? && r.value.summary.None? ==> r.value.disk == disk && r.value.dir == dir
    ensures r.Ok? && r.value.summary.Some? ==>
      fileId in r.value.dir && r.value.dir[fileId].Valid?
      && ManifestIO.LoadManifest(r.value.disk, path).Some?
    // the metadata saved is the extractor's, and the registry records it
    ensures r.Ok? && r.value.summary.Some? ==>
      var files := ManifestIO.LoadManifest(disk, path).value.files;
      var k := FindById(files, fileId).value;
      var t := TextExtraction.LoadExtractedText(texts, fileId).value;
      && r.value.dir == dir[fileId := Valid(ExtractToc(fileId, t.pages, files[k].filename, DefaultMaxTocPages, llm).0)]
      && r.value.summary.value.tocPages == r.value.dir[fileId].content.tocSourcePages
      && ManifestIO.LoadManifest(r.value.disk, path).value.files
         == files[k := files[k].(derived := AppendIfAbsent(files[k].derived, TocArtifact(fileId)))]
    // the registry saved is the one loaded, header included, with that one entry changed
    ensures r.Ok? && r.value.summary.Some? ==>
      var before := ManifestIO.LoadManifest(disk, path).value;
      var k := FindById(before.files, fileId).value;
      ManifestIO.LoadManifest(r.value.disk, path)
        == Some(before.(files := before.files[k := before.files[k].(derived := AppendIfAbsent(before.files[k].derived, TocArtifact(fileId)))]))
  {
    match ManifestIO.LoadManifest(disk, path)
    case None => Err("Manifest not found: " + path)
    case Some(m) =>
      match FindById(m.files, fileId)
      case None => Ok(Single(disk, dir, None))
      case Some(k) =>
        var f := m.files[k];
        if f.docType != Textbook || f.status != Processed then Ok(Single(disk, dir, None))
        else match TextExtraction.LoadExtractedText(texts, f.fileId)
          case None => Ok(Single(disk, dir, None))
          case Some(t) =>
            var (md, _) := ExtractToc(f.fileId, t.pages, f.filename, DefaultMaxTocPages, llm);
            var g := f.(derived := AppendIfAbsent(f.derived, TocArtifact(f.fileId)));
            var saved := m.(files := m.files[k := g]);
            ManifestIO.SaveThenLoad(disk, path, tmp, saved);
            Ok(Single(ManifestIO.SaveManifest(disk, path, tmp, saved), dir[f.fileId := Valid(md)],
                      Some(Summarise(md, f.filename))))
  }

  /** The summary describes the metadata just saved: its chapter count, and
      the least start and greatest end page over its chapters, both attained
      by a chapter and both absent exactly when there are no chapters. */
  lemma ExtractSingleSummary(fileId: string, disk: ManifestIO.Disk, path: string, tmp: string,
                             texts: TextExtraction.TextDir, dir: MetadataDir, llm: Llm)
    ensures var r := ExtractSingleTextbookToc(fileId, disk, path, tmp, texts, dir, llm);
      r.Ok? && r.value.summary.Some? ==>
      var sm := r.value.summary.value;
      var md := r.value.dir[fileId].content;
      && sm.numChapters == |md.chapters|
      && (sm.firstPage.Some? <==> md.chapters != []) && (sm.lastPage.Some? <==> md.chapters != [])
      && (sm.firstPage.Some? ==> forall k :: 0 <= k < |md.chapters| ==>
            sm.firstPage.value <= md.chapters[k].pageStart)
      && (sm.lastPage.Some? ==> forall k :: 0 <= k < |md.chapters| ==>
            md.chapters[k].pageEnd <= sm.lastPage.value)
      && (sm.firstPage.Some? ==> exists k :: 0 <= k < |md.chapters| && md.chapters[k].pageStart == sm.firstPage.value)
      && (sm.lastPage.Some? ==> exists k :: 0 <= k < |md.chapters| && md.chapters[k].pageEnd == sm.lastPage.value)
  {
    var r := ExtractSingleTextbookToc(fileId, disk, path, tmp, texts, dir, llm);
    if r.Ok? && r.value.summary.Some? {
      var files := ManifestIO.LoadManifest(disk, path).value.files;
      var f := files[FindById(files, fileId).value];
      var t := TextExtraction.LoadExtractedText(texts, fileId).value;
      var md := ExtractToc(fileId, t.pages, f.filename, DefaultMaxTocPages, llm).0;
      assert r.value.summary.value == Summarise(md, f.filename);
      assert r.value.dir[fileId].content == md;
    }
  }
}

=== FILE: token_windows.dfy ===
/** Fixed-size token windows: the older `chunk_text` loop
    (app/tools/chunking.py) and the splitter's last-resort
    `_split_by_tokens` (app/tools/semantic_chunking.py). The tokenizer is an
    input: an encoder and a decoder, with the token count of a string being
    the length of its encoding. */
module TokenWindows {
  import opened Wrappers
  import opened Text
  import opened Seqs

  type Token = int

  datatype Tokenizer = Tokenizer(encode: string -> seq<Token>, decode: seq<Token> -> string)

  /** `len(encoding.encode(s))`. */
  function Count(tok: Tokenizer, s: string): nat
  {
    |tok.encode(s)|
  }

  /** Python's `xs[a:b]`: both bounds normalised, empty when they cross. */
  function PySlice<T>(xs: seq<T>, a: int, b: int): (r: seq<T>)
    ensures 0 <= a <= b <= |xs| ==> r == xs[a..b]
    ensures |r| <= |xs|
  {
    var lo := SliceBound(a, |xs|);
    var hi := SliceBound(b, |xs|);
    if lo < hi then xs[lo..hi] else []
  }

  /** How Python reads the bounds: a bound past the end is the end, a
      negative bound counts back from the end, one before the start is the
      start; and the slice is the contiguous piece of `xs` that begins at
      the normalised start. */
  lemma PySliceBounds<T>(xs: seq<T>, a: int, b: int)
    ensures b > |xs| ==> PySlice(xs, a, b) == PySlice(xs, a, |xs|)
    ensures -|xs| <= a < 0 ==> PySlice(xs, a, b) == PySlice(xs, |xs| + a, b)
    ensures -|xs| <= b < 0 ==> PySlice(xs, a, b) == PySlice(xs, a, |xs| + b)
    ensures a < -|xs| ==> PySlice(xs, a, b) == PySlice(xs, 0, b)
    ensures SliceBound(a, |xs|) + |PySlice(xs, a, b)| <= |xs|
    ensures PySlice(xs, a, b) == xs[SliceBound(a, |xs|)..SliceBound(a, |xs|) + |PySlice(xs, a, b)|]
  {
  }

  /** `xs[:k] + xs[k:] == xs` for every integer `k`. */
  lemma PySliceSplit<T>(xs: seq<T>, k: int)
    ensures PySlice(xs, 0, k) + PySlice(xs, k, |xs|) == xs
  {
    var m := SliceBound(k, |xs|);
    assert PySlice(xs, 0, k) == xs[..m];
    assert PySlice(xs, k, |xs|) == xs[m..];
  }

  function Min(a: int, b: int): int
  {
    if a < b then a else b
  }

  // ---------------------------------------------------------------
  // `chunk_text`
  // ---------------------------------------------------------------

  /** The `(start, end)` pairs the `chunk_text` loop visits from `start`
      on over `n` tokens, or `None` when `fuel` iterations do not reach an
      exit. Exits are the loop test `start < n` and the break once the next
      start is at or past `n`. */
  function LegacyWindows(n: nat, maxTokens: int, overlap: int, start: int, fuel: nat)
    : Option<seq<(int, int)>>
    decreases fuel
  {
    if !(start < n) then Some([])
    else if fuel == 0 then None
    else
      var end := Min(start + maxTokens, n);
      var next := end - overlap;
      if next >= n then Some([(start, end)])
      else match LegacyWindows(n, maxTokens, overlap, next, fuel - 1)
        case None => None
        case Some(ws) => Some([(start, end)] + ws)
  }

  /** `chunk_text`: the decoded windows, when the loop stops within `fuel`
      iterations. */
  function ChunkText(tok: Tokenizer, text: string, maxTokens: int, overlap: int, fuel: nat)
    : (r: Option<seq<string>>)
    ensures tok.encode(text) == [] ==> r == Some([])
    ensures r.Some? <==> LegacyWindows(|tok.encode(text)|, maxTokens, overlap, 0, fuel).Some?
    ensures r.Some? ==>
      var ws := LegacyWindows(|tok.encode(text)|, maxTokens, overlap, 0, fuel).value;
      |r.value| == |ws|
      && forall k :: 0 <= k < |ws| ==>
           r.value[k] == tok.decode(PySlice(tok.encode(text), ws[k].0, ws[k].1))
  {
    var tokens := tok.encode(text);
    match LegacyWindows(|tokens|, maxTokens, overlap, 0, fuel)
    case None => None
    case Some(ws) =>
      Some(seq(|ws|, k requires 0 <= k < |ws| => tok.decode(PySlice(tokens, ws[k].0, ws[k].1))))
  }

  /** With a positive overlap the loop never stops on non-empty input: the
      next start is always `end - overlap < n`, so neither exit is taken,
      however many iterations are allowed. */
  lemma {:induction false} LegacyDivergesWithOverlap(n: nat, maxTokens: int, overlap: int,
                                                      start: int, fuel: nat)
    requires overlap > 0 && start < n
    ensures LegacyWindows(n, maxTokens, overlap, start, fuel) == None
    decreases fuel
  {
    if fuel > 0 {
      var end := Min(start + maxTokens, n);
      LegacyDivergesWithOverlap(n, maxTokens, overlap, end - overlap, fuel - 1);
    }
  }

  /** So `chunk_text` on any text with at least one token and a positive
      overlap does not return. */
  lemma ChunkTextDoesNotReturn(tok: Tokenizer, text: string, maxTokens: int, overlap: int,
                               fuel: nat)
    requires overlap > 0 && tok.encode(text) != []
    ensures ChunkText(tok, text, maxTokens, overlap, fuel) == None
  {
    LegacyDivergesWithOverlap(|tok.encode(text)|, maxTokens, overlap, 0, fuel);
  }

  /** The window shape when the loop does stop, from a start `s0`: window
      `k` starts `k` strides of `maxTokens - overlap` after `s0`, ends
      `maxTokens` later or at `n`, and holds at most `maxTokens` tokens. */
  lemma {:induction false} LegacyWindowShape(n: nat, maxTokens: int, overlap: int, s0: int,
                                             fuel: nat)
    requires 0 <= s0 && maxTokens > 0 && overlap <= 0
    requires LegacyWindows(n, maxTokens, overlap, s0, fuel).Some?
    ensures var ws := LegacyWindows(n, maxTokens, overlap, s0, fuel).value;
      forall k :: 0 <= k < |ws| ==>
        && ws[k].0 == s0 + k * (maxTokens - overlap)
        && ws[k].1 == Min(ws[k].0 + maxTokens, n)
        && 0 <= ws[k].0 < ws[k].1 <= n
        && ws[k].1 - ws[k].0 <= maxTokens
    decreases fuel
  {
    if s0 < n && fuel > 0 {
      var end := Min(s0 + maxTokens, n);
      var next := end - overlap;
      if next < n {
        var ws := LegacyWindows(n, maxTokens, overlap, s0, fuel).value;
        LegacyWindowShape(n, maxTokens, overlap, next, fuel - 1);
        var rest := LegacyWindows(n, maxTokens, overlap, next, fuel - 1).value;
        assert ws == [(s0, end)] + rest;
        assert end == s0 + maxTokens;
        forall k | 1 <= k < |ws|
          ensures ws[k].0 == s0 + k * (maxTokens - overlap)
        {
          assert ws[k] == rest[k - 1];
          assert (k - 1) * (maxTokens - overlap) + (maxTokens - overlap) == k * (maxTokens - overlap);
        }
      }
    }
  }

  /** Concatenation of a sequence of sequences. */
  function Flatten<T>(xss: seq<seq<T>>): seq<T>
    decreases |xss|
  {
    if xss == [] then [] else xss[0] + Flatten(xss[1..])
  }

  /** The token slices a list of windows selects. */
  function Slices<T>(tokens: seq<T>, ws: seq<(int, int)>): (r: seq<seq<T>>)
    ensures |r| == |ws|
    ensures forall k :: 0 <= k < |ws| ==> r[k] == PySlice(tokens, ws[k].0, ws[k].1)
    decreases |ws|
  {
    if ws == [] then [] else [PySlice(tokens, ws[0].0, ws[0].1)] + Slices(tokens, ws[1..])
  }

  /** With no overlap and a positive window the loop stops within
      `n - start` iterations, and its windows cut the tokens from `start`
      into consecutive pieces that put them back together exactly. */
  lemma {:induction false} LegacyPartitionsWithoutOverlap<T>(tokens: seq<T>, maxTokens: int,
                                                            start: nat, fuel: nat)
    requires maxTokens > 0 && start <= |tokens| && fuel >= |tokens| - start
    ensures LegacyWindows(|tokens|, maxTokens, 0, start, fuel).Some?
    ensures Flatten(Slices(tokens, LegacyWindows(|tokens|, maxTokens, 0, start, fuel).value))
            == tokens[start..]
    decreases |tokens| - start
  {
    var n := |tokens|;
    if start < n {
      var end := Min(start + maxTokens, n);
      if end >= n {
        assert LegacyWindows(n, maxTokens, 0, start, fuel) == Some([(start, end)]);
        assert Slices(tokens, [(start, end)]) == [tokens[start..n]];
        assert Flatten([tokens[start..n]]) == tokens[start..n] + Flatten([]);
      } else {
        LegacyPartitionsWithoutOverlap(tokens, maxTokens, end, fuel - 1);
        var rest := LegacyWindows(n, maxTokens, 0, end, fuel - 1).value;
        var ws := [(start, end)] + rest;
        assert LegacyWindows(n, maxTokens, 0, start, fuel) == Some(ws);
        assert ws[1..] == rest;
        assert Slices(tokens, ws) == [tokens[start..end]] + Slices(tokens, rest);
        assert tokens[start..] == tokens[start..end] + tokens[end..];
      }
    } else {
      assert tokens[start..] == [];
    }
  }

  // ---------------------------------------------------------------
  // `RecursiveCharacterSplitter._split_by_tokens`
  // ---------------------------------------------------------------

  /** The next start and the break test of the window loop: the loop stops
      once the next start is at least `n - overlap`. */
  function NextStart(n: nat, maxTokens: int, overlap: int, start: int): int
  {
    Min(start + maxTokens, n) - overlap
  }

  predicate Breaks(n: nat, overlap: int, next: int)
  {
    next >= n - overlap
  }

  /** The windows the `_split_by_tokens` loop visits from `start`; the
      overlap must be smaller than the window for the loop to advance. */
  function Windows(n: nat, maxTokens: int, overlap: int, start: nat): (ws: seq<(nat, nat)>)
    requires 0 <= overlap < maxTokens
    ensures start >= n ==> ws == []
    ensures start < n ==> |ws| >= 1 && ws[0] == (start, Min(start + maxTokens, n))
    decreases n - start
  {
    if !(start < n) then []
    else
      var end := Min(start + maxTokens, n);
      var next := NextStart(n, maxTokens, overlap, start);
      if Breaks(n, overlap, next) then [(start, end)]
      else [(start, end)] + Windows(n, maxTokens, overlap, next)
  }

  /** One step of the window loop: the first window, then the rest unless
      the loop breaks. */
  lemma WindowsUnfold(n: nat, maxTokens: int, overlap: int, start: nat)
    requires 0 <= overlap < maxTokens && start < n
    ensures var next := NextStart(n, maxTokens, overlap, start);
      && (Breaks(n, overlap, next) ==>
            Windows(n, maxTokens, overlap, start) == [(start, Min(start + maxTokens, n))])
      && (!Breaks(n, overlap, next) ==>
            && next == start + (maxTokens - overlap) && start < next
            && Min(start + maxTokens, n) == start + maxTokens
            && Windows(n, maxTokens, overlap, start)
               == [(start, Min(start + maxTokens, n))] + Windows(n, maxTokens, overlap, next))
  {
  }

  /** Every window is a non-empty range of the tokens of at most
      `maxTokens` tokens, and window `k` starts `k` strides of
      `maxTokens - overlap` after `start`. */
  lemma {:induction false} WindowsShape(n: nat, maxTokens: int, overlap: int, start: nat)
    requires 0 <= overlap < maxTokens
    ensures var ws := Windows(n, maxTokens, overlap, start);
      forall k :: 0 <= k < |ws| ==>
        && ws[k].0 == start + k * (maxTokens - overlap)
        && ws[k].1 == Min(ws[k].0 + maxTokens, n)
        && ws[k].0 < ws[k].1 <= n
    decreases n - start
  {
    if start < n {
      WindowsUnfold(n, maxTokens, overlap, start);
      var next := NextStart(n, maxTokens, overlap, start);
      if !Breaks(n, overlap, next) {
        var ws := Windows(n, maxTokens, overlap, start);
        var rest := Windows(n, maxTokens, overlap, next);
        WindowsShape(n, maxTokens, overlap, next);
        forall k | 1 <= k < |ws|
          ensures ws[k].0 == start + k * (maxTokens - overlap)
        {
          assert ws[k] == rest[k - 1];
          StrideStep(k, maxTokens - overlap);
        }
      }
    }
  }

  /** Consecutive windows share exactly `overlap` tokens, only the last
      one reaches the end of the tokens, and it does reach it. */
  lemma {:induction false} WindowsCover(n: nat, maxTokens: int, overlap: int, start: nat)
    requires 0 <= overlap < maxTokens
    ensures var ws := Windows(n, maxTokens, overlap, start);
      && (forall k :: 0 <= k < |ws| - 1 ==> ws[k + 1].0 == ws[k].1 - overlap && ws[k].1 < n)
      && (ws != [] ==> ws[|ws| - 1].1 == n)
    decreases n - start
  {
    if start < n {
      WindowsUnfold(n, maxTokens, overlap, start);
      var next := NextStart(n, maxTokens, overlap, start);
      if !Breaks(n, overlap, next) {
        var ws := Windows(n, maxTokens, overlap, start);
        var rest := Windows(n, maxTokens, overlap, next);
        WindowsCover(n, maxTokens, overlap, next);
        assert forall k :: 1 <= k < |ws| ==> ws[k] == rest[k - 1];
        assert ws[|ws| - 1] == rest[|rest| - 1];
      }
    }
  }

  lemma StrideStep(k: int, d: int)
    ensures (k - 1) * d + d == k * d
  {
  }

  /** The decoded windows with the whitespace-only ones dropped. */
  function NonBlankDecoded(tok: Tokenizer, tokens: seq<Token>, ws: seq<(nat, nat)>): seq<string>
    decreases |ws|
  {
    if ws == [] then []
    else
      var text := tok.decode(PySlice(tokens, ws[0].0, ws[0].1));
      (if IsBlank(text) then [] else [text]) + NonBlankDecoded(tok, tokens, ws[1..])
  }

  /** Every kept window is not whitespace-only, and at most one text is
      kept per window. */
  lemma {:induction false} NonBlankDecodedIsNonBlank(tok: Tokenizer, tokens: seq<Token>,
                                                     ws: seq<(nat, nat)>)
    ensures var r := NonBlankDecoded(tok, tokens, ws);
      |r| <= |ws| && forall k :: 0 <= k < |r| ==> !IsBlank(r[k])
    decreases |ws|
  {
    if ws != [] {
      NonBlankDecodedIsNonBlank(tok, tokens, ws[1..]);
    }
  }

  lemma NonBlankDecodedCons(tok: Tokenizer, tokens: seq<Token>, w: (nat, nat), ws: seq<(nat, nat)>)
    ensures var text := tok.decode(PySlice(tokens, w.0, w.1));
      NonBlankDecoded(tok, tokens, [w] + ws)
      == (if IsBlank(text) then [] else [text]) + NonBlankDecoded(tok, tokens, ws)
  {
    assert ([w] + ws)[1..] == ws;
  }

  /** `_split_by_tokens` as a value. */
  function SplitByTokens(tok: Tokenizer, maxTokens: int, overlap: int, text: string): (r: seq<string>)
    requires 0 <= overlap < maxTokens
    ensures forall k :: 0 <= k < |r| ==> !IsBlank(r[k])
    ensures tok.encode(text) == [] ==> r == []
  {
    var tokens := tok.encode(text);
    NonBlankDecodedIsNonBlank(tok, tokens, Windows(|tokens|, maxTokens, overlap, 0));
    NonBlankDecoded(tok, tokens, Windows(|tokens|, maxTokens, overlap, 0))
  }

  /** What one iteration of the window loop contributes: the decoded
      window unless it is whitespace-only, then the windows after it. */
  lemma NonBlankDecodedStep(tok: Tokenizer, tokens: seq<Token>, maxTokens: int, overlap: int,
                            start: nat, end: nat, next: int, text: string)
    requires 0 <= overlap < maxTokens && start < |tokens|
    requires end == Min(start + maxTokens, |tokens|) && next == end - overlap
    requires start <= end <= |tokens| && text == tok.decode(tokens[start..end])
    ensures Breaks(|tokens|, overlap, next) ==>
      NonBlankDecoded(tok, tokens, Windows(|tokens|, maxTokens, overlap, start))
      == (if IsBlank(text) then [] else [text])
    ensures !Breaks(|tokens|, overlap, next) ==>
      && start < next
      && NonBlankDecoded(tok, tokens, Windows(|tokens|, maxTokens, overlap, start))
         == (if IsBlank(text) then [] else [text])
            + NonBlankDecoded(tok, tokens, Windows(|tokens|, maxTokens, overlap, next))
  {
    var n := |tokens|;
    WindowsUnfold(n, maxTokens, overlap, start);
    var tail := if Breaks(n, overlap, next) then [] else Windows(n, maxTokens, overlap, next);
    NonBlankDecodedCons(tok, tokens, (start, end), tail);
    assert PySlice(tokens, start, end) == tokens[start..end];
  }

  /** The loop of `_split_by_tokens`, as written, computes that value. */
  method SplitByTokensLoop(tok: Tokenizer, maxTokens: int, overlap: int, text: string)
    returns (chunks: seq<string>)
    requires 0 <= overlap < maxTokens
    ensures chunks == SplitByTokens(tok, maxTokens, overlap, text)
  {
    var tokens := tok.encode(text);
    var n := |tokens|;
    ghost var goal := NonBlankDecoded(tok, tokens, Windows(n, maxTokens, overlap, 0));
    chunks := [];
    var start: nat := 0;
    while start < n
      invariant chunks + NonBlankDecoded(tok, tokens, Windows(n, maxTokens, overlap, start)) == goal
      decreases n - start
    {
      var end := Min(start + maxTokens, n);
      var chunkText := tok.decode(tokens[start..end]);
      var next := end - overlap;
      NonBlankDecodedStep(tok, tokens, maxTokens, overlap, start, end, next, chunkText);
      ghost var head := if IsBlank(chunkText) then [] else [chunkText];
      ghost var rest := if Breaks(n, overlap, next) then []
                        else NonBlankDecoded(tok, tokens, Windows(n, maxTokens, overlap, next));
      assert NonBlankDecoded(tok, tokens, Windows(n, maxTokens, overlap, start)) == head + rest;
      SeqAssoc(chunks, head, rest);
      ghost var before := chunks;
      if !IsBlank(chunkText) {
        chunks := chunks + [chunkText];
      }
      assert chunks + rest == goal by {
        assert chunks == before + head;
      }
      if next >= n - overlap {
        assert rest == [];
        break;
      }
      start := next;
    }
  }

  lemma SeqAssoc<T>(a: seq<T>, b: seq<T>, c: seq<T>)
    ensures a + (b + c) == (a + b) + c
  {
  }

  /** With an overlap of at least the window size, a window that does not
      reach the end is followed by one that starts no later and does not
      reach the end either: the loop never exits. */
  lemma WindowLoopStalls(n: nat, maxTokens: int, overlap: int, start: int)
    requires overlap >= maxTokens && start + maxTokens < n
    ensures !Breaks(n, overlap, NextStart(n, maxTokens, overlap, start))
    ensures NextStart(n, maxTokens, overlap, start) <= start
    ensures NextStart(n, maxTokens, overlap, start) + maxTokens < n
  {
  }
}

=== FILE: wrappers.dfy ===
/** Failure-carrying values shared by every module of the model. */
module Wrappers {

  /** Python's `Optional[T]`: `None` or a present value. */
  datatype Option<+T> = None | Some(value: T)

  /** A structured success/error result, as the stage tools return it. */
  datatype Result<+T, +E> = Ok(value: T) | Err(error: E)

  /** A JSON artifact on disk as a loader sees it: absent, present but not
      parseable into the expected schema, or present and valid. */
  datatype Stored<+T> = Missing | Corrupt | Valid(content: T)

  /** Every `load_*` helper of the repository: `None` when the file does not
      exist or does not parse, the parsed value otherwise. */
  function Load<T>(s: Stored<T>): (r: Option<T>)
    ensures r.None? <==> (s.Missing? || s.Corrupt?)
    ensures s.Valid? ==> r == Some(s.content)
  {
    match s
    case Valid(v) => Some(v)
    case _ => None
  }
}
